=== FILE: README.md ===
# Desk pets — a Dafny model of the pet behaviour engine

This project models the logic of a small family of desktop-pet programs.
Each program keeps an animated character on the Windows desktop. It walks,
gets dragged and thrown, lies down near the pointer, and shows a speech
bubble when a message arrives in the user's inbox. The model covers:

- **The DeskPets agent** (`DeskPets_repo/pets.py`). The per-colour state catalogue with its defaults. The random state choice with exclusions. The polled drag, the release impulse and the damped throw with edge bounces. The proximity "lie" override and its immunity. The right-quarter partition clamp. The size-bucket resize and the frame interval. One `update_state` tick.
  Modules `PetStates`, `PetPhysics`, `PetFrames` and `Pet`.
- **Catalogue generation** (`DeskPets_repo/get_states.py`). Parsing `colour_state_suffix.gif` names and merging species defaults. Module `Catalogue`.
- **Messaging inboxes** (`DeskPets_repo/messaging.py`). JSON-lines inbox files, sending, and `fetch_undelivered`, which marks rows delivered and returns the new ones. Module `Messaging`.
- **The main window's bubble** (`DeskPets_repo/window.py`). The bubble text built from fetched messages, the anchor next to the first pet, fullscreen-change refreshes and `close`. Module `Window`.
- **The standalone messaging widget** (`DeskPets_repo/setup.py`). Sprite-source selection: path scoring, best GIF, PNG sequence grouping and best sequence. The PNG frame tick, the margin-bounce walk, the speech bubble and `check_inbox`.
  Modules `Sprites`, `Walk` and `Standalone`.
- **The older single-widget pet** (`old/pet_demo.py`). Mapping validation, the movie cache, `_set_state`, the speed-based idle/walk/walk_fast switch, the tick and the double-click swipe. Module `Demo`. It reuses `Walk` and, for its inbox check, `Standalone.CheckInbox`.
- **The companion cat** (`compapet/main.py`). The animation state machine with its one-shot lock, Idle fallback and Dead hold. The gravity jump, the clamp-and-bounce free walk, the probability bands of the random behaviour, click counting up to death, revive, and where droppings spawn. Module `Companion`.

`Base` holds `Option`/`Result`, real clamps and Python's `int()` on floats (truncation toward zero). `Text` holds the Python string operations the programs use.

Everything the programs take from the outside world is a parameter of the model:

- pointer position and buttons;
- screen and window sizes;
- the fullscreen reading;
- random draws;
- the clock (`now`);
- message ids;
- the JSON codec;
- whether an image or movie file loads.

Files are maps from names to lines.

Floating-point positions, velocities and quotients are modelled as exact `real` numbers. This abstracts Python floats: no rounding, overflow, NaN or infinity is modelled. Where the program turns a float into an integer with `int()`, the model truncates the exact real.

## Model

| member | source | states |
|---|---|---|
| `Text.Strip` | DeskPets_repo/messaging.py:28 | `str.strip()` returns a slice of the input with no whitespace at either end, and is empty exactly when the input is all whitespace |
| `Text.StripIdempotent` | DeskPets_repo/messaging.py:54 | stripping an already stripped text changes nothing |
| `Text.Lower` | DeskPets_repo/setup.py:115-116 | `str.lower()` keeps the length and lowers each character on its own |
| `Text.StripTrailingDigits` | DeskPets_repo/setup.py:119 | `re.sub(r"\d+$", "", s)` removes a run of digits ending the text and leaves a prefix that does not end in a digit |
| `Text.JoinSplit` | DeskPets_repo/get_states.py:31-35 | joining the parts of `s.split(sep)` with `sep` gives back `s` |
| `Text.SplitCount` | DeskPets_repo/get_states.py:31-33 | `s.split(sep)` yields one more part than `s` has separators |
| `Text.LessEqTotal` | DeskPets_repo/setup.py:124 | any two texts are ordered one way or the other by Python's string comparison |
| `Text.LessEqTransitive` | DeskPets_repo/setup.py:124 | Python's string comparison is transitive |
| `Base.ClampLowLast` | DeskPets_repo/pets.py:153-154 | `max(lo, min(v, hi))` lies at or above lo, at or below hi when lo <= hi, and leaves a value already within the bounds alone |
| `Base.Trunc` | old/pet_demo.py:203 | Python's `int()` on a float truncates toward zero: the result is within one of the input and never larger in size |
| `Catalogue.ParseGifName` | DeskPets_repo/get_states.py:26-35 | a file is skipped exactly when its lower-cased name does not end in ".gif" or its root splits into fewer than two underscore parts |
| `Catalogue.ParsedNameRebuilds` | DeskPets_repo/get_states.py:30-35 | the colour holds no underscore and the root is the colour, the state and one dropped final part joined by underscores (a two-part name has the empty state) |
| `Catalogue.JoinParts` | DeskPets_repo/get_states.py:31-35 | a name of two or more parts is its first part, the joined middle parts and its last part, joined by "_" |
| `Catalogue.AddFilesColors` | DeskPets_repo/get_states.py:37-40 | the colours recorded for a species are exactly the colours that have a state map |
| `Catalogue.AddFilesLatest` | DeskPets_repo/get_states.py:40 | every `states[color][state]` is the media path of the LAST file in listing order that names that colour and state |
| `Catalogue.AddFilesRecorded` | DeskPets_repo/get_states.py:37-40 | every parsed file's colour and state appear in the species record |
| `Catalogue.AddFilesDefaults` | DeskPets_repo/get_states.py:7-43 | the seven built-in defaults survive untouched; any other default is the (8, 0, 1.0) triple of a state some file names; every recorded state has a default |
| `Catalogue.ScanSpeciesDescribes` | DeskPets_repo/get_states.py:24-45 | the record of one species folder meets all four properties above for its parsed files |
| `Catalogue.ScanMediaSpecies` | DeskPets_repo/get_states.py:17-24 | the catalogue's species are exactly the listed directories outside "backgrounds", "extraIcons" and "icon", each scanned from the last entry of that name |
| `PetStates.InfoFor` | DeskPets_repo/pets.py:53-59 | each of hold, movement speed and animation speed is the species default when present and otherwise fps, 0 and 1.0 |
| `PetStates.BuildStatesInfo` | DeskPets_repo/pets.py:49-59 | STATES_INFO has one entry per state of the colour, in the colour's order, each built from that state's default entry |
| `PetStates.GeneratedCatalogueNeedsNoFallback` | DeskPets_repo/pets.py:50-59 | for a catalogue written by the generator every state takes exactly the generated hold, speed and animation speed |
| `PetStates.Without` | DeskPets_repo/pets.py:93-98 | the keys left are exactly the keys that are not exclusions |
| `PetStates.Candidates` | DeskPets_repo/pets.py:91-101 | the choice is among the non-excluded keys, or among all keys when the exclusions remove every key |
| `PetStates.RandomState` | DeskPets_repo/pets.py:89-116 | no state exactly when the catalogue is empty; otherwise a catalogue state outside the exclusions (when one exists), facing -1 or 1, with that state's gif, hold and speeds |
| `PetStates.RandomStateReachesEveryCandidate` | DeskPets_repo/pets.py:100-103 | every candidate state is chosen by some draw |
| `PetPhysics.ThrowAxis` | DeskPets_repo/pets.py:211-230 | one axis of a throw step moves by the velocity and damps it by 0.85; leaving the screen lands on the edge with the damped velocity reversed and scaled by 0.6 |
| `PetPhysics.ApplyThrow` | DeskPets_repo/pets.py:204-236 | the throw is over, with the velocity zeroed and the pet in place, exactly when both components are below 0.2; otherwise both axes step and the pet stays on screen |
| `PetPhysics.ThrowRun` | DeskPets_repo/pets.py:204-232 | consecutive throw ticks touch only position and velocity |
| `PetPhysics.ThrowSettles` | DeskPets_repo/pets.py:207-215 | a throw whose components are at most 0.2 + 0.03·n in size is at rest after n + 1 ticks |
| `PetPhysics.ThrowSettlesDamped` | DeskPets_repo/pets.py:207-215 | the damping is geometric: a throw whose components are below 0.2 / 0.85^n is at rest after n + 1 ticks |
| `PetPhysics.RestStaysAtRest` | DeskPets_repo/pets.py:207-209 | a pet at rest is not moved by any number of throw ticks |
| `PetPhysics.ThrowStaysOnScreen` | DeskPets_repo/pets.py:217-230 | a thrown pet that starts on screen stays on screen on every tick |
| `PetPhysics.Drag` | DeskPets_repo/pets.py:138-159 | the drag holds exactly while the button is down over the pet or during a drag, tracking the offset pointer clamped to the screen with the last motion as velocity; releasing multiplies the velocity by 1.5 |
| `PetPhysics.GrabDoesNotMove` | DeskPets_repo/pets.py:138-159 | grabbing an on-screen pet and releasing it without motion moves nothing and throws nothing |
| `PetPhysics.RightClick` | DeskPets_repo/pets.py:131-136 | the hook runs exactly on a right press inside the pet that is not yet consumed; the latch clears when the button is up |
| `PetPhysics.OneFirePerPress` | DeskPets_repo/pets.py:131-136 | while the right button stays down the hook runs at most once, and never when the press was already consumed |
| `PetPhysics.PartitionClamp` | DeskPets_repo/pets.py:190-199 | x ends inside [sw - sw // 4, sw - w], unchanged when already inside, and each correction reverses the direction except while digging |
| `PetPhysics.PartitionClampIdempotent` | DeskPets_repo/pets.py:190-199 | clamping a clamped position changes nothing |
| `PetFrames.ParseBucket` | DeskPets_repo/pets.py:243-254 | the bucket is each of the six size names exactly when the lower-cased setting equals that name, and none for any other text |
| `PetFrames.TargetHeight` | DeskPets_repo/pets.py:243-254 | the new height is 20, 40, 125, 150 or 200 by bucket, and the frame's own height for "original" |
| `PetFrames.ScaledWidth` | DeskPets_repo/pets.py:255 | the width is the largest whole number not above width * new_height / height |
| `PetFrames.ResizeFrame` | DeskPets_repo/pets.py:242-256 | a frame fails to resize exactly for an unknown setting, a zero height, or a rounded-down width of 0 that changes the size (the LANCZOS resize refuses it); otherwise it has the target height and the rounded-down proportional width |
| `PetFrames.NarrowFrameFails` | DeskPets_repo/pets.py:254-256 | a 1×200 frame cannot be resized to "very small" (its width rounds down to 0), while "original" keeps it |
| `PetFrames.OriginalKeepsSize` | DeskPets_repo/pets.py:247-255 | resizing a frame under "original" gives it back unchanged |
| `PetFrames.ResizeAll` | DeskPets_repo/pets.py:240-257 | the frames are resized in order and the loop stops at the first frame that raises |
| `PetFrames.Loaded` | DeskPets_repo/pets.py:240-266 | the window size comes from the first frame, height_lie from the last, the count from all of them, and all are set only when every frame resized |
| `PetFrames.Interval` | DeskPets_repo/pets.py:265-266 | an interval exists exactly for a non-zero animation speed and frame rate, and it times fps * speed frames into one second |
| `PetFrames.FrameAnimation` | DeskPets_repo/pets.py:238-269 | a GIF that fails to load leaves no frames; otherwise the properties of the loaded case, with the interval set only when the sizes are |
| `PetFrames.FixedBucketUniformHeight` | DeskPets_repo/pets.py:243-261 | outside "original", height_lie equals the window height |
| `Pet.WithFrames` | DeskPets_repo/pets.py:240-266 | the frames are always replaced; the sizes, height_lie, the frame cursor and the state counter change only on a complete load, and the interval only when it was computed |
| `Pet.Animate` | DeskPets_repo/pets.py:238-269 | reloading the frames keeps the catalogue, the body, the immunity and the state's name and direction |
| `Pet.NewPet` | DeskPets_repo/pets.py:28-87 | construction fails on an unknown species, an unknown colour and a colour without states, each exactly then, and on frames that do not load exactly when the first drawn state's animation fails; a built pet is `Started`, its state table is built from the colour's states and the species defaults, and its state is one of them with the colour's GIF and a zero counter |
| `Pet.FirstState` | DeskPets_repo/pets.py:61-62 | the first state is a state of the colour with its GIF, outside the chain states unless the colour has only those |
| `Pet.Start` | DeskPets_repo/pets.py:51-84 | once the colour has states the only failure, exactly when it happens, is a first animation that does not load; otherwise the pet keeps the given species, colour, fps, size and defaults, its state table is built from the colour's states and defaults, its state is the drawn state with the counter reset, its frames are that state's animation, and it is `Started`: a valid catalogue, a first state outside the chain states when possible, at the right edge on the taskbar (unless it auto-hides or is not at the bottom), height_lie 20, lie_duration 24, not immune, at rest |
| `Pet.Spawn` | DeskPets_repo/pets.py:61-84 | the constructed pet is `Started` and keeps the drawn state with its counter reset and the loaded frames |
| `Pet.LieState` | DeskPets_repo/pets.py:172-177 | the override state is "lie" with the catalogue's gif, hold = lie_duration and the State default direction |
| `Pet.LieDown` | DeskPets_repo/pets.py:171-179 | the override lies the pet down, makes it immune and leaves its position alone |
| `Pet.Progress` | DeskPets_repo/pets.py:181-188 | the pet takes the position `State.next` gives it; a continuing state is exactly `State.next`'s state with everything else unchanged; the state ends exactly when `State.next` says so; then the pet loses its immunity and, unless a squirrel, takes a catalogue state outside the chain states when one exists; otherwise immunity is unchanged |
| `Pet.Settle` | DeskPets_repo/pets.py:190-199 | only x and the direction change, and x ends inside the right-quarter partition |
| `Pet.Behave` | DeskPets_repo/pets.py:164-199 | the wall scene runs exactly when a scene step is set; the lie override fires exactly when the colour has "lie", the pointer is closer than height_lie and the pet is not immune (failing when the species has no defaults); a new state is chosen exactly when none of those apply and the state is over, keeping `State.next`'s y; otherwise the state continues as `State.next` left it, with only x and the direction passed through the partition clamp |
| `Pet.Press` | DeskPets_repo/pets.py:120-155 | the hook runs exactly on an unconsumed right press inside the window of a pet with a main window; the drag holds exactly while the button is down over the pet or during a drag, and keeps the pet on screen |
| `Pet.UpdateState` | DeskPets_repo/pets.py:118-199 | a tick keeps the catalogue valid; dragging and throwing leave state, immunity and frames alone and keep the pet on screen; any other tick leaves the pet at rest |
| `Pet.Released` | DeskPets_repo/pets.py:156-199 | after a release the throw either moves the pet and ends the tick, or the state logic runs with the pet at rest |
| `Messaging.ReadJsonl` | DeskPets_repo/messaging.py:22-35 | a missing file reads as no rows; otherwise there are at most as many rows as lines and each row is what some non-blank stripped line decodes to |
| `Messaging.DecodedFromLines` | DeskPets_repo/messaging.py:27-34 | every row read comes from a line that is not blank once stripped and decodes to it |
| `Messaging.DecodedAppend` | DeskPets_repo/messaging.py:27-34 | reading two parts of a file reads them one after the other: rows keep the order of their lines |
| `Messaging.DecodedSnoc` | DeskPets_repo/messaging.py:27-34 | one more line adds exactly its decoded row, or nothing when it is blank or does not decode |
| `Messaging.BlankLineSkipped` | DeskPets_repo/messaging.py:28-30 | a whitespace-only line contributes no row |
| `Messaging.GoodLineRead` | DeskPets_repo/messaging.py:28-32 | a non-blank line that decodes to d reads back as d after the rows of the lines before it |
| `Messaging.DecodedCount` | DeskPets_repo/messaging.py:27-34 | every line yields a row exactly when no line is blank or undecodable |
| `Messaging.EncodedSnoc` | DeskPets_repo/messaging.py:42-43 | the rewrite writes one encoded line per row, in order |
| `Messaging.EncodedReadsBack` | DeskPets_repo/messaging.py:22-46 | when the codec round-trips each row written (one clean line that decodes back to it), reading the rewritten file gives back exactly those rows |
| `Messaging.RoundTripsOnSatisfiable` | DeskPets_repo/messaging.py:40-41 | the round-trip requirement on a given document can always be met, so the lemmas that ask it of their rows exclude no document |
| `Messaging.InboxName` | DeskPets_repo/messaging.py:49-50 | the inbox file name is "inbox_", the user id, and ".jsonl" |
| `Messaging.InboxNameInjective` | DeskPets_repo/messaging.py:49-50 | different users have different inbox files |
| `Messaging.Inbox` | DeskPets_repo/messaging.py:22-35 | a user without an inbox file reads no rows; otherwise the rows decoded from its lines |
| `Messaging.SendMessage` | DeskPets_repo/messaging.py:53-68 | whitespace-only text changes nothing; otherwise the record with the stripped text, undelivered, is appended as one line to the receiver's inbox, created when missing, and no other file changes |
| `Messaging.SentMessageIsRead` | DeskPets_repo/messaging.py:53-68 | when the codec round-trips the sent record, the receiver reads it after the rows already there |
| `Messaging.TextOf` | DeskPets_repo/messaging.py:91 | a missing text is empty, a string text is stripped, and a non-string text raises exactly when it is truthy |
| `Messaging.Mark` | DeskPets_repo/messaging.py:87-88 | the row gains "delivered" = True and "delivered_at" and keeps every other key |
| `Messaging.Pending` | DeskPets_repo/messaging.py:84-93 | the reference fetch output: the rows that are undelivered objects with non-blank text, in file order, marked delivered |
| `Messaging.MarkAll` | DeskPets_repo/messaging.py:84-89 | the reference rewritten inbox: every object ends up delivered, and the length is kept |
| `Messaging.ReferencesSnoc` | DeskPets_repo/messaging.py:84-93 | both references extend by one row at a time |
| `Messaging.FetchRow` | DeskPets_repo/messaging.py:84-93 | one loop step raises exactly on a faulty row (a non-object, or an undelivered row whose text is a truthy non-string); otherwise it keeps a delivered row, marks any other, and returns it when its text is not blank |
| `Messaging.FetchUndelivered` | DeskPets_repo/messaging.py:80-93 | the loop fails exactly when some row is faulty; otherwise it returns `Pending`, rewrites to `MarkAll`, and reports a change exactly when some object was undelivered |
| `Messaging.FetchAllMeaning` | DeskPets_repo/messaging.py:84-93 | the fold over the rows meets the same contract as the loop |
| `Messaging.FetchAllFails` | DeskPets_repo/messaging.py:84-91 | the fold fails exactly when some row is faulty |
| `Messaging.FetchAllSucceeds` | DeskPets_repo/messaging.py:84-93 | a successful fold returns the reference output and rewrite and is flagged as changed exactly when some object was undelivered |
| `Messaging.NothingPendingAfterFetch` | DeskPets_repo/messaging.py:85-89 | after a fetch nothing is pending: a second fetch returns nothing and every object is delivered |
| `Messaging.MarkAllIdempotent` | DeskPets_repo/messaging.py:85-86 | marking twice is marking once |
| `Messaging.MarkAllUnchanged` | DeskPets_repo/messaging.py:85-86 | an inbox whose objects are all delivered is not changed by marking |
| `Messaging.PendingSnoc` | DeskPets_repo/messaging.py:84-93 | one more row adds its marked copy to the output exactly when it is wanted |
| `Messaging.SentMessageIsFetched` | DeskPets_repo/messaging.py:53-98 | when the codec round-trips the sent record, a sent message never makes the fetch raise, and the receiver's next fetch returns it, marked, after whatever was already pending |
| `Messaging.FetchInbox` | DeskPets_repo/messaging.py:71-98 | an empty or missing inbox returns nothing; the fetch fails exactly when some row is faulty; otherwise it returns `Pending` and, when some row was undelivered, the files become exactly the old ones with the inbox rewritten as one encoded line per marked row; with nothing undelivered the files are unchanged |
| `Messaging.RewrittenInboxReads` | DeskPets_repo/messaging.py:22-46 | when the codec round-trips each row written, the user reads back exactly the rows the rewrite wrote |
| `Messaging.RewriteDropsBadLines` | DeskPets_repo/messaging.py:76-96 | the rewrite is shorter than the file it replaces exactly when some line was blank or did not decode |
| `Window.Candidates` | DeskPets_repo/window.py:271-275 | each message gives its "From sender:" note exactly when its stripped text is not empty |
| `Window.Somes` | DeskPets_repo/window.py:270-275 | the chunks are the present notes in order, empty exactly when no message has text |
| `Window.Cap` | DeskPets_repo/window.py:281-282 | a text of at most 800 characters is kept; a longer one becomes its first 800 characters followed by "\n...\n" |
| `Window.CapIdempotent` | DeskPets_repo/window.py:281-282 | capping a capped text changes nothing |
| `Window.CapKeepsPrefix` | DeskPets_repo/window.py:281-282 | the cap keeps whatever the text begins with, up to 800 characters |
| `Window.FirstNotes` | DeskPets_repo/window.py:270-275 | the chunks are the notes of those of the first five messages that have text: at most five, empty exactly when none of the five has text, and led by the first message's note when it has text |
| `Window.SomesAreNotes` | DeskPets_repo/window.py:270-275 | keeping the present candidates gives exactly the notes of the messages with text, in order |
| `Window.BubbleText` | DeskPets_repo/window.py:270-282 | no bubble exactly when none of the first five messages has text; otherwise a text of at most 805 characters that starts "From " and with the first note |
| `Window.BubbleJoinsNotes` | DeskPets_repo/window.py:270-282 | the bubble is exactly the notes of the first five messages with text joined by "\n\n---\n\n", cut to 800 characters plus "\n...\n" when longer |
| `Window.MarkKeepsText` | DeskPets_repo/messaging.py:87-88 | marking a row delivered leaves its text alone |
| `Window.PendingHasText` | DeskPets_repo/messaging.py:91-93 | every message a fetch returns has text |
| `Window.FetchedMessagesShow` | DeskPets_repo/window.py:263-282 | a non-empty fetch always yields a bubble, so the "no chunks" return is never taken after a fetch |
| `Window.FirstPet` | DeskPets_repo/window.py:185-187 | the first pet, and none exactly when there are no pets |
| `Window.Anchor` | DeskPets_repo/window.py:200-201 | the anchor is the pet's right edge plus 10 and its top minus 10, each truncated to an integer |
| `Window.AnchorFollowsPet` | DeskPets_repo/window.py:200-201 | moving an on-screen pet by whole pixels moves the anchor by the same amount |
| `Window.FollowFirstPet` | DeskPets_repo/window.py:189-204 | the bubble moves exactly when it is visible and a pet exists, to the first pet's anchor |
| `Window.CheckMessages` | DeskPets_repo/window.py:248-293 | unconfigured messaging reports itself only when asked; a failing fetch is silent and writes nothing; an empty fetch says "Inbox empty." for 3 seconds when asked and is silent otherwise; otherwise the bubble shows the fetched messages for 12 seconds at the first pet's anchor; after a fetch that does not fail, the files are the old ones with the inbox rewritten as the marked rows when any was undelivered, and unchanged otherwise |
| `Window.FullscreenStep` | DeskPets_repo/window.py:42-46 | the stored flag becomes the reading, and a refresh is requested exactly when the reading differs and a main window exists |
| `Window.FullscreenSettles` | DeskPets_repo/window.py:42-46 | a second frame with the same reading requests nothing |
| `Window.FlipsCons` | DeskPets_repo/window.py:42-46 | the flip count splits at the first frame |
| `Window.RefreshesAreFlips` | DeskPets_repo/window.py:39-46 | with a main window, the refreshes requested over a run of frames are exactly the flips of the fullscreen reading |
| `Window.Close` | DeskPets_repo/window.py:74-91 | the bitmaps are released, the window destroyed and the frame cursor rewound, and nothing else about the pet changes |
| `Window.CloseIdempotent` | DeskPets_repo/window.py:74-91 | closing twice is closing once |
| `Sprites.SuffixDot` | DeskPets_repo/setup.py:65 | the suffix starts at the name's last dot, which is neither its first nor its last character; no suffix when there is no such dot |
| `Sprites.Suffix` | DeskPets_repo/setup.py:65 | a suffix is empty or starts with a dot, and the name ends with it |
| `Sprites.Stem` | DeskPets_repo/setup.py:118 | the stem followed by the suffix is the name |
| `Sprites.DiscoverAssets` | DeskPets_repo/setup.py:61-71 | the images are exactly the listed files whose lower-cased suffix is .gif, .png, .webp, .jpg or .jpeg |
| `Sprites.ImageOf` | DeskPets_repo/setup.py:64-65 | one listing entry gives its path exactly when it is a file with an image suffix, and nothing otherwise |
| `Sprites.DiscoverAssetsAppend` | DeskPets_repo/setup.py:61-71 | the images keep the listing order: a listing split in two yields the first part's images followed by the second's, at most one per entry |
| `Sprites.LengthBonus` | DeskPets_repo/setup.py:92 | the short-path bonus is at most 10 and vanishes from 30 components on |
| `Sprites.NameBonus` | DeskPets_repo/setup.py:84-90 | the GIF, idle and walk-or-run bonuses add up to at most 46 |
| `Sprites.ScoreMatch` | DeskPets_repo/setup.py:74-93 | the score is at most 106, never below the length bonus, and carries the keyword's 50 exactly when the stripped lower-cased keyword is non-empty and occurs in the lower-cased path |
| `Sprites.KeywordDominates` | DeskPets_repo/setup.py:81-92 | between two paths of the same depth, the one naming the pet scores higher |
| `Sprites.FirstMax` | DeskPets_repo/setup.py:100-101 | the first eligible position of maximal score, -1 exactly when nothing is eligible |
| `Sprites.PickBestGif` | DeskPets_repo/setup.py:96-101 | no GIF exactly when no image is one; otherwise a GIF of top score with no equal-scoring GIF before it, as the stable descending sort leaves first |
| `Sprites.Tag` | DeskPets_repo/setup.py:112-119 | each image is tagged with whether it is a PNG holding the raw lower-cased keyword, and with its stem minus trailing digits |
| `Sprites.KeyOrder` | DeskPets_repo/setup.py:111-120 | the group keys, in order of first appearance, are distinct |
| `Sprites.InsertByName` | DeskPets_repo/setup.py:124 | inserting into a name-sorted list keeps it sorted and adds exactly the one path |
| `Sprites.SortByName` | DeskPets_repo/setup.py:124 | the sort by name yields a sorted permutation of its input |
| `Sprites.InsertStable` | DeskPets_repo/setup.py:124 | inserting puts a path after every path of its own name |
| `Sprites.SortByNameStable` | DeskPets_repo/setup.py:124 | the sort is stable: the paths of each name keep their listing order |
| `Sprites.Append` | DeskPets_repo/setup.py:120 | `setdefault(key, []).append(p)` adds p to the key's list, creating the key at the end when new |
| `Sprites.CollectStep` | DeskPets_repo/setup.py:112-120 | one pass of the first loop keeps each list equal to its key's members read so far |
| `Sprites.Collect` | DeskPets_repo/setup.py:111-120 | the first loop makes one list per key, in order of first appearance, holding its paths in listing order |
| `Sprites.SortedIfLong` | DeskPets_repo/setup.py:124-127 | a list is kept, sorted and with the same paths, exactly when it has two or more; the sort is stable, so paths of one name keep their listing order |
| `Sprites.LongKeysExactly` | DeskPets_repo/setup.py:123-127 | the keys kept are exactly the keys with two or more members, and they stay distinct |
| `Sprites.KeepLongKeys` | DeskPets_repo/setup.py:123-127 | the kept groups are those of the long keys, in the same order |
| `Sprites.KeepKeepsOrder` | DeskPets_repo/setup.py:123-127 | the kept groups appear in the order their keys were first met |
| `Sprites.KeepIsGood` | DeskPets_repo/setup.py:123-127 | every kept group has two or more paths, sorted by name, that are exactly its key's members, with the paths of each name in listing order |
| `Sprites.KeepSequences` | DeskPets_repo/setup.py:123-128 | the second loop computes `Keep` |
| `Sprites.GroupTagged` | DeskPets_repo/setup.py:111-128 | the groups are exactly the long keys in order of first appearance; each holds its key's members, at least two, sorted by name with equal names in listing order |
| `Sprites.GroupPngSequences` | DeskPets_repo/setup.py:104-128 | the same for the tagged image list: the long keys in order of first appearance, each group its key's members sorted stably by name |
| `Sprites.SeqScore` | DeskPets_repo/setup.py:151-162 | a sequence scores at most 67 and at least its frame count up to 20 |
| `Sprites.IdleRanksFirst` | DeskPets_repo/setup.py:151-162 | between sequences of equal length that agree on the keyword, an idle sequence outranks one that is not |
| `Sprites.ChooseSpriteSource` | DeskPets_repo/setup.py:137-165 | no images give nothing; a GIF is chosen exactly when one exists, the best-scoring and earliest; otherwise the frames of a top-scoring long sequence with no equal-scoring key before it; nothing exactly when there is neither a GIF nor a long sequence |
| `Sprites.BestOf` | DeskPets_repo/setup.py:164-165 | the chosen group is kept, scores at least as high as every long key, and no earlier long key scores as high |
| `Sprites.MaxIsBestSequence` | DeskPets_repo/setup.py:164 | a kept group of maximal score among the kept groups beats every long key |
| `Sprites.FirstMaxIsFirstBest` | DeskPets_repo/setup.py:164 | the first top-scoring kept group has no equal-scoring key before it in the dict's order |
| `Walk.BounceAxis` | DeskPets_repo/setup.py:424-435 | a position outside the inset reverses the velocity and is clamped to `max(min(p, hi), lo)`; a position inside is kept with its velocity |
| `Walk.BounceIdempotent` | DeskPets_repo/setup.py:430-435 | a bounced position bounces no further |
| `Walk.ClampSpeed` | DeskPets_repo/setup.py:418-419 | the speed limit keeps a velocity within the maximum and leaves one already within it alone |
| `Walk.Step` | old/pet_demo.py:350-379 | one step keeps the window inside the inset rectangle whenever it is non-empty, bounds both speeds, and each velocity is the drifted clamped one or its reverse; when the moved position stays inside, the window moves by that velocity (truncated to whole pixels) |
| `Walk.InsideKeepsHeading` | old/pet_demo.py:361-372 | a step that stays inside the inset keeps its horizontal velocity |
| `Walk.EdgeReverses` | old/pet_demo.py:361-373 | a step leaving the inset on the left or right reverses the horizontal velocity and lands on that edge's column |
| `Standalone.TickPng` | DeskPets_repo/setup.py:290-294 | without frames nothing changes; otherwise the index advances by one and wraps to 0 after the last frame |
| `Standalone.TickPngAdvance` | DeskPets_repo/setup.py:293 | k ticks advance the index by k modulo the frame count |
| `Standalone.TickPngPeriod` | DeskPets_repo/setup.py:293 | after as many ticks as there are frames the index is back where it started |
| `Standalone.WalkStep` | DeskPets_repo/setup.py:402-442 | nothing while dragging or without a screen; otherwise one walk step with speed at most 2 on each axis, and the bubble text dropped exactly when it is non-empty and now is past its expiry |
| `Standalone.Say` | DeskPets_repo/setup.py:366-369 | the bubble shows the text until now plus the given seconds, and nothing else changes |
| `Standalone.SpeechLastsItsTime` | DeskPets_repo/setup.py:440-442 | a bubble survives every walk step up to its expiry time |
| `Standalone.Note` | DeskPets_repo/setup.py:349-355 | each note reads "From " followed by the sender ("?" when absent) and the stripped text |
| `Standalone.Notes` | DeskPets_repo/setup.py:346-355 | the notes of the fetched rows, one per row, in order |
| `Standalone.Reply` | DeskPets_repo/setup.py:360-364 | new messages are said for 12 seconds and start "From "; without any, "No new messages." is said for 2 seconds exactly when asked |
| `Standalone.CheckInbox` | DeskPets_repo/setup.py:336-364 | an empty inbox says "Inbox empty." only when asked and writes nothing; a faulty row ends the check, exactly then; otherwise every undelivered row is marked, the file is written exactly when some row was undelivered, and the reply is that of the pending rows |
| `Standalone.SecondCheckIsQuiet` | DeskPets_repo/setup.py:346-364 | checking the rewritten inbox again writes nothing and says "No new messages." only when asked |
| `Demo.FirstMissing` | old/pet_demo.py:87-91 | the first state, in file order, whose asset is missing, with every earlier asset present |
| `Demo.LoadMapping` | old/pet_demo.py:67-93 | a missing data file, an unknown species and an unknown variant (including a species without "states") fail, each exactly then; the load succeeds exactly when every asset of the variant exists, with the variant's states and the species defaults (empty when absent); otherwise it names the first missing asset |
| `Demo.Param` | old/pet_demo.py:144 | `defaults.get(state, {}).get(key, fallback)`: the stored number when both keys exist, the fallback otherwise |
| `Demo.GetMovie` | old/pet_demo.py:190-207 | no movie exactly for a state the mapping lacks or an uncached one that does not decode; a cached movie is reused; a new one runs at `int(100 * speed_animation)` percent (speed 1 when absent) and is cached |
| `Demo.SetStateAsWritten` | old/pet_demo.py:209-227 | a state without a movie changes nothing but the cache; the current state returns early, leaving the label as it was; any other state becomes current and shown, and a positive force starts a forced period from now |
| `Demo.SetState` | old/pet_demo.py:209-227 | the corrected switch: a state with a movie always ends up current and on the label |
| `Demo.PlaceInitial` | old/pet_demo.py:168-174 | the widget starts at (400, 400) without a screen and otherwise at the screen's origin plus 78% of its width and 65% of its height, truncated, which lies on the screen |
| `Demo.Initial` | old/pet_demo.py:126-146 | construction starts with "idle" current, nothing on the label, an empty cache, no bubble, at the initial place, and at the velocity (0.35, 0.25) times the walk state's movement speed from the defaults, or times 3, giving (1.05, 0.75), when the defaults lack it |
| `Demo.NewPetAsWritten` | old/pet_demo.py:126-162 | after construction "idle" is current but nothing is on the label, no forced period runs, and the idle movie is cached exactly when it decodes |
| `Demo.NewPet` | old/pet_demo.py:126-162 | with the corrected switch the idle movie is on the label exactly when it decodes |
| `Demo.AutoState` | old/pet_demo.py:384-394 | below 0.3 the pet idles; walk_fast exactly when present and above 2.2; walk exactly when present and walk_fast is not chosen; idle otherwise |
| `Demo.FasterNeverSlower` | old/pet_demo.py:384-394 | a higher speed never selects a slower animation |
| `Demo.Expire` | old/pet_demo.py:396-399 | the bubble text is dropped exactly when it is non-empty and now is past its expiry time |
| `Demo.TickAsWritten` | old/pet_demo.py:340-399 | nothing while dragging or without a screen; otherwise one walk step whose speed is bounded by 0.6 times the walk_fast speed (5 when absent), the automatic animation once the forced period is over, and the bubble expiry |
| `Demo.Tick` | old/pet_demo.py:340-399 | the same tick with the corrected switch |
| `Demo.IdleOnlyNeverShown` | old/pet_demo.py:209-215 | as written, a species whose only state is "idle" never has a movie on the label, at construction or after any tick |
| `Demo.IdleOnlyShownWhenFixed` | old/pet_demo.py:209-215 | with the correction, the idle movie is on the label from construction on and after every tick outside a forced period |
| `Demo.SwipeSeconds` | old/pet_demo.py:331-333 | the swipe's forced period is max(0.6, hold / 10), 0.8 when the hold is absent |
| `Demo.DoubleClick` | old/pet_demo.py:327-333 | the swipe plays, forced, exactly when the mapping has it; a decodable swipe that is not already current becomes current and shown until now plus the swipe period |
| `Demo.SwipeHoldsWhileForced` | old/pet_demo.py:381-383 | a swipe started by a double click stays current through every tick of its forced period, which lasts at least 0.6 seconds |
| `Companion.SetAnimation` | compapet/main.py:695-711 | during a one-shot any other name is refused; a name with frames becomes current, else Idle when it has frames; with neither the cat halts; the frame restarts at 0 exactly when the animation changes |
| `Companion.SetAnimationIdempotent` | compapet/main.py:695-711 | asking twice for the same animation is the same as asking once |
| `Companion.NextFrame` | compapet/main.py:713-723 | an animation without frames is left alone; the last Dead frame holds; any other frame advances modulo the animation's length |
| `Companion.DeadHoldsLastFrame` | compapet/main.py:716-718 | after k ticks the Dead animation shows frame min(start + k, last) |
| `Companion.OthersLoop` | compapet/main.py:720 | after k ticks any other animation with frames shows frame (start + k) modulo its length |
| `Companion.PlayOneShot` | compapet/main.py:1121-1148 | nothing when dead; an animation without frames only clears the one-shot lock; otherwise it plays from frame 0 under the lock, manual steering stops, the horizontal speed is 0, and Jump alone starts a jump upwards at 15 |
| `Companion.PlayDead` | compapet/main.py:428-451 | without Dead frames the cat plays Hurt instead; otherwise it is dead, plays Dead from frame 0 under the lock, stands still, forgets its food and drops every movement flag |
| `Companion.JumpStep` | compapet/main.py:745-759 | gravity 0.8 is added and the cat falls by its new speed; on reaching the ground it stands on it with speed 0, the jump ends and Idle is asked for; x moves by its speed and is clamped into the screen |
| `Companion.Airborne` | compapet/main.py:745-751 | while the jump lasts, after k steps the speed has grown by k times gravity, the height follows the parabola and stays above the ground; once it ends the cat stands on the ground with speed 0 |
| `Companion.Parabola` | compapet/main.py:746-747 | one step of the parabola followed by k - 1 more is the parabola of k steps |
| `Companion.JumpLands` | compapet/main.py:745-751 | a jump launched from the ground at 15 is over after 37 steps, with the cat back on the ground |
| `Companion.EdgeAxis` | compapet/main.py:889-905 | a coordinate outside [0, hi] bounces, exactly then: it is put on the edge it crossed, and the speed reverses exactly when the cat walks on its own |
| `Companion.WalkBody` | compapet/main.py:888-905 | after the move each axis lies in the screen, speeds keep their size, a move that stays inside is kept unchanged, and a bounce is reported exactly when some axis left the screen |
| `Companion.FreeWalk` | compapet/main.py:887-925 | the free-walk step keeps the cat on screen, reverses no speed when steered or going for food, keeps an in-screen move as it is, and under steering asks for Walk when moving faster than 0.1 and Idle otherwise; nothing else about the cat changes |
| `Companion.ManualStaysAtWall` | compapet/main.py:889-923 | a steered cat pushed into the left wall stays on it and keeps its speed |
| `Companion.WanderBouncesOffWall` | compapet/main.py:889-891 | a cat walking on its own that crosses the left wall lands on it with its horizontal speed reversed |
| `Companion.UpdatePosition` | compapet/main.py:735-762 | a dead cat only stops; a jumping cat takes a jump step; a dragged, one-shot or cooling-down cat stays put; the free walk runs otherwise, and the step is out of the model exactly for sliding, edge runs and self-led walks with food about |
| `Companion.StaysOnScreen` | compapet/main.py:889-896 | on a screen at least as wide as the cat, every modelled step keeps x within [0, screen width - cat width] |
| `Companion.Choose` | compapet/main.py:927-957 | no behaviour exactly during a one-shot, a slide, steering, death or a food chase; the edge run, slide and leap bands need their animation's frames and draws below 0.15, 0.30 and 0.40; rest exactly for draws of 0.8 and up |
| `Companion.StockBands` | compapet/main.py:932-938 | with Run, Slide and Jump frames the bands are exactly [0, 0.15), [0.15, 0.30), [0.30, 0.40), [0.40, 0.80) |
| `Companion.WanderVelocity` | compapet/main.py:939-952 | the wander speed is at least 0.1 on some axis, and a random heading that already is stays as drawn |
| `Companion.RandomMovement` | compapet/main.py:927-957 | a skipped choice changes nothing; edge runs and slides are out of the model, exactly; a leap plays Jump and starts a jump; a wander moves at least 0.1 on some axis; a rest stands still |
| `Companion.Press` | compapet/main.py:1065-1081 | a left press starts a drag at the press point, revives the cat, stops it, drops food and every movement flag, asks for Idle, and keeps the click count |
| `Companion.Count` | compapet/main.py:1092-1104 | a release ends the drag; a click (moved less than 5) on a live cat counts, and the fifth kills it and resets the count; a longer drag changes nothing else; on a dead cat the count resets |
| `Companion.Release` | compapet/main.py:1090-1119 | a left release counts as above, and any other button leaves the count, the drag and the dead flag alone; then, after any button, a live cat not being dragged, with food about and no target, goes for the first food item, leaving manual steering and any edge run or slide, and otherwise nothing more changes |
| `Companion.PressRevives` | compapet/main.py:1081-1096 | after a press the cat is alive and a release at the press point has moved 0 |
| `Companion.ClickCounts` | compapet/main.py:1096-1102 | each click in place below the threshold adds one and leaves the cat alive; the click that reaches 5 kills it and resets the count |
| `Companion.FiveClicksKill` | compapet/main.py:1096-1100 | five clicks in place on a cat with a fresh count kill it, with Dead playing and the count back at 0 |
| `Companion.ResetPet` | compapet/main.py:489-508 | a revive clears death, the lock, every movement flag, the speed, the click count and the food, keeps the position, and asks for Idle |
| `Companion.RevivedCatBehaves` | compapet/main.py:489-508 | after a revive the next random behaviour is never skipped |
| `Companion.SpawnPoop` | compapet/main.py:510-523 | nothing spawns exactly without dropping sprites; a drop lies within the screen, under the cat's centre when that fits |

## Left out

- Qt and PySide widgets, painting, menus, the tray, timers, `QMovie`, `QMediaPlayer` and image decoding are left out. They are user-interface plumbing. Whether a frame, movie or sprite loads is a parameter.
- WinAPI calls are left out: the cursor, key states, layered windows, and the taskbar and fullscreen queries. These are foreign calls, so their readings are parameters.
- File and directory I/O is left out: `open`, `fsync`, `rglob`, `listdir`, the temporary-file rename, and whether a path exists. Files are maps from names to lines, and directory listings are sequences of names. `json.loads`/`json.dumps` are the injected `Messaging.Codec`.
- `uuid.uuid4()`, `time.time()` and every `random` call are parameters of the operations that use them.
- `PetWorker` threading in `DeskPets_repo/pets.py` is left out because it is concurrency.
- `state.py`, `squirrel_climb.py`, `remove_alpha.py`, `windows_API.py`, the selector and the settings dialog are not part of this model. `State.next` and `go_climb` are function parameters, and a squirrel's climb is a boolean.
- `bubble.py` and both `main.py` files are left out. They are user interface and argument parsing.
- Behaviours of the companion cat that rest on trigonometry, square roots or timers are left out:
  - the edge run (`_start_edge_run`) and the slide (`_start_slide_behavior`) with their update branches;
  - the food chase;
  - the angle in `_random_movement`, where the wander heading is a parameter;
  - the dead cooldown, which is a boolean parameter;
  - the timer callbacks `_one_shot_animation_finished`, `_reached_last_dead_frame` and `_dead_animation_cooldown_finished`;
  - audio, the keyboard, the control box, food and dropping items, and `change_pet_type`.
- `Companion.UpdatePosition`: returns None for the branches left out above (sliding, edge runs, and a self-led walk with food about). It promises nothing about them.
- `Companion.RandomMovement`: returns None for the edge-run and slide bands, for the same reason.
- Time-based drift in `setup.py` and `old/pet_demo.py` is left out. `math.sin` and `math.cos` of the clock become the parameters `driftX` and `driftY`.
- Drag, mouse-move and context-menu handling of the two standalone widgets is left out, except for the double-click swipe. It only moves the window, and the dragging flag is part of the modelled state.
- `Demo.GetMovie`: the speed is `Trunc(100 * speed_animation)` on exact reals. The program multiplies floats, so for `speed_animation` 0.29 it computes 28.999999999999996 and sets 28, while the model gives 29. Float rounding is not modelled.
- `Standalone.CheckInbox`: stamps every delivered row with one `now`. The program calls `now_ts()` again for each row (`DeskPets_repo/setup.py:352`), so the timestamps may differ slightly. Only one reading of the clock is modelled.
- `Text.Lower`: lowers ASCII letters only. Python's `str.lower()` also lowers other Unicode letters.
- `Text.StripTrailingDigits`: removes ASCII digits only. The `\d` of Python's `re` also matches other Unicode decimal digits.
- `PetFrames.ParseBucket`, `Sprites.ScoreMatch`, `Sprites.DiscoverAssets`, `Sprites.SeqKey` and `Sprites.SeqScore` inherit the same ASCII-only `Text.Lower` and `Text.StripTrailingDigits`. A name whose case or digits differ only outside ASCII can be judged differently from the program.
- `Messaging.EncodedReadsBack`, `Messaging.RewrittenInboxReads`, `Messaging.SentMessageIsRead` and `Messaging.SentMessageIsFetched` hold for the documents the codec round-trips. `json` is not modelled character by character, and it reads back a float only up to double precision, so a `Num` that is not a double falls outside these lemmas.
- `Messaging.SendMessage`: appends the record as a new line. If the inbox file's last line lacks a newline, the program instead glues the record onto that line. The model's `text` is a string, and a `None` text is not modelled (the program's `text or ""` turns it into "").
- Two behaviours of the code worth noting:
  - The lie override measures the Euclidean distance between the pointer and the pet (`DeskPets_repo/pets.py:164,171`). It is compared without a square root, which is exact.
  - After a size change the program does not bring y back onto the screen. So `Pet.UpdateState` states the on-screen bound for drag and throw ticks only.

## Findings

| source | as written | input that shows it | evidently intended | confidence | as-written member | corrected member |
|---|---|---|---|---|---|---|
| old/pet_demo.py:209-215 | `_current_state` starts as "idle" (line 131), and the constructor's `_set_state("idle")` (line 162) returns early at lines 214-215 because the state is already current. So the idle movie is never put on the label. The automatic tick only ever asks for "idle" again and returns early every time, so the widget shows no animation. | a species whose mapping has "idle" as its only state, with an idle movie that decodes | the idle movie is shown from start-up on | not executed | `Demo.IdleOnlyNeverShown` | `Demo.IdleOnlyShownWhenFixed` |

=== FILE: base.dfy ===
/** Small shared vocabulary: optional values, error results, and the
    numeric conversions the Python code performs implicitly. */
module Base {

  datatype Option<T> = None | Some(value: T)

  datatype Result<T, E> = Ok(value: T) | Err(error: E)

  /** A JSON object or Python dict with string keys: its keys in insertion
      order, and the value of each. */
  datatype OrderedMap<V> = OrderedMap(keys: seq<string>, values: map<string, V>) {
    ghost predicate Valid() {
      && (forall i, j :: 0 <= i < j < |keys| ==> keys[i] != keys[j])
      && values.Keys == set k | k in keys
    }
  }

  /** A 2-D point or velocity in screen pixels. */
  datatype Vec = Vec(x: real, y: real)

  function Abs(r: real): (a: real)
    ensures a >= 0.0
    ensures a == r || a == -r
  {
    if r < 0.0 then -r else r
  }

  function Min(a: real, b: real): (m: real)
    ensures m <= a && m <= b
    ensures m == a || m == b
  {
    if a <= b then a else b
  }

  function Max(a: real, b: real): (m: real)
    ensures m >= a && m >= b
    ensures m == a || m == b
  {
    if a >= b then a else b
  }

  /** `min` and `max` on whole pixels and counts: Dafny has no overloading,
      so the integer versions repeat `Min` and `Max` over `int`. */
  function IntMin(a: int, b: int): (m: int)
    ensures m <= a && m <= b
    ensures m == a || m == b
  {
    if a <= b then a else b
  }

  function IntMax(a: int, b: int): (m: int)
    ensures m >= a && m >= b
    ensures m == a || m == b
  {
    if a >= b then a else b
  }

  /** Python's `max(lo, min(v, hi))`: when `hi < lo` the result is `lo`. */
  function ClampLowLast(v: real, lo: real, hi: real): (c: real)
    ensures lo <= c
    ensures lo <= hi ==> c <= hi
    ensures lo <= v <= hi ==> c == v
    ensures lo <= hi && v < lo ==> c == lo
    ensures lo <= hi && v > hi ==> c == hi
  {
    Max(lo, Min(v, hi))
  }

  /** Python's `int(r)` on a float: truncation toward zero. */
  function Trunc(r: real): (i: int)
    ensures r >= 0.0 ==> i as real <= r < i as real + 1.0
    ensures r < 0.0 ==> i as real - 1.0 < r <= i as real
    ensures Abs(i as real) <= Abs(r)
  {
    if r >= 0.0 then r.Floor else -((-r).Floor)
  }

  /** Truncating a value between two integers keeps it between them. */
  lemma TruncBetween(r: real, lo: int, hi: int)
    ensures lo as real <= r <= hi as real ==> lo <= Trunc(r) <= hi
  {
  }

  /** Stepping an index round a cycle of `n` once and then `k - 1` more
      times is stepping it `k` times. */
  lemma ModStep(n: nat, i: nat, k: nat)
    requires 0 < n && i < n && 0 < k
    ensures ((i + 1) % n + (k - 1)) % n == (i + k) % n
  {
    if i + 1 == n {
      DivModUnique(i + 1, n, 1, 0);
      assert (i + 1) % n + (k - 1) == k - 1;
      ModAddN(n, k - 1);
      assert (i + k) == (k - 1) + n;
    } else {
      DivModUnique(i + 1, n, 0, i + 1);
      assert (i + 1) % n + (k - 1) == i + k;
    }
  }

  /** Adding the modulus does not change the remainder. */
  lemma ModAddN(n: nat, x: nat)
    requires 0 < n
    ensures (x + n) % n == x % n
  {
    var q, r := x / n, x % n;
    assert x + n == (q + 1) * n + r;
    DivModUnique(x + n, n, q + 1, r);
  }

  lemma DivModUnique(a: nat, n: nat, q: int, r: int)
    requires 0 < n && 0 <= r < n && a == q * n + r
    ensures a % n == r
  {
    var q0, r0 := a / n, a % n;
    assert a == q0 * n + r0;
    assert (q - q0) * n == r0 - r;
    if q > q0 {
      MulAtLeast(q - q0, n);
    } else if q < q0 {
      MulAtLeast(q0 - q, n);
    }
  }

  /** Floor division brackets its dividend. */
  lemma FloorDiv(a: nat, d: nat)
    requires 0 < d
    ensures 0 <= a / d
    ensures (a / d) * d <= a < (a / d + 1) * d
  {
    assert a == (a / d) * d + a % d;
  }

  lemma MulAtLeast(a: int, n: nat)
    requires 1 <= a
    ensures a * n >= n
  {
  }
}

=== FILE: catalogue.dfy ===
/** The catalogue generator of DeskPets_repo/get_states.py: it walks the
    media directory, one sub-directory per species, parses every
    `<color>_<state...>_<suffix>.gif` file name, and records for each
    species its colours, the media path of every (colour, state) pair and
    the per-state default parameters. The directory listing is given as a
    sequence of entries instead of being read from disk. */
module Catalogue {
  import opened Base
  import opened Text

  /** The per-state parameters stored under "defaults". */
  datatype Params = Params(hold: int, movementSpeed: real, speedAnimation: real)

  /** DEFAULT_SETTINGS: the seven built-in states every species starts with. */
  const DefaultSettings: map<string, Params> := map[
    "idle" := Params(8, 0.0, 0.5),
    "lie" := Params(8, 0.0, 1.0),
    "swipe" := Params(8, 0.0, 1.0),
    "walk" := Params(24, 3.0, 1.0),
    "walk_fast" := Params(40, 5.0, 1.5),
    "run" := Params(56, 7.0, 2.0),
    "with_ball" := Params(16, 0.0, 1.0)
  ]

  /** The parameters given to a state first seen in a file name. */
  const NewStateParams := Params(8, 0.0, 1.0)

  /** Sub-directories of the media folder that hold no species. */
  const IgnoredDirs: set<string> := {"backgrounds", "extraIcons", "icon"}

  /** One name returned by listing the media folder. */
  datatype Entry = Entry(name: string, isDir: bool, files: seq<string>)

  /** What one species gets in the generated catalogue. */
  datatype SpeciesData = SpeciesData(
    colors: set<string>,
    states: map<string, map<string, string>>,
    defaults: map<string, Params>)

  datatype GifName = GifName(color: string, state: string)

  function LastIndexOf(s: string, c: char): (r: Option<nat>)
    ensures r.Some? ==> r.value < |s| && s[r.value] == c
    ensures r.Some? ==> forall i :: r.value < i < |s| ==> s[i] != c
    ensures r.None? ==> forall i :: 0 <= i < |s| ==> s[i] != c
  {
    if |s| == 0 then None
    else if s[|s| - 1] == c then Some(|s| - 1)
    else LastIndexOf(s[..|s| - 1], c)
  }

  predicate AllDots(s: string) {
    forall i :: 0 <= i < |s| ==> s[i] == '.'
  }

  /** The first half of `os.path.splitext(file)`: everything before the last
      dot, unless only dots precede that dot (a hidden-file name has no
      extension). */
  function SplitExtRoot(file: string): string {
    match LastIndexOf(file, '.')
    case None => file
    case Some(d) => if AllDots(file[..d]) then file else file[..d]
  }

  /** One file of a species folder: its colour and state when the name is
      accepted, None when the file is skipped. */
  function ParseGifName(file: string): (r: Option<GifName>)
    ensures r.None? <==> !EndsWith(Lower(file), ".gif") || |Split(SplitExtRoot(file), '_')| < 2
  {
    if !EndsWith(Lower(file), ".gif") then None
    else
      var parts := Split(SplitExtRoot(file), '_');
      if |parts| < 2 then None
      else Some(GifName(parts[0], Join(parts[1..|parts| - 1], '_')))
  }

  /** The colour is the text before the first underscore and the state is
      what lies between it and the last underscore: the name is rebuilt
      from them and one dropped final part. A two-part name has the empty
      state. */
  lemma {:induction false} ParsedNameRebuilds(file: string)
    requires ParseGifName(file).Some?
    ensures var g := ParseGifName(file).value;
            var root := SplitExtRoot(file);
            && (forall i :: 0 <= i < |g.color| ==> g.color[i] != '_')
            && (exists last: string ::
                  && (forall i :: 0 <= i < |last| ==> last[i] != '_')
                  && (if g.state == "" && CountChar(root, '_') == 1 then root == g.color + "_" + last
                      else root == g.color + "_" + g.state + "_" + last))
  {
    var root := SplitExtRoot(file);
    var parts := Split(root, '_');
    JoinSplit(root, '_');
    SplitCount(root, '_');
    JoinParts(parts);
    var last := parts[|parts| - 1];
    assert forall i :: 0 <= i < |last| ==> last[i] != '_';
    if |parts| == 2 {
      assert parts[1..1] == [];
    }
  }

  /** A name of two or more parts is its first part, the joined middle ones
      when there are any, and its last part, separated by underscores. */
  lemma {:induction false} JoinParts(parts: seq<string>)
    requires |parts| >= 2
    ensures Join(parts, '_') ==
              if |parts| == 2 then parts[0] + "_" + parts[1]
              else parts[0] + "_" + Join(parts[1..|parts| - 1], '_') + "_" + parts[|parts| - 1]
  {
    var last := parts[|parts| - 1];
    if |parts| == 2 {
      assert parts[1..] == [last];
    } else {
      assert parts[1..] == parts[1..|parts| - 1] + [last];
      JoinSnoc(parts[1..|parts| - 1], last);
    }
  }

  lemma {:induction false} JoinSnoc(init: seq<string>, last: string)
    requires |init| >= 1
    ensures Join(init + [last], '_') == Join(init, '_') + "_" + last
    decreases |init|
  {
    if |init| == 1 {
      assert (init + [last])[1..] == [last];
    } else {
      assert (init + [last])[1..] == init[1..] + [last];
      JoinSnoc(init[1..], last);
    }
  }

  /** `states[color][state]`: "media/" followed by the path relative to the
      media folder. */
  function MediaPath(species: string, file: string): string {
    "media/" + species + "/" + file
  }

  /** One file of a species folder after parsing: its colour and state if
      the name is accepted, and the path recorded for it. */
  datatype Scanned = Scanned(name: Option<GifName>, path: string)

  function ScanOf(species: string, file: string): Scanned {
    Scanned(ParseGifName(file), MediaPath(species, file))
  }

  function ScannedFiles(species: string, files: seq<string>): (fs: seq<Scanned>)
    ensures |fs| == |files|
    ensures forall i :: 0 <= i < |files| ==> fs[i] == ScanOf(species, files[i])
  {
    seq(|files|, i requires 0 <= i < |files| => ScanOf(species, files[i]))
  }

  /** The effect of one file on a species record. */
  function AddFile(sd: SpeciesData, f: Scanned): SpeciesData {
    match f.name
    case None => sd
    case Some(g) =>
      var byState := if g.color in sd.states then sd.states[g.color] else map[];
      SpeciesData(
        sd.colors + {g.color},
        sd.states[g.color := byState[g.state := f.path]],
        if g.state in sd.defaults then sd.defaults else sd.defaults[g.state := NewStateParams])
  }

  /** The files of one species folder, in listing order. */
  function AddFiles(sd: SpeciesData, fs: seq<Scanned>): SpeciesData
    decreases |fs|
  {
    if |fs| == 0 then sd
    else AddFile(AddFiles(sd, fs[..|fs| - 1]), fs[|fs| - 1])
  }

  function EmptySpecies(): SpeciesData {
    SpeciesData({}, map[], DefaultSettings)
  }

  function ScanSpecies(species: string, files: seq<string>): SpeciesData {
    AddFiles(EmptySpecies(), ScannedFiles(species, files))
  }

  /** `scan_media`, over an explicit listing of the media folder. */
  function ScanMedia(listing: seq<Entry>): map<string, SpeciesData>
    decreases |listing|
  {
    if |listing| == 0 then map[]
    else
      var m := ScanMedia(listing[..|listing| - 1]);
      var e := listing[|listing| - 1];
      if !e.isDir || e.name in IgnoredDirs then m else m[e.name := ScanSpecies(e.name, e.files)]
  }

  predicate IsSpeciesEntry(e: Entry) {
    e.isDir && e.name !in IgnoredDirs
  }

  ghost predicate Named(fs: seq<Scanned>, i: int, c: string, s: string) {
    0 <= i < |fs| && fs[i].name == Some(GifName(c, s))
  }

  /** File `i` is the last one of the folder that names (c, s). */
  ghost predicate LastNamed(fs: seq<Scanned>, i: int, c: string, s: string) {
    Named(fs, i, c, s) && forall j :: i < j < |fs| ==> !Named(fs, j, c, s)
  }

  ghost predicate NamesState(fs: seq<Scanned>, k: string) {
    exists i :: 0 <= i < |fs| && fs[i].name.Some? && fs[i].name.value.state == k
  }

  ghost predicate StatesLatest(sd: SpeciesData, fs: seq<Scanned>) {
    forall c, s :: c in sd.states && s in sd.states[c] ==>
      exists i :: LastNamed(fs, i, c, s) && sd.states[c][s] == fs[i].path
  }

  ghost predicate FilesRecorded(sd: SpeciesData, fs: seq<Scanned>) {
    forall i :: 0 <= i < |fs| && fs[i].name.Some? ==>
      fs[i].name.value.color in sd.states && fs[i].name.value.state in sd.states[fs[i].name.value.color]
  }

  ghost predicate DefaultsKept(sd: SpeciesData, fs: seq<Scanned>) {
    && (forall k :: k in DefaultSettings ==> k in sd.defaults && sd.defaults[k] == DefaultSettings[k])
    && (forall k :: k in sd.defaults && k !in DefaultSettings ==> sd.defaults[k] == NewStateParams && NamesState(fs, k))
    && (forall c, s :: c in sd.states && s in sd.states[c] ==> s in sd.defaults)
  }

  /** What the generated record of one species says about its files. */
  ghost predicate Describes(sd: SpeciesData, fs: seq<Scanned>) {
    && sd.colors == sd.states.Keys
    && StatesLatest(sd, fs)
    && FilesRecorded(sd, fs)
    && DefaultsKept(sd, fs)
  }

  lemma {:induction false} AddFilesColors(fs: seq<Scanned>)
    ensures var sd := AddFiles(EmptySpecies(), fs); sd.colors == sd.states.Keys
    decreases |fs|
  {
    if |fs| > 0 {
      AddFilesColors(fs[..|fs| - 1]);
    }
  }

  lemma {:induction false} AddFilesLatest(fs: seq<Scanned>)
    ensures StatesLatest(AddFiles(EmptySpecies(), fs), fs)
    decreases |fs|
  {
    if |fs| > 0 {
      var init := fs[..|fs| - 1];
      var f := fs[|fs| - 1];
      var n := |fs| - 1;
      AddFilesLatest(init);
      var sd := AddFiles(EmptySpecies(), init);
      var sd' := AddFiles(EmptySpecies(), fs);
      assert sd' == AddFile(sd, f);
      forall c, s | c in sd'.states && s in sd'.states[c]
        ensures exists i :: LastNamed(fs, i, c, s) && sd'.states[c][s] == fs[i].path
      {
        if f.name == Some(GifName(c, s)) {
          assert LastNamed(fs, n, c, s);
        } else {
          assert c in sd.states && s in sd.states[c];
          assert sd'.states[c][s] == sd.states[c][s];
          var i :| LastNamed(init, i, c, s) && sd.states[c][s] == init[i].path;
          assert fs[i] == init[i];
          forall j | i < j < |fs| ensures !Named(fs, j, c, s) {
            if j < n {
              assert fs[j] == init[j];
              assert !Named(init, j, c, s);
            }
          }
          assert LastNamed(fs, i, c, s);
        }
      }
    }
  }

  lemma {:induction false} AddFilesRecorded(fs: seq<Scanned>)
    ensures FilesRecorded(AddFiles(EmptySpecies(), fs), fs)
    decreases |fs|
  {
    if |fs| > 0 {
      var init := fs[..|fs| - 1];
      AddFilesRecorded(init);
      var sd := AddFiles(EmptySpecies(), init);
      var sd' := AddFiles(EmptySpecies(), fs);
      assert sd' == AddFile(sd, fs[|fs| - 1]);
      forall i | 0 <= i < |fs| && fs[i].name.Some?
        ensures fs[i].name.value.color in sd'.states
             && fs[i].name.value.state in sd'.states[fs[i].name.value.color]
      {
        if i < |init| {
          assert fs[i] == init[i];
        }
      }
    }
  }

  lemma {:induction false} AddFilesDefaults(fs: seq<Scanned>)
    ensures DefaultsKept(AddFiles(EmptySpecies(), fs), fs)
    decreases |fs|
  {
    if |fs| > 0 {
      var init := fs[..|fs| - 1];
      var n := |fs| - 1;
      AddFilesDefaults(init);
      var sd := AddFiles(EmptySpecies(), init);
      var sd' := AddFiles(EmptySpecies(), fs);
      assert sd' == AddFile(sd, fs[n]);
      forall k | k in sd'.defaults && k !in DefaultSettings
        ensures sd'.defaults[k] == NewStateParams && NamesState(fs, k)
      {
        if k in sd.defaults {
          var i :| 0 <= i < |init| && init[i].name.Some? && init[i].name.value.state == k;
          assert fs[i] == init[i];
        } else {
          assert fs[n].name.Some?;
        }
      }
    }
  }

  /** The candidate properties of the generated species record, for the
      parsed files `ScannedFiles(species, files)`: colours are exactly the
      colours that have states; `states[c][s]` is the media path of the last
      file naming (c, s) and every accepted file is recorded; the seven
      built-in defaults are never overwritten; every other default is
      {hold 8, speed 0, animation 1.0} for a state seen in a file name; and
      every recorded state has defaults. */
  lemma ScanSpeciesDescribes(species: string, files: seq<string>)
    ensures Describes(ScanSpecies(species, files), ScannedFiles(species, files))
  {
    var fs := ScannedFiles(species, files);
    AddFilesColors(fs);
    AddFilesLatest(fs);
    AddFilesRecorded(fs);
    AddFilesDefaults(fs);
  }

  /** Entry `i` is a species folder named `k` whose scan is the catalogue's
      record for `k`. */
  ghost predicate SpeciesFrom(listing: seq<Entry>, i: int, k: string)
    requires k in ScanMedia(listing)
  {
    0 <= i < |listing| && IsSpeciesEntry(listing[i]) && listing[i].name == k
    && ScanMedia(listing)[k] == ScanSpecies(k, listing[i].files)
  }

  /** The species in the catalogue are exactly the listed directories that
      are not ignored, each scanned from the last such entry of that name. */
  lemma {:induction false} ScanMediaSpecies(listing: seq<Entry>)
    ensures forall e :: e in listing && IsSpeciesEntry(e) ==> e.name in ScanMedia(listing)
    ensures forall k :: k in ScanMedia(listing) ==>
              && k !in IgnoredDirs
              && exists i :: SpeciesFrom(listing, i, k)
    decreases |listing|
  {
    if |listing| > 0 {
      var init := listing[..|listing| - 1];
      ScanMediaSpecies(init);
      forall e | e in listing && IsSpeciesEntry(e) ensures e.name in ScanMedia(listing) {
        if e != listing[|listing| - 1] {
          assert e in init;
        }
      }
      forall k | k in ScanMedia(listing)
        ensures exists i :: SpeciesFrom(listing, i, k)
      {
        var e := listing[|listing| - 1];
        if IsSpeciesEntry(e) && e.name == k {
          assert SpeciesFrom(listing, |listing| - 1, k);
        } else {
          var i :| SpeciesFrom(init, i, k);
          assert listing[i] == init[i];
          assert SpeciesFrom(listing, i, k);
        }
      }
    }
  }
}

=== FILE: companion.dfy ===
/** The companion cat (compapet/main.py `DesktopPet`): its animation state
    machine with the one-shot lock and the Idle fallback, the Dead
    animation that holds on its last frame, the gravity jump, the free walk
    that clamps and bounces at the screen edges, the random behaviour
    bands, click counting up to death, the revive, and where a dropping
    lands. Random draws, the screen size and the timers' states are
    parameters; Qt widgets, audio and the trigonometric motions are not
    modelled. */
module Companion {
  import opened Base

  const CatSize: int := 120
  const FrameRate: int := 100
  const MovementSpeed: real := 3.0
  const ClickThreshold: int := 5
  const JumpVelocity: real := 15.0
  const Gravity: real := 0.8
  const DeadThreshold: nat := 5
  const PoopSize: int := 25

  /** The frame counts the stock cat ships with. */
  const StockFrames: map<string, nat> :=
    map["Dead" := 10, "Fall" := 8, "Hurt" := 10, "Idle" := 10, "Jump" := 8, "Run" := 8, "Slide" := 10, "Walk" := 10]

  /** The animation side of the cat: frame counts per animation, the
      current animation and frame, the one-shot lock, and whether a missing
      Idle animation stopped the timers. */
  datatype Anim = Anim(frames: map<string, nat>, name: string, frame: nat, oneShot: bool, halted: bool)

  /** Position, velocity and facing. */
  datatype Body = Body(x: real, y: real, vx: real, vy: real, movingRight: bool)

  /** The cat: animation, body, the movement flags, the click count, the
      food it targets and the food on screen, and the press position of a
      drag. */
  datatype Cat = Cat(anim: Anim, body: Body,
                     edgeRunning: bool, sliding: bool, jumping: bool, manual: bool, dead: bool, dragging: bool,
                     clicks: nat, food: Option<nat>, foods: seq<nat>, pressX: int, pressY: int)

  /** `name in sprites and sprites[name]`. */
  predicate HasFrames(a: Anim, name: string) {
    name in a.frames && a.frames[name] > 0
  }

  // ---------------------------------------------------------------------
  // Animations

  /** Whether the one-shot lock refuses `name`. */
  predicate Locked(a: Anim, name: string) {
    a.oneShot && name != a.name
  }

  /** `_set_animation`: a one-shot ignores any other name; a name without
      frames falls back to Idle, and without Idle frames everything stops;
      the frame restarts only when the animation actually changes. */
  function SetAnimation(a: Anim, name: string): (r: Anim)
    ensures r.frames == a.frames && r.oneShot == a.oneShot
    ensures Locked(a, name) ==> r == a
    ensures !Locked(a, name) && HasFrames(a, name) ==> r.name == name && r.halted == a.halted
    ensures !Locked(a, name) && !HasFrames(a, name) && HasFrames(a, "Idle") ==> r.name == "Idle" && r.halted == a.halted
    ensures r.halted <==> a.halted || (!Locked(a, name) && !HasFrames(a, name) && !HasFrames(a, "Idle"))
    ensures r.name == a.name ==> r.frame == a.frame
    ensures r.name != a.name ==> r.frame == 0 && HasFrames(r, r.name)
  {
    if Locked(a, name) then a
    else
      var n := if HasFrames(a, name) then name else "Idle";
      if !HasFrames(a, n) then a.(halted := true)
      else if a.name != n then a.(name := n, frame := 0)
      else a
  }

  /** Asking twice for the same animation is asking once. */
  lemma SetAnimationIdempotent(a: Anim, name: string)
    ensures SetAnimation(SetAnimation(a, name), name) == SetAnimation(a, name)
  {
  }

  /** `_next_frame`: the frame advances modulo the animation's length,
      except that Dead stays on its last frame; an animation without frames
      leaves the index alone. */
  function NextFrame(a: Anim): (r: Anim)
    ensures r == a.(frame := r.frame)
    ensures !HasFrames(a, a.name) ==> r == a
    ensures HasFrames(a, a.name) ==> r.frame < a.frames[a.name]
    ensures HasFrames(a, a.name) && a.name == "Dead" && a.frame == a.frames["Dead"] - 1 ==> r == a
    ensures HasFrames(a, a.name) && a.name == "Dead" && a.frame < a.frames["Dead"] - 1 ==> r.frame == a.frame + 1
    ensures HasFrames(a, a.name) && a.name != "Dead" ==> r.frame == (a.frame + 1) % a.frames[a.name]
  {
    if !HasFrames(a, a.name) then a
    else
      var n := a.frames[a.name];
      if a.name == "Dead" && a.frame == n - 1 then a
      else a.(frame := (a.frame + 1) % n)
  }

  /** `k` animation ticks. */
  function NextFrames(a: Anim, k: nat): Anim
    decreases k
  {
    if k == 0 then a else NextFrames(NextFrame(a), k - 1)
  }

  /** The Dead animation runs once and then holds: after `k` ticks its
      frame is `min(frame + k, last)`. */
  lemma {:induction false} DeadHoldsLastFrame(a: Anim, k: nat)
    requires a.name == "Dead" && HasFrames(a, "Dead") && a.frame < a.frames["Dead"]
    ensures NextFrames(a, k).name == "Dead"
    ensures NextFrames(a, k).frame == IntMin(a.frame + k, a.frames["Dead"] - 1)
    decreases k
  {
    if k > 0 {
      var a1 := NextFrame(a);
      assert a1.frame == IntMin(a.frame + 1, a.frames["Dead"] - 1);
      DeadHoldsLastFrame(a1, k - 1);
    }
  }

  /** Any other animation with frames loops: after `k` ticks its frame is
      `(frame + k) % length`. */
  lemma {:induction false} OthersLoop(a: Anim, k: nat)
    requires a.name != "Dead" && HasFrames(a, a.name) && a.frame < a.frames[a.name]
    ensures NextFrames(a, k).name == a.name
    ensures NextFrames(a, k).frame == (a.frame + k) % a.frames[a.name]
    decreases k
  {
    if k > 0 {
      var n := a.frames[a.name];
      var a1 := NextFrame(a);
      OthersLoop(a1, k - 1);
      ModStep(n, a.frame, k);
    }
  }

  /** `_play_one_shot_animation`: nothing when dead; without frames the
      lock is released; otherwise the animation restarts locked, manual
      movement stops, and a Jump launches upwards. */
  function PlayOneShot(c: Cat, name: string): (r: Cat)
    ensures c.dead ==> r == c
    ensures !c.dead && !HasFrames(c.anim, name) ==> r == c.(anim := c.anim.(oneShot := false))
    ensures !c.dead && HasFrames(c.anim, name) ==>
              && r.anim == c.anim.(oneShot := true, name := name, frame := 0)
              && !r.manual && r.body.vx == 0.0
              && r.body.vy == (if name == "Jump" then -JumpVelocity else 0.0)
              && r.jumping == (name == "Jump" || c.jumping)
    ensures r.anim.frames == c.anim.frames && r.clicks == c.clicks && r.dead == c.dead && r.food == c.food
  {
    if c.dead then c
    else if !HasFrames(c.anim, name) then c.(anim := c.anim.(oneShot := false))
    else
      var vy := if name == "Jump" then -JumpVelocity else 0.0;
      c.(anim := c.anim.(oneShot := true, name := name, frame := 0), manual := false,
         body := c.body.(vx := 0.0, vy := vy), jumping := name == "Jump" || c.jumping)
  }

  /** `_play_dead_animation`: without Dead frames the cat plays Hurt
      instead; otherwise it dies, motionless and locked on Dead. */
  function PlayDead(c: Cat): (r: Cat)
    ensures !HasFrames(c.anim, "Dead") ==> r == PlayOneShot(c, "Hurt")
    ensures HasFrames(c.anim, "Dead") ==>
              && r.dead && r.anim == c.anim.(oneShot := true, name := "Dead", frame := 0)
              && r.body.vx == 0.0 && r.body.vy == 0.0 && r.food.None?
              && !r.manual && !r.edgeRunning && !r.sliding && !r.jumping
    ensures r.anim.frames == c.anim.frames && r.clicks == c.clicks
  {
    if !HasFrames(c.anim, "Dead") then PlayOneShot(c, "Hurt")
    else
      c.(anim := c.anim.(oneShot := true, name := "Dead", frame := 0), food := None, dead := true,
         manual := false, edgeRunning := false, sliding := false, jumping := false,
         body := c.body.(vx := 0.0, vy := 0.0))
  }

  // ---------------------------------------------------------------------
  // Movement

  /** The widget's right-most column and the ground line on a screen. */
  function MaxX(screenWidth: int): int { screenWidth - CatSize }
  function GroundY(screenHeight: int): int { screenHeight - CatSize }

  /** Whether a jump step from `b` reaches the ground. */
  predicate Lands(b: Body, groundY: int) {
    b.y + b.vy + Gravity >= groundY as real
  }

  /** The jump branch of `_update_cat_position`: gravity, then landing on
      the ground (which ends the jump and the lock, back to Idle), then the
      horizontal move clamped to the screen. */
  function JumpStep(c: Cat, maxX: int, groundY: int): (r: Cat)
    ensures r.body.vy == (if Lands(c.body, groundY) then 0.0 else c.body.vy + Gravity)
    ensures r.body.y == (if Lands(c.body, groundY) then groundY as real else c.body.y + c.body.vy + Gravity)
    ensures r.body.y <= groundY as real
    ensures r.jumping <==> c.jumping && !Lands(c.body, groundY)
    ensures r.jumping ==> r.body.y < groundY as real
    ensures Lands(c.body, groundY) ==> r.anim == SetAnimation(c.anim.(oneShot := false), "Idle")
    ensures !Lands(c.body, groundY) ==> r.anim == c.anim
    ensures maxX >= 0 ==> 0.0 <= r.body.x <= maxX as real
    ensures r.body.x == ClampLowLast(c.body.x + c.body.vx, 0.0, maxX as real) && r.body.vx == c.body.vx
    ensures r.clicks == c.clicks && r.dead == c.dead
  {
    var vy := c.body.vy + Gravity;
    var y := c.body.y + vy;
    var x := ClampLowLast(c.body.x + c.body.vx, 0.0, maxX as real);
    if y >= groundY as real then
      c.(body := c.body.(x := x, y := groundY as real, vy := 0.0), jumping := false,
         anim := SetAnimation(c.anim.(oneShot := false), "Idle"))
    else
      c.(body := c.body.(x := x, y := y, vy := vy))
  }

  /** Jump steps while the jump lasts. */
  function JumpSteps(c: Cat, maxX: int, groundY: int, k: nat): (r: Cat)
    decreases k
  {
    if k == 0 || !c.jumping then c else JumpSteps(JumpStep(c, maxX, groundY), maxX, groundY, k - 1)
  }

  /** While the jump lasts, after `k` steps the vertical speed has grown
      by `k` times gravity and the height follows the parabola; once it
      ends the cat is on the ground. */
  lemma {:induction false} Airborne(c: Cat, maxX: int, groundY: int, k: nat)
    requires c.jumping
    ensures var r := JumpSteps(c, maxX, groundY, k);
            r.jumping ==> r.body.vy == c.body.vy + Gravity * k as real
                          && r.body.y == c.body.y + c.body.vy * k as real + Gravity * (k * (k + 1)) as real / 2.0
    ensures var r := JumpSteps(c, maxX, groundY, k);
            r.jumping && k > 0 ==> r.body.y < groundY as real
    ensures var r := JumpSteps(c, maxX, groundY, k);
            !r.jumping ==> r.body.y == groundY as real && r.body.vy == 0.0
    decreases k
  {
    if k > 0 {
      var c1 := JumpStep(c, maxX, groundY);
      assert JumpSteps(c, maxX, groundY, k) == JumpSteps(c1, maxX, groundY, k - 1);
      if c1.jumping {
        Airborne(c1, maxX, groundY, k - 1);
        Parabola(c.body.y, c.body.vy, k);
      } else {
        assert JumpSteps(c1, maxX, groundY, k - 1) == c1;
      }
    }
  }

  /** One step of the parabola followed by `k - 1` more is `k` steps. */
  lemma Parabola(y0: real, v0: real, k: nat)
    requires k > 0
    ensures (y0 + v0 + Gravity) + (v0 + Gravity) * (k - 1) as real + Gravity * ((k - 1) * k) as real / 2.0
            == y0 + v0 * k as real + Gravity * (k * (k + 1)) as real / 2.0
  {
    var j := (k - 1) as real;
    assert ((k - 1) * k) as real == j * j + j;
    assert (k * (k + 1)) as real == j * j + 3.0 * j + 2.0;
    assert v0 * k as real == v0 * j + v0;
  }

  /** A jump launched from the ground comes back down: after 37 steps the
      cat stands on the ground again and the jump is over. */
  lemma JumpLands(c: Cat, maxX: int, groundY: int)
    requires c.jumping && c.body.y == groundY as real && c.body.vy == -JumpVelocity
    ensures !JumpSteps(c, maxX, groundY, 37).jumping
    ensures JumpSteps(c, maxX, groundY, 37).body.y == groundY as real
  {
    Airborne(c, maxX, groundY, 37);
  }

  /** The bounce in the free-walk branch: a coordinate outside `[0, hi]`
      is put on the edge and, when `reverse` holds, the velocity is
      reversed. The third component says whether it hit an edge. */
  function EdgeAxis(p: real, v: real, hi: real, reverse: bool): (r: (real, real, bool))
    ensures r.2 <==> p < 0.0 || p > hi
    ensures !r.2 ==> r.0 == p && r.1 == v
    ensures p < 0.0 ==> r.0 == 0.0
    ensures 0.0 <= p && p > hi ==> r.0 == hi
    ensures r.1 == (if r.2 && reverse then -v else v)
  {
    if p < 0.0 then (0.0, if reverse then -v else v, true)
    else if p > hi then (hi, if reverse then -v else v, true)
    else (p, v, false)
  }

  /** Moving faster than 0.1 on some axis. */
  predicate Moving(vx: real, vy: real) {
    Abs(vx) > 0.1 || Abs(vy) > 0.1
  }

  /** The body after the free-walk move: each axis clamped into the screen,
      bounced when `reverse` holds, facing the direction of travel; the
      flag says whether an edge was hit. */
  function WalkBody(b: Body, maxX: int, groundY: int, reverse: bool): (r: (Body, bool))
    ensures maxX >= 0 ==> 0.0 <= r.0.x <= maxX as real
    ensures groundY >= 0 ==> 0.0 <= r.0.y <= groundY as real
    ensures Abs(r.0.vx) == Abs(b.vx) && Abs(r.0.vy) == Abs(b.vy)
    ensures !reverse ==> r.0.vx == b.vx && r.0.vy == b.vy
    ensures 0.0 <= b.x + b.vx <= maxX as real ==> r.0.x == b.x + b.vx && r.0.vx == b.vx
    ensures 0.0 <= b.y + b.vy <= groundY as real ==> r.0.y == b.y + b.vy && r.0.vy == b.vy
    ensures r.1 <==> !(0.0 <= b.x + b.vx <= maxX as real && 0.0 <= b.y + b.vy <= groundY as real)
  {
    var (x, vx, hitX) := EdgeAxis(b.x + b.vx, b.vx, maxX as real, reverse);
    var (y, vy, hitY) := EdgeAxis(b.y + b.vy, b.vy, groundY as real, reverse);
    var right := if vx > 0.0 then true else if vx < 0.0 then false else b.movingRight;
    (Body(x, y, vx, vy, right), hitX || hitY)
  }

  /** The animation a free-walk step asks for, if any. */
  function WalkAnimation(c: Cat, b: Body, bounced: bool): Option<string> {
    if !c.anim.oneShot && !c.manual && c.food.None? then
      if bounced && Moving(b.vx, b.vy) then Some("Walk")
      else if !bounced && Abs(b.vx) < 0.1 && Abs(b.vy) < 0.1 && c.anim.name != "Idle" then Some("Idle")
      else if !bounced && Moving(b.vx, b.vy) && c.anim.name != "Walk" then Some("Walk")
      else None
    else if c.manual then Some(if Moving(b.vx, b.vy) then "Walk" else "Idle")
    else None
  }

  /** The free-walk branch of `_update_cat_position`: move, clamp each axis
      into the screen (bouncing when walking on its own and not after
      food), face the direction of travel, and pick Walk or Idle. */
  function FreeWalk(c: Cat, maxX: int, groundY: int): (r: Cat)
    ensures maxX >= 0 ==> 0.0 <= r.body.x <= maxX as real
    ensures groundY >= 0 ==> 0.0 <= r.body.y <= groundY as real
    ensures Abs(r.body.vx) == Abs(c.body.vx) && Abs(r.body.vy) == Abs(c.body.vy)
    ensures c.manual || c.food.Some? ==> r.body.vx == c.body.vx && r.body.vy == c.body.vy
    ensures 0.0 <= c.body.x + c.body.vx <= maxX as real ==> r.body.x == c.body.x + c.body.vx && r.body.vx == c.body.vx
    ensures 0.0 <= c.body.y + c.body.vy <= groundY as real ==> r.body.y == c.body.y + c.body.vy && r.body.vy == c.body.vy
    ensures c.manual ==> r.anim == SetAnimation(c.anim, if Moving(c.body.vx, c.body.vy) then "Walk" else "Idle")
    ensures r == c.(body := r.body, anim := r.anim)
  {
    var (b, bounced) := WalkBody(c.body, maxX, groundY, !c.manual && c.food.None?);
    match WalkAnimation(c, b, bounced)
    case None => c.(body := b)
    case Some(n) => c.(body := b, anim := SetAnimation(c.anim, n))
  }

  /** A cat steered into a wall stays pressed against it: the clamp does
      not reverse manual movement, so the step lands on the same edge
      with the same velocity. */
  lemma ManualStaysAtWall(c: Cat, maxX: int, groundY: int)
    requires c.manual && c.body.x == 0.0 && c.body.vx < 0.0
    ensures FreeWalk(c, maxX, groundY).body.x == 0.0
    ensures FreeWalk(c, maxX, groundY).body.vx == c.body.vx
  {
  }

  /** A cat walking on its own that hits the left wall turns round. */
  lemma WanderBouncesOffWall(c: Cat, maxX: int, groundY: int)
    requires !c.manual && c.food.None? && c.body.x + c.body.vx < 0.0
    ensures FreeWalk(c, maxX, groundY).body.x == 0.0
    ensures FreeWalk(c, maxX, groundY).body.vx == -c.body.vx
  {
  }

  /** The branches of `_update_cat_position` this model leaves out:
      sliding, edge runs, and a cat walking on its own with food about. */
  predicate OutOfModel(c: Cat) {
    c.sliding || c.edgeRunning || (!c.manual && (c.food.Some? || c.foods != []))
  }

  /** `_update_cat_position` for the branches in this model. A dead cat
      stops; a jump takes a jump step; a drag, a one-shot that is not a
      jump, or the death cool-down freezes the cat; the branches
      `OutOfModel` names give None; everything else is a free-walk step. */
  function UpdatePosition(c: Cat, screenWidth: int, screenHeight: int, coolingDown: bool): (r: Option<Cat>)
    ensures c.dead ==> r == Some(c.(body := c.body.(vx := 0.0, vy := 0.0)))
    ensures !c.dead && c.jumping ==> r == Some(JumpStep(c, MaxX(screenWidth), GroundY(screenHeight)))
    ensures !c.dead && !c.jumping && (c.dragging || c.anim.oneShot || coolingDown) ==> r == Some(c)
    ensures r.None? <==> !c.dead && !c.jumping && !(c.dragging || c.anim.oneShot || coolingDown) && OutOfModel(c)
    ensures r.Some? && !c.dead && !c.jumping && !(c.dragging || c.anim.oneShot || coolingDown) ==>
              r == Some(FreeWalk(c, MaxX(screenWidth), GroundY(screenHeight)))
  {
    if c.dead then Some(c.(body := c.body.(vx := 0.0, vy := 0.0)))
    else if c.jumping then Some(JumpStep(c, MaxX(screenWidth), GroundY(screenHeight)))
    else if c.dragging || c.anim.oneShot || coolingDown then Some(c)
    else if OutOfModel(c) then None
    else Some(FreeWalk(c, MaxX(screenWidth), GroundY(screenHeight)))
  }

  /** On a screen at least as wide as the cat, every step this model
      covers keeps the cat's column on the screen once it is there. */
  lemma StaysOnScreen(c: Cat, screenWidth: int, screenHeight: int, coolingDown: bool)
    requires screenWidth >= CatSize && 0.0 <= c.body.x <= MaxX(screenWidth) as real
    requires UpdatePosition(c, screenWidth, screenHeight, coolingDown).Some?
    ensures var r := UpdatePosition(c, screenWidth, screenHeight, coolingDown).value;
            0.0 <= r.body.x <= MaxX(screenWidth) as real
  {
  }

  // ---------------------------------------------------------------------
  // Random behaviour

  /** What `_random_movement` starts. */
  datatype Behaviour = Skip | EdgeRun | Slide | Leap | Wander | Rest

  /** The band a draw `r` in [0, 1) falls in; bands whose animation has no
      frames pass the draw on to the next test. */
  function Choose(c: Cat, r: real): (b: Behaviour)
    ensures b == Skip <==> c.anim.oneShot || c.sliding || c.manual || c.dead || c.food.Some?
    ensures b == EdgeRun ==> r < 0.15 && HasFrames(c.anim, "Run")
    ensures b == Slide ==> r < 0.30 && HasFrames(c.anim, "Slide")
    ensures b == Leap ==> r < 0.40 && HasFrames(c.anim, "Jump")
    ensures b == Wander ==> r < 0.80
    ensures b == Rest <==> b != Skip && r >= 0.80
  {
    if c.anim.oneShot || c.sliding || c.manual || c.dead || c.food.Some? then Skip
    else if HasFrames(c.anim, "Run") && r < 0.15 then EdgeRun
    else if HasFrames(c.anim, "Slide") && r < 0.30 then Slide
    else if HasFrames(c.anim, "Jump") && r < 0.40 then Leap
    else if r < 0.80 then Wander
    else Rest
  }

  /** With every animation present the bands are exactly
      [0, 0.15), [0.15, 0.30), [0.30, 0.40), [0.40, 0.80) and [0.80, 1). */
  lemma StockBands(c: Cat, r: real)
    requires HasFrames(c.anim, "Run") && HasFrames(c.anim, "Slide") && HasFrames(c.anim, "Jump")
    requires !(c.anim.oneShot || c.sliding || c.manual || c.dead || c.food.Some?)
    ensures Choose(c, r) == EdgeRun <==> r < 0.15
    ensures Choose(c, r) == Slide <==> 0.15 <= r < 0.30
    ensures Choose(c, r) == Leap <==> 0.30 <= r < 0.40
    ensures Choose(c, r) == Wander <==> 0.40 <= r < 0.80
  {
  }

  /** The wander velocity: the random heading `(vx, vy)` unless both of its
      components are under 0.1, in which case a coin picks an axis and a
      sign for a full-speed straight walk. */
  function WanderVelocity(vx: real, vy: real, horizontal: bool, positive: bool): (v: (real, real))
    ensures Abs(v.0) >= 0.1 || Abs(v.1) >= 0.1
    ensures Abs(vx) >= 0.1 || Abs(vy) >= 0.1 ==> v == (vx, vy)
  {
    if Abs(vx) < 0.1 && Abs(vy) < 0.1 then
      var s := if positive then MovementSpeed else -MovementSpeed;
      if horizontal then (s, 0.0) else (0.0, s)
    else (vx, vy)
  }

  /** `_random_movement` for the bands in this model: a leap plays Jump, a
      wander sets the velocity and walks, a rest stands still; edge runs
      and slides are not modelled (None). */
  function RandomMovement(c: Cat, r: real, vx: real, vy: real, horizontal: bool, positive: bool): (o: Option<Cat>)
    ensures Choose(c, r) == Skip ==> o == Some(c)
    ensures o.None? <==> Choose(c, r) == EdgeRun || Choose(c, r) == Slide
    ensures Choose(c, r) == Leap ==> o == Some(PlayOneShot(c, "Jump")) && o.value.jumping
    ensures Choose(c, r) == Wander ==> o.Some? && (Abs(o.value.body.vx) >= 0.1 || Abs(o.value.body.vy) >= 0.1)
    ensures Choose(c, r) == Rest ==> o.Some? && o.value.body.vx == 0.0 && o.value.body.vy == 0.0
  {
    match Choose(c, r)
    case Skip => Some(c)
    case EdgeRun => None
    case Slide => None
    case Leap => Some(PlayOneShot(c, "Jump"))
    case Wander =>
      var v := WanderVelocity(vx, vy, horizontal, positive);
      Some(c.(body := c.body.(vx := v.0, vy := v.1), anim := SetAnimation(c.anim, "Walk")))
    case Rest => Some(c.(body := c.body.(vx := 0.0, vy := 0.0), anim := SetAnimation(c.anim, "Idle")))
  }

  // ---------------------------------------------------------------------
  // Clicks

  /** `mousePressEvent` with the left button at global `(px, py)`: the drag
      starts, every movement stops, and the cat is alive again. */
  function Press(c: Cat, px: int, py: int): (r: Cat)
    ensures r.dragging && !r.dead && !r.manual && !r.edgeRunning && !r.sliding && !r.jumping
    ensures r.body.vx == 0.0 && r.body.vy == 0.0 && r.food.None? && (r.pressX, r.pressY) == (px, py)
    ensures r.clicks == c.clicks && r.foods == c.foods
    ensures r.anim == SetAnimation(c.anim, "Idle")
  {
    c.(anim := SetAnimation(c.anim, "Idle"), dragging := true, pressX := px, pressY := py, manual := false,
       body := c.body.(vx := 0.0, vy := 0.0), edgeRunning := false, sliding := false, jumping := false,
       food := None, dead := false)
  }

  /** The Manhattan distance between press and release. */
  function Moved(c: Cat, rx: int, ry: int): nat {
    (if rx >= c.pressX then rx - c.pressX else c.pressX - rx) + (if ry >= c.pressY then ry - c.pressY else c.pressY - ry)
  }

  /** The click-counting part of `mouseReleaseEvent`. */
  function Count(c: Cat, rx: int, ry: int): (r: Cat)
    ensures r.anim.frames == c.anim.frames && r.foods == c.foods && !r.dragging
    ensures Moved(c, rx, ry) < ClickThreshold && !c.dead && c.clicks + 1 >= DeadThreshold ==>
              r.clicks == 0 && (HasFrames(c.anim, "Dead") ==> r.dead && r.anim.name == "Dead")
    ensures Moved(c, rx, ry) < ClickThreshold && !c.dead && c.clicks + 1 < DeadThreshold ==>
              r.clicks == c.clicks + 1 && !r.dead
    ensures Moved(c, rx, ry) >= ClickThreshold && !c.dead ==> r == c.(dragging := false)
    ensures c.dead ==> r == c.(dragging := false, clicks := 0)
  {
    var c0 := c.(dragging := false);
    if Moved(c, rx, ry) < ClickThreshold && !c.dead then
      if c.clicks + 1 >= DeadThreshold then PlayDead(c0.(clicks := c.clicks + 1)).(clicks := 0)
      else PlayOneShot(c0.(clicks := c.clicks + 1), "Hurt")
    else if c.dead then c0.(clicks := 0)
    else c0
  }

  /** `mouseReleaseEvent` at `(rx, ry)`. With the left button, a click
      (less than 5 pixels of travel) on a live cat counts; the fifth kills
      it and clears the count, the others play Hurt; a release on a dead
      cat clears the count. With any button, a live cat that is not being
      dragged, with food about and no target, then targets the first piece. */
  function Release(c: Cat, rx: int, ry: int, left: bool): (r: Cat)
    ensures left ==> !r.dragging && r.clicks == Count(c, rx, ry).clicks && r.dead == Count(c, rx, ry).dead
    ensures !left ==> r.dragging == c.dragging && r.clicks == c.clicks && r.dead == c.dead
    ensures r.anim.frames == c.anim.frames
    ensures var c1 := if left then Count(c, rx, ry) else c;
            !c1.dragging && !c1.dead && c1.food.None? && c1.foods != [] ==>
              r == c1.(food := Some(c.foods[0]), manual := false, edgeRunning := false, sliding := false)
    ensures var c1 := if left then Count(c, rx, ry) else c;
            c1.dragging || c1.dead || c1.food.Some? || c1.foods == [] ==> r == c1
  {
    var c1 := if left then Count(c, rx, ry) else c;
    if !c1.dragging && c1.food.None? && c1.foods != [] && !c1.dead then
      c1.(food := Some(c1.foods[0]), edgeRunning := false, sliding := false, manual := false)
    else c1
  }

  /** A click in place: press and release at the same point. */
  function Click(c: Cat, px: int, py: int): Cat {
    Release(Press(c, px, py), px, py, true)
  }

  /** A press brings a dead cat back, so the release right after it never
      takes the dead branch. */
  lemma PressRevives(c: Cat, px: int, py: int)
    ensures !Press(c, px, py).dead
    ensures Moved(Press(c, px, py), px, py) == 0
  {
  }

  /** Each click in place counts, and the fifth in a row kills the cat. */
  lemma ClickCounts(c: Cat, px: int, py: int)
    requires c.clicks < DeadThreshold
    ensures c.clicks + 1 < DeadThreshold ==> Click(c, px, py).clicks == c.clicks + 1 && !Click(c, px, py).dead
    ensures c.clicks + 1 == DeadThreshold && HasFrames(c.anim, "Dead") ==>
              Click(c, px, py).dead && Click(c, px, py).clicks == 0 && Click(c, px, py).anim.name == "Dead"
    ensures Click(c, px, py).anim.frames == c.anim.frames
  {
    PressRevives(c, px, py);
  }

  /** Five clicks in place on a cat with a fresh count kill it. */
  lemma FiveClicksKill(c: Cat, px: int, py: int)
    requires c.clicks == 0 && HasFrames(c.anim, "Dead")
    ensures var c5 := Click(Click(Click(Click(Click(c, px, py), px, py), px, py), px, py), px, py);
            c5.dead && c5.anim.name == "Dead" && c5.clicks == 0
  {
    var c1 := Click(c, px, py);
    ClickCounts(c, px, py);
    var c2 := Click(c1, px, py);
    ClickCounts(c1, px, py);
    var c3 := Click(c2, px, py);
    ClickCounts(c2, px, py);
    var c4 := Click(c3, px, py);
    ClickCounts(c3, px, py);
    ClickCounts(c4, px, py);
  }

  // ---------------------------------------------------------------------
  // Revive and droppings

  /** `_reset_pet`: every flag, the velocity, the click count and the food
      target are cleared, and the cat goes back to Idle. */
  function ResetPet(c: Cat): (r: Cat)
    ensures !r.dead && !r.anim.oneShot && !r.manual && !r.edgeRunning && !r.sliding && !r.jumping
    ensures r.body.vx == 0.0 && r.body.vy == 0.0 && r.clicks == 0 && r.food.None?
    ensures HasFrames(c.anim, "Idle") ==> r.anim.name == "Idle"
    ensures r.body.x == c.body.x && r.body.y == c.body.y && r.anim.frames == c.anim.frames
  {
    c.(dead := false, anim := SetAnimation(c.anim.(oneShot := false), "Idle"), manual := false,
       edgeRunning := false, sliding := false, jumping := false, body := c.body.(vx := 0.0, vy := 0.0),
       clicks := 0, food := None)
  }

  /** After a revive the cat is free again: the next random behaviour is
      never skipped. */
  lemma RevivedCatBehaves(c: Cat, r: real)
    ensures Choose(ResetPet(c), r) != Skip
  {
  }

  /** `_spawn_random_poop`: without dropping sprites nothing spawns;
      otherwise the dropping sits centred under the cat, clamped onto the
      screen. */
  function SpawnPoop(c: Cat, screenWidth: int, screenHeight: int, haveSprites: bool): (p: Option<(int, int)>)
    ensures !haveSprites <==> p.None?
    ensures p.Some? ==> 0 <= p.value.0 && 0 <= p.value.1
    ensures p.Some? && screenWidth >= PoopSize ==> p.value.0 <= screenWidth - PoopSize
    ensures p.Some? && screenHeight >= PoopSize ==> p.value.1 <= screenHeight - PoopSize
    ensures p.Some? && 0 <= Trunc(c.body.x) + CatSize / 2 - PoopSize / 2 <= screenWidth - PoopSize ==>
              p.value.0 == Trunc(c.body.x) + CatSize / 2 - PoopSize / 2
  {
    if !haveSprites then None
    else
      var sx := Trunc(c.body.x) + CatSize / 2 - PoopSize / 2;
      var sy := Trunc(c.body.y) + CatSize - PoopSize / 2;
      Some((IntMax(0, IntMin(sx, screenWidth - PoopSize)), IntMax(0, IntMin(sy, screenHeight - PoopSize))))
  }
}

=== FILE: demo.dfy ===
/** The older single-widget pet (old/pet_demo.py): loading a species'
    mapping out of `pets_data.json`, the per-state movie cache, state
    switching with a forced period, the walk tick with its speed-based
    animation choice, and the double-click swipe. Reading the JSON file,
    checking that an asset exists and decoding a GIF are parameters. */
module Demo {
  import opened Base
  import Walk

  // ---------------------------------------------------------------------
  // The mapping

  /** What `pets_data.json` holds for one species: its `states` object
      (variant to state to relative path) and its `defaults` object (state
      to parameter to number); either may be absent. */
  datatype SpeciesJson = SpeciesJson(states: Option<map<string, OrderedMap<string>>>,
                                     defaults: Option<map<string, map<string, real>>>)

  /** The exceptions `load_deskpets_mapping` raises. */
  datatype LoadError = DataMissing | SpeciesMissing | VariantMissing | AssetMissing(state: string, rel: string)

  /** `DeskPetsMapping`. */
  datatype Mapping = Mapping(species: string, variant: string, states: OrderedMap<string>,
                             defaults: map<string, map<string, real>>)

  /** Every state's asset exists. */
  predicate AllPresent(states: OrderedMap<string>, present: string -> bool) {
    forall i :: 0 <= i < |states.keys| && states.keys[i] in states.values ==> present(states.values[states.keys[i]])
  }

  /** The position of the first state, in file order, whose asset is
      missing. */
  function FirstMissing(states: OrderedMap<string>, present: string -> bool, from: nat): (i: Option<nat>)
    requires from <= |states.keys|
    ensures i.Some? ==> from <= i.value < |states.keys|
    ensures i.Some? ==> states.keys[i.value] in states.values && !present(states.values[states.keys[i.value]])
    ensures forall j :: from <= j < |states.keys| && (i.None? || j < i.value) && states.keys[j] in states.values ==>
              present(states.values[states.keys[j]])
    decreases |states.keys| - from
  {
    if from == |states.keys| then None
    else
      var k := states.keys[from];
      if k in states.values && !present(states.values[k]) then Some(from)
      else FirstMissing(states, present, from + 1)
  }

  /** `load_deskpets_mapping`: `data` is the decoded file, None when it
      does not exist; `present` says whether a relative path resolves to
      an existing file. */
  function LoadMapping(data: Option<map<string, SpeciesJson>>, species: string, variant: string,
                       present: string -> bool): (r: Result<Mapping, LoadError>)
    ensures data.None? ==> r == Err(DataMissing)
    ensures r == Err(SpeciesMissing) <==> data.Some? && species !in data.value
    ensures r == Err(VariantMissing) <==>
              data.Some? && species in data.value
              && (data.value[species].states.None? || variant !in data.value[species].states.value)
    ensures r.Ok? <==>
              && data.Some? && species in data.value && data.value[species].states.Some?
              && variant in data.value[species].states.value
              && AllPresent(data.value[species].states.value[variant], present)
    ensures r.Ok? ==> r.value.states == data.value[species].states.value[variant]
    ensures r.Ok? ==> r.value.defaults == (match data.value[species].defaults case None => map[] case Some(d) => d)
    ensures r.Err? && r.error.AssetMissing? ==>
              var states := data.value[species].states.value[variant];
              exists i :: 0 <= i < |states.keys| && states.keys[i] == r.error.state && states.keys[i] in states.values
                && states.values[states.keys[i]] == r.error.rel && !present(r.error.rel)
                && forall j :: 0 <= j < i && states.keys[j] in states.values ==> present(states.values[states.keys[j]])
  {
    if data.None? then Err(DataMissing)
    else if species !in data.value then Err(SpeciesMissing)
    else
      var sp := data.value[species];
      if sp.states.None? || variant !in sp.states.value then Err(VariantMissing)
      else
        var states := sp.states.value[variant];
        var defaults := match sp.defaults case None => map[] case Some(d) => d;
        match FirstMissing(states, present, 0)
        case Some(i) => Err(AssetMissing(states.keys[i], states.values[states.keys[i]]))
        case None => Ok(Mapping(species, variant, states, defaults))
  }

  /** `defaults.get(state, {}).get(key, fallback)`. */
  function Param(defaults: map<string, map<string, real>>, state: string, key: string, fallback: real): (v: real)
    ensures state !in defaults || key !in defaults[state] ==> v == fallback
    ensures state in defaults && key in defaults[state] ==> v == defaults[state][key]
  {
    if state in defaults && key in defaults[state] then defaults[state][key] else fallback
  }

  // ---------------------------------------------------------------------
  // Movies and states

  /** A loaded movie: its state and its playback speed in percent. */
  datatype Movie = Movie(state: string, speed: int)

  /** The widget: mapping, movie cache, current state, the state whose
      movie the sprite label shows, the end of a forced period, the walk,
      the drag flag, and the speech bubble with its expiry time. */
  datatype Pet = Pet(mapping: Mapping, movies: map<string, Movie>, current: string, shown: Option<string>,
                     forcedUntil: real, walker: Walk.Mover, dragging: bool,
                     speech: Option<string>, speechUntil: real)

  /** Whether a state's movie file decodes; the model's stand-in for
      `QMovie.isValid`. */
  type Validity = string -> bool

  /** `_get_movie`: None for a state the mapping lacks or whose file does
      not decode; a cached movie is reused; a new one runs at
      `int(100 * speed_animation)` percent and is cached. */
  function GetMovie(p: Pet, state: string, valid: Validity): (r: (Option<Movie>, map<string, Movie>))
    ensures state !in p.mapping.states.values ==> r == (None, p.movies)
    ensures state in p.mapping.states.values && state in p.movies ==> r == (Some(p.movies[state]), p.movies)
    ensures r.0.None? ==> r.1 == p.movies
    ensures r.0.Some? ==> state in r.1 && r.1[state] == r.0.value
    ensures r.0.Some? && state !in p.movies ==>
              && valid(state) && r.0.value.state == state
              && r.0.value.speed == Trunc(100.0 * Param(p.mapping.defaults, state, "speed_animation", 1.0))
              && r.1 == p.movies[state := r.0.value]
    ensures r.0.None? <==> state !in p.mapping.states.values || (state !in p.movies && !valid(state))
  {
    if state !in p.mapping.states.values then (None, p.movies)
    else if state in p.movies then (Some(p.movies[state]), p.movies)
    else if !valid(state) then (None, p.movies)
    else
      var mv := Movie(state, Trunc(100.0 * Param(p.mapping.defaults, state, "speed_animation", 1.0)));
      (Some(mv), p.movies[state := mv])
  }

  /** `_set_state` exactly as written: a state without a movie changes
      nothing but the cache; a state equal to the current one returns
      early, even when its movie was never put on the label; any other
      state becomes current and shown, and a positive `force` starts a
      forced period. */
  function SetStateAsWritten(p: Pet, state: string, force: real, now: real, valid: Validity): (r: Pet)
    ensures r.mapping == p.mapping && r.walker == p.walker && r.dragging == p.dragging
    ensures r.speech == p.speech && r.speechUntil == p.speechUntil
    ensures r.movies == GetMovie(p, state, valid).1
    ensures GetMovie(p, state, valid).0.None? ==> r == p
    ensures GetMovie(p, state, valid).0.None? || p.current == state ==> r.current == p.current && r.shown == p.shown
    ensures GetMovie(p, state, valid).0.Some? && p.current != state ==> r.current == state && r.shown == Some(state)
    ensures r.forcedUntil == (if GetMovie(p, state, valid).0.Some? && p.current != state && force > 0.0
                              then now + force else p.forcedUntil)
  {
    var g := GetMovie(p, state, valid);
    var p1 := p.(movies := g.1);
    if g.0.None? || p.current == state then p1
    else p1.(current := state, shown := Some(state), forcedUntil := if force > 0.0 then now + force else p.forcedUntil)
  }

  /** `_set_state` as evidently intended: the early return applies only
      when the state's movie is already on the label. */
  function SetState(p: Pet, state: string, force: real, now: real, valid: Validity): (r: Pet)
    ensures r.mapping == p.mapping && r.walker == p.walker && r.dragging == p.dragging
    ensures r.speech == p.speech && r.speechUntil == p.speechUntil
    ensures r.movies == GetMovie(p, state, valid).1
    ensures GetMovie(p, state, valid).0.None? ==> r == p
    ensures GetMovie(p, state, valid).0.Some? ==> r.current == state && r.shown == Some(state)
    ensures r.forcedUntil == (if GetMovie(p, state, valid).0.Some? && p.shown != Some(state) && force > 0.0
                              then now + force else p.forcedUntil)
    ensures GetMovie(p, state, valid).0.None? || p.shown == Some(state) ==> r.current == p.current || r.current == state
  {
    var (mv, movies) := GetMovie(p, state, valid);
    var p1 := p.(movies := movies);
    if mv.None? then p1
    else if p.shown == Some(state) then p1.(current := state)
    else p1.(current := state, shown := Some(state), forcedUntil := if force > 0.0 then now + force else p.forcedUntil)
  }

  /** `_place_initial`: 78% across and 65% down the screen, or (400, 400)
      without one. */
  function PlaceInitial(screen: Option<Walk.Geo>): (pos: (int, int))
    ensures screen.None? ==> pos == (400, 400)
    ensures screen.Some? ==> pos == (screen.value.x + Trunc(screen.value.width as real * 0.78),
                                     screen.value.y + Trunc(screen.value.height as real * 0.65))
    ensures screen.Some? && screen.value.width >= 0 && screen.value.height >= 0 ==>
              screen.value.x <= pos.0 <= screen.value.x + screen.value.width
              && screen.value.y <= pos.1 <= screen.value.y + screen.value.height
  {
    match screen
    case None => (400, 400)
    case Some(g) =>
      var fx := g.width as real * 0.78;
      var fy := g.height as real * 0.65;
      TruncBetween(fx, 0, g.width);
      TruncBetween(fy, 0, g.height);
      (g.x + Trunc(fx), g.y + Trunc(fy))
  }

  /** The start-up values: "idle" current with nothing on the label, no
      forced period or bubble, and the velocity `(0.35, 0.25)` times the
      walk speed (3 when the defaults lack it); then `_set_state("idle")`. */
  function Initial(mapping: Mapping, screen: Option<Walk.Geo>): (p: Pet)
    ensures p.current == "idle" && p.shown.None? && p.movies == map[] && p.speech.None?
    ensures (p.walker.x, p.walker.y) == PlaceInitial(screen)
    ensures mapping.defaults == map[] ==> p.walker.vx == 1.05 && p.walker.vy == 0.75
    ensures "walk" in mapping.defaults && "movement_speed" in mapping.defaults["walk"] ==>
              p.walker.vx == mapping.defaults["walk"]["movement_speed"] * 0.35
              && p.walker.vy == mapping.defaults["walk"]["movement_speed"] * 0.25
    ensures !("walk" in mapping.defaults && "movement_speed" in mapping.defaults["walk"]) ==>
              p.walker.vx == 1.05 && p.walker.vy == 0.75
    ensures p.mapping == mapping && !p.dragging && p.forcedUntil == 0.0
  {
    var walk := Param(mapping.defaults, "walk", "movement_speed", 3.0);
    var (x, y) := PlaceInitial(screen);
    Pet(mapping, map[], "idle", None, 0.0, Walk.Mover(x, y, walk * 0.35, walk * 0.25), false, None, 0.0)
  }

  /** The widget after construction, ending in `_set_state("idle")`: as
      written, "idle" is already current, so the call only caches the idle
      movie and the label stays empty. */
  function NewPetAsWritten(mapping: Mapping, screen: Option<Walk.Geo>, valid: Validity): (p: Pet)
    ensures p.mapping == mapping && p.current == "idle" && p.shown.None? && p.forcedUntil == 0.0
    ensures "idle" in p.movies <==> "idle" in mapping.states.values && valid("idle")
    ensures (p.walker.x, p.walker.y) == PlaceInitial(screen) && !p.dragging && p.speech.None?
  {
    SetStateAsWritten(Initial(mapping, screen), "idle", 0.0, 0.0, valid)
  }

  /** The widget after construction with the corrected `_set_state`: with
      a decodable "idle" state its movie is on the label. */
  function NewPet(mapping: Mapping, screen: Option<Walk.Geo>, valid: Validity): (p: Pet)
    ensures p.current == "idle"
    ensures p.shown == Some("idle") <==> "idle" in mapping.states.values && valid("idle")
    ensures p.shown.None? <==> !("idle" in mapping.states.values && valid("idle"))
    ensures p.forcedUntil == 0.0
  {
    SetState(Initial(mapping, screen), "idle", 0.0, 0.0, valid)
  }

  // ---------------------------------------------------------------------
  // The tick

  /** The automatic animation for a speed `|vx| + |vy|`. */
  function AutoState(speed: real, hasWalkFast: bool, hasWalk: bool): (s: string)
    ensures speed < 0.3 ==> s == "idle"
    ensures s == "walk_fast" <==> speed >= 0.3 && hasWalkFast && speed > 2.2
    ensures s == "walk" <==> speed >= 0.3 && hasWalk && !(hasWalkFast && speed > 2.2)
    ensures s in {"idle", "walk", "walk_fast"}
  {
    if speed < 0.3 then "idle"
    else if hasWalkFast && speed > 2.2 then "walk_fast"
    else if hasWalk then "walk"
    else "idle"
  }

  function Rank(s: string): nat {
    if s == "walk_fast" then 2 else if s == "walk" then 1 else 0
  }

  /** Going faster never picks a slower animation. */
  lemma FasterNeverSlower(s1: real, s2: real, hasWalkFast: bool, hasWalk: bool)
    requires s1 <= s2
    ensures Rank(AutoState(s1, hasWalkFast, hasWalk)) <= Rank(AutoState(s2, hasWalkFast, hasWalk))
  {
  }

  /** The speed limit: 0.6 times the walk_fast speed, 5 when absent. */
  function MaxSpeed(m: Mapping): real {
    0.6 * Param(m.defaults, "walk_fast", "movement_speed", 5.0)
  }

  /** The bubble expiry that ends a tick: a shown text is dropped once
      `now` is past its time. */
  function Expire(p: Pet, now: real): (r: Pet)
    ensures r == p || r == p.(speech := None)
    ensures r.walker == p.walker && r.current == p.current && r.shown == p.shown && r.forcedUntil == p.forcedUntil
    ensures r.speech.None? <==> p.speech.None? || (p.speech.value != "" && now > p.speechUntil)
  {
    if p.speech.Some? && p.speech.value != "" && now > p.speechUntil then p.(speech := None) else p
  }

  /** `_tick` with the corrected `_set_state`. */
  function Tick(p: Pet, screen: Option<Walk.Geo>, winWidth: int, winHeight: int,
                driftX: real, driftY: real, now: real, valid: Validity): (r: Pet)
    ensures p.dragging || screen.None? ==> r == p
    ensures !p.dragging && screen.Some? ==>
              r.walker == Walk.Step(p.walker, screen.value, winWidth, winHeight, MaxSpeed(p.mapping), driftX, driftY)
    ensures !p.dragging && screen.Some? && MaxSpeed(p.mapping) >= 0.0 ==>
              Abs(r.walker.vx) <= MaxSpeed(p.mapping) && Abs(r.walker.vy) <= MaxSpeed(p.mapping)
    ensures now < p.forcedUntil ==> r.current == p.current && r.shown == p.shown && r.forcedUntil == p.forcedUntil
    ensures !p.dragging && screen.Some? && now >= p.forcedUntil ==>
              r == Expire(SetState(p.(walker := r.walker), AutoState(Abs(r.walker.vx) + Abs(r.walker.vy),
                              "walk_fast" in p.mapping.states.values, "walk" in p.mapping.states.values), 0.0, now, valid), now)
    ensures !p.dragging && screen.Some? ==>
              (r.speech.None? <==> p.speech.None? || (p.speech.value != "" && now > p.speechUntil))
  {
    if p.dragging || screen.None? then p
    else
      var w := Walk.Step(p.walker, screen.value, winWidth, winHeight, MaxSpeed(p.mapping), driftX, driftY);
      var p1 := p.(walker := w);
      if now >= p.forcedUntil then
        var st := AutoState(Abs(w.vx) + Abs(w.vy), "walk_fast" in p.mapping.states.values, "walk" in p.mapping.states.values);
        Expire(SetState(p1, st, 0.0, now, valid), now)
      else Expire(p1, now)
  }

  /** `_tick` as written: nothing while dragging or without a screen;
      otherwise one bounded walk step, the automatic animation once the
      forced period is over, and the bubble expiry. */
  function TickAsWritten(p: Pet, screen: Option<Walk.Geo>, winWidth: int, winHeight: int,
                         driftX: real, driftY: real, now: real, valid: Validity): (r: Pet)
    ensures p.dragging || screen.None? ==> r == p
    ensures r.mapping == p.mapping && r.dragging == p.dragging
    ensures !p.dragging && screen.Some? ==>
              r.walker == Walk.Step(p.walker, screen.value, winWidth, winHeight, MaxSpeed(p.mapping), driftX, driftY)
    ensures !p.dragging && screen.Some? && MaxSpeed(p.mapping) >= 0.0 ==>
              Abs(r.walker.vx) <= MaxSpeed(p.mapping) && Abs(r.walker.vy) <= MaxSpeed(p.mapping)
    ensures now < p.forcedUntil ==> r.current == p.current && r.shown == p.shown && r.forcedUntil == p.forcedUntil
    ensures !p.dragging && screen.Some? && now >= p.forcedUntil ==>
              r == Expire(SetStateAsWritten(p.(walker := r.walker), AutoState(Abs(r.walker.vx) + Abs(r.walker.vy),
                              "walk_fast" in p.mapping.states.values, "walk" in p.mapping.states.values), 0.0, now, valid), now)
    ensures !p.dragging && screen.Some? ==>
              (r.speech.None? <==> p.speech.None? || (p.speech.value != "" && now > p.speechUntil))
  {
    if p.dragging || screen.None? then p
    else
      var w := Walk.Step(p.walker, screen.value, winWidth, winHeight, MaxSpeed(p.mapping), driftX, driftY);
      var p1 := p.(walker := w);
      if now >= p.forcedUntil then
        var st := AutoState(Abs(w.vx) + Abs(w.vy), "walk_fast" in p.mapping.states.values, "walk" in p.mapping.states.values);
        Expire(SetStateAsWritten(p1, st, 0.0, now, valid), now)
      else Expire(p1, now)
  }

  /** As written, a species whose only state is "idle" never shows an
      animation: construction leaves the label empty, and every tick keeps
      it so. */
  lemma IdleOnlyNeverShown(mapping: Mapping, start: Option<Walk.Geo>, valid: Validity, p: Pet,
                           screen: Option<Walk.Geo>, winWidth: int, winHeight: int, driftX: real, driftY: real, now: real)
    requires mapping.states.values.Keys == {"idle"}
    requires p.mapping == mapping && p.current == "idle" && p.shown.None?
    ensures NewPetAsWritten(mapping, start, valid).shown.None?
    ensures NewPetAsWritten(mapping, start, valid).current == "idle"
    ensures var q := TickAsWritten(p, screen, winWidth, winHeight, driftX, driftY, now, valid);
            q.shown.None? && q.current == "idle" && q.mapping == mapping
  {
    assert "walk" !in mapping.states.values && "walk_fast" !in mapping.states.values;
  }

  /** With the correction, such a species shows the idle movie from
      construction on, and every tick outside a forced period shows it. */
  lemma IdleOnlyShownWhenFixed(mapping: Mapping, start: Option<Walk.Geo>, valid: Validity, p: Pet,
                               screen: Option<Walk.Geo>, winWidth: int, winHeight: int, driftX: real, driftY: real, now: real)
    requires mapping.states.values.Keys == {"idle"} && valid("idle")
    requires p.mapping == mapping && !p.dragging && screen.Some? && now >= p.forcedUntil
    ensures NewPet(mapping, start, valid).shown == Some("idle")
    ensures Tick(p, screen, winWidth, winHeight, driftX, driftY, now, valid).shown == Some("idle")
  {
    assert "walk" !in mapping.states.values && "walk_fast" !in mapping.states.values;
  }

  // ---------------------------------------------------------------------
  // Double click

  /** The swipe's forced period: `max(0.6, hold / 10)` with hold 8 when
      absent. */
  function SwipeSeconds(m: Mapping): (s: real)
    ensures s >= 0.6
    ensures "swipe" !in m.defaults || "hold" !in m.defaults["swipe"] ==> s == 0.8
  {
    Max(0.6, Param(m.defaults, "swipe", "hold", 8.0) / 10.0)
  }

  /** `mouseDoubleClickEvent` up to the inbox check that follows it: the
      swipe plays, forced, when the mapping has it. */
  function DoubleClick(p: Pet, now: real, valid: Validity): (r: Pet)
    ensures "swipe" !in p.mapping.states.values ==> r == p
    ensures "swipe" in p.mapping.states.values ==> r == SetStateAsWritten(p, "swipe", SwipeSeconds(p.mapping), now, valid)
    ensures "swipe" in p.mapping.states.values && valid("swipe") && p.current != "swipe" ==>
              r.current == "swipe" && r.shown == Some("swipe") && r.forcedUntil == now + SwipeSeconds(p.mapping)
  {
    if "swipe" in p.mapping.states.values then SetStateAsWritten(p, "swipe", SwipeSeconds(p.mapping), now, valid)
    else p
  }

  /** A swipe started by a double click holds through every tick of its
      forced period, which lasts at least 0.6 seconds. */
  lemma SwipeHoldsWhileForced(p: Pet, now: real, valid: Validity, screen: Option<Walk.Geo>,
                              winWidth: int, winHeight: int, driftX: real, driftY: real, later: real)
    requires "swipe" in p.mapping.states.values && valid("swipe") && p.current != "swipe"
    requires later < now + SwipeSeconds(p.mapping)
    ensures DoubleClick(p, now, valid).current == "swipe"
    ensures DoubleClick(p, now, valid).forcedUntil == now + SwipeSeconds(p.mapping) >= now + 0.6
    ensures TickAsWritten(DoubleClick(p, now, valid), screen, winWidth, winHeight, driftX, driftY, later, valid).current == "swipe"
  {
  }
}

=== FILE: messaging.dfy ===
/** The file-based message inboxes (DeskPets_repo/messaging.py). An inbox
    file is a list of lines; its rows are what `read_jsonl` decodes from
    them, and a rewrite writes one encoded line per row. The shared
    directory maps file names to their lines. The JSON codec, uuids and the
    clock are parameters. */
module Messaging {
  import opened Base
  import Text

  /** A JSON value as far as the inbox logic looks at it: `Other` stands
      for arrays and objects, with their truthiness. */
  datatype Value = Null | Bool(b: bool) | Str(s: string) | Num(n: real) | Other(truthy: bool)

  /** A decoded JSON object. */
  type Row = map<string, Value>

  /** A decoded line: an object, or any other JSON document. */
  datatype Doc = Object(row: Row) | NonObject

  datatype FetchError =
    | NotAnObject    // `r.get` on a non-dict raises AttributeError
    | TextNotString  // `.strip()` on a truthy non-string raises AttributeError

  /** `read_jsonl`: the decoded lines, in order, skipping lines that are
      blank once stripped and lines the decoder rejects; a missing file
      reads as no rows. */
  function ReadJsonl(file: Option<seq<string>>, decode: string -> Option<Doc>): (rows: seq<Doc>)
    ensures file.None? ==> rows == []
    ensures file.Some? ==> |rows| <= |file.value|
    ensures file.Some? ==> forall d :: d in rows ==>
              exists l :: l in file.value && Text.Strip(l) != "" && decode(Text.Strip(l)) == Some(d)
  {
    match file
    case None => []
    case Some(lines) =>
      DecodedFromLines(lines, decode);
      Decoded(lines, decode)
  }

  function Decoded(lines: seq<string>, decode: string -> Option<Doc>): (rows: seq<Doc>)
    ensures |rows| <= |lines|
    decreases |lines|
  {
    if lines == [] then []
    else
      var init := Decoded(lines[..|lines| - 1], decode);
      var l := Text.Strip(lines[|lines| - 1]);
      if l != "" && decode(l).Some? then init + [decode(l).value] else init
  }

  /** Every row read comes from a line that is not blank and decodes to it. */
  lemma {:induction false} DecodedFromLines(lines: seq<string>, decode: string -> Option<Doc>)
    ensures forall d :: d in Decoded(lines, decode) ==>
              exists l :: l in lines && Text.Strip(l) != "" && decode(Text.Strip(l)) == Some(d)
    decreases |lines|
  {
    if lines != [] {
      var init := lines[..|lines| - 1];
      var last := lines[|lines| - 1];
      DecodedFromLines(init, decode);
      assert lines == init + [last];
      DecodedSnoc(init, last, decode);
      assert forall k :: k in init ==> k in lines;
    }
  }

  /** Reading a file made of two parts reads the two parts one after the
      other: rows keep the order of their lines. */
  lemma {:induction false} DecodedAppend(a: seq<string>, b: seq<string>, decode: string -> Option<Doc>)
    ensures Decoded(a + b, decode) == Decoded(a, decode) + Decoded(b, decode)
    decreases |b|
  {
    if b != [] {
      var b0 := b[..|b| - 1];
      assert (a + b)[..|a + b| - 1] == a + b0;
      assert (a + b)[|a + b| - 1] == b[|b| - 1];
      DecodedAppend(a, b0, decode);
    } else {
      assert a + b == a;
    }
  }

  /** One more line adds exactly its decoded row, or nothing when it is
      blank or does not decode. */
  lemma DecodedSnoc(lines: seq<string>, l: string, decode: string -> Option<Doc>)
    ensures Decoded(lines + [l], decode)
            == Decoded(lines, decode) + (if Text.Strip(l) != "" && decode(Text.Strip(l)).Some? then [decode(Text.Strip(l)).value] else [])
  {
    assert (lines + [l])[..|lines|] == lines;
  }

  /** A blank line contributes nothing. */
  lemma BlankLineSkipped(lines: seq<string>, blank: string, decode: string -> Option<Doc>)
    requires Text.AllSpace(blank)
    ensures Decoded(lines + [blank], decode) == Decoded(lines, decode)
  {
    DecodedSnoc(lines, blank, decode);
  }

  /** A line that is not blank once stripped and decodes to `d` reads back
      as `d`, after the rows of the lines before it. */
  lemma GoodLineRead(lines: seq<string>, l: string, d: Doc, decode: string -> Option<Doc>)
    requires Text.Strip(l) != "" && decode(Text.Strip(l)) == Some(d)
    ensures ReadJsonl(Some(lines + [l]), decode) == ReadJsonl(Some(lines), decode) + [d]
  {
    DecodedSnoc(lines, l, decode);
  }

  /** A line `read_jsonl` turns into a row. */
  predicate GoodLine(l: string, decode: string -> Option<Doc>) {
    Text.Strip(l) != "" && decode(Text.Strip(l)).Some?
  }

  /** Every line yields a row exactly when none is blank or undecodable. */
  lemma {:induction false} DecodedCount(lines: seq<string>, decode: string -> Option<Doc>)
    ensures |Decoded(lines, decode)| == |lines| <==> forall i :: 0 <= i < |lines| ==> GoodLine(lines[i], decode)
    decreases |lines|
  {
    if lines != [] {
      var init := lines[..|lines| - 1];
      var l := lines[|lines| - 1];
      DecodedCount(init, decode);
      assert lines == init + [l];
      DecodedSnoc(init, l, decode);
      assert |Decoded(lines, decode)| == |Decoded(init, decode)| + (if GoodLine(l, decode) then 1 else 0);
      assert (forall i :: 0 <= i < |lines| ==> GoodLine(lines[i], decode))
             <==> (forall i :: 0 <= i < |init| ==> GoodLine(init[i], decode)) && GoodLine(l, decode) by {
        assert forall i :: 0 <= i < |init| ==> init[i] == lines[i];
      }
    }
  }

  /** The JSON codec: `decode` is `json.loads` on one stripped line, None
      when it raises `JSONDecodeError`; `encode` is `json.dumps`. */
  datatype Codec = Codec(decode: string -> Option<Doc>, encode: Doc -> string)

  /** `d` encodes to one line, with no whitespace at either end, that
      decodes back to it. `json` does this for the documents the program
      writes, though not for every real number a `Num` may hold, so the
      property is asked of the documents at hand only. */
  ghost predicate RoundTripsOn(c: Codec, d: Doc) {
    Text.Clean(c.encode(d)) && c.decode(c.encode(d)) == Some(d)
  }

  /** Every document has a codec that round-trips it, so requiring the
      property of given documents excludes no document. */
  lemma RoundTripsOnSatisfiable(d: Doc)
    ensures exists c :: RoundTripsOn(c, d)
  {
    var c := Codec(s => if s == "{}" then Some(d) else None, _ => "{}");
    assert Text.Clean(c.encode(d));
    assert RoundTripsOn(c, d);
  }

  /** The lines `overwrite_jsonl` writes: one encoded line per row. */
  function Encoded(rows: seq<Doc>, encode: Doc -> string): (lines: seq<string>)
    ensures |lines| == |rows| && forall i :: 0 <= i < |rows| ==> lines[i] == encode(rows[i])
  {
    seq(|rows|, i requires 0 <= i < |rows| => encode(rows[i]))
  }

  lemma EncodedSnoc(rows: seq<Doc>, d: Doc, encode: Doc -> string)
    ensures Encoded(rows + [d], encode) == Encoded(rows, encode) + [encode(d)]
  {
  }

  /** When the codec round-trips every row, reading a rewritten file gives
      back the rows written. */
  lemma {:induction false} EncodedReadsBack(rows: seq<Doc>, c: Codec)
    requires forall d :: d in rows ==> RoundTripsOn(c, d)
    ensures Decoded(Encoded(rows, c.encode), c.decode) == rows
    decreases |rows|
  {
    if rows != [] {
      var init := rows[..|rows| - 1];
      var d := rows[|rows| - 1];
      assert rows == init + [d];
      EncodedReadsBack(init, c);
      EncodedSnoc(init, d, c.encode);
      assert d in rows;
      var l := c.encode(d);
      assert Text.Clean(l) && c.decode(l) == Some(d);
      Text.StripClean(l);
      GoodLineRead(Encoded(init, c.encode), l, d, c.decode);
    }
  }

  /** `inbox_path`: the file name of a user's inbox in the shared directory. */
  function InboxName(user: string): (name: string)
    ensures |name| == |user| + 12
    ensures name[..6] == "inbox_" && name[|name| - 6..] == ".jsonl"
  {
    "inbox_" + user + ".jsonl"
  }

  /** Different users have different inboxes. */
  lemma InboxNameInjective(u: string, v: string)
    requires InboxName(u) == InboxName(v)
    ensures u == v
  {
    assert u == InboxName(u)[6..|InboxName(u)| - 6];
    assert v == InboxName(v)[6..|InboxName(v)| - 6];
  }

  /** The shared directory: each inbox file's lines. */
  type Shared = map<string, seq<string>>

  /** The lines of a user's inbox file, None when it does not exist. */
  function InboxFile(shared: Shared, user: string): (f: Option<seq<string>>)
    ensures f.Some? <==> InboxName(user) in shared
  {
    var name := InboxName(user);
    if name in shared then Some(shared[name]) else None
  }

  /** The rows `read_jsonl` reads from a user's inbox. */
  function Inbox(shared: Shared, user: string, c: Codec): (rows: seq<Doc>)
    ensures InboxName(user) !in shared ==> rows == []
    ensures InboxName(user) in shared ==> rows == Decoded(shared[InboxName(user)], c.decode)
  {
    ReadJsonl(InboxFile(shared, user), c.decode)
  }

  /** The record `send_message` appends. */
  function NewMessage(msgId: string, sender: string, receiver: string, createdAt: real, text: string): Row {
    map["msg_id" := Str(msgId), "sender" := Str(sender), "receiver" := Str(receiver),
        "created_at" := Num(createdAt), "text" := Str(text), "delivered" := Bool(false)]
  }

  /** `send_message`: whitespace-only text sends nothing; otherwise the
      encoded record, undelivered and with the stripped text, is appended
      as a line to the receiver's inbox file, created when missing, and no
      other file changes. */
  function SendMessage(shared: Shared, sender: string, receiver: string, text: string, msgId: string, now: real,
                       encode: Doc -> string): (r: Shared)
    ensures Text.AllSpace(text) ==> r == shared
    ensures !Text.AllSpace(text) ==>
              && r.Keys == shared.Keys + {InboxName(receiver)}
              && r[InboxName(receiver)] == (if InboxName(receiver) in shared then shared[InboxName(receiver)] else [])
                                           + [encode(Object(NewMessage(msgId, sender, receiver, now, Text.Strip(text))))]
              && (forall f :: f in shared && f != InboxName(receiver) ==> r[f] == shared[f])
  {
    var t := Text.Strip(text);
    var name := InboxName(receiver);
    if t == "" then shared
    else shared[name := (if name in shared then shared[name] else []) + [encode(Object(NewMessage(msgId, sender, receiver, now, t)))]]
  }

  /** When the codec round-trips the sent record, the receiver reads it
      after the rows already there. */
  lemma SentMessageIsRead(shared: Shared, sender: string, receiver: string, text: string, msgId: string, now: real, c: Codec)
    requires RoundTripsOn(c, Object(NewMessage(msgId, sender, receiver, now, Text.Strip(text))))
    requires !Text.AllSpace(text)
    ensures Inbox(SendMessage(shared, sender, receiver, text, msgId, now, c.encode), receiver, c)
            == Inbox(shared, receiver, c) + [Object(NewMessage(msgId, sender, receiver, now, Text.Strip(text)))]
  {
    var d := Object(NewMessage(msgId, sender, receiver, now, Text.Strip(text)));
    var before := if InboxName(receiver) in shared then shared[InboxName(receiver)] else [];
    assert Text.Clean(c.encode(d)) && c.decode(c.encode(d)) == Some(d);
    Text.StripClean(c.encode(d));
    GoodLineRead(before, c.encode(d), d, c.decode);
  }

  /** `r.get("delivered") is True`. */
  predicate Delivered(r: Row) {
    "delivered" in r && r["delivered"] == Bool(true)
  }

  predicate Truthy(v: Value) {
    match v
    case Null => false
    case Bool(b) => b
    case Str(s) => s != ""
    case Num(n) => n != 0.0
    case Other(t) => t
  }

  /** `(r.get("text", "") or "").strip()`, which raises for a truthy
      non-string text. */
  function TextOf(r: Row): (t: Result<string, FetchError>)
    ensures "text" !in r ==> t == Ok("")
    ensures "text" in r && r["text"].Str? ==> t == Ok(Text.Strip(r["text"].s))
    ensures "text" in r && !r["text"].Str? ==> (t.Err? <==> Truthy(r["text"]))
  {
    if "text" !in r then Ok("")
    else match r["text"]
      case Str(s) => Ok(Text.Strip(s))
      case v => if Truthy(v) then Err(TextNotString) else Ok("")
  }

  /** The row as `fetch_undelivered` rewrites it. */
  function Mark(r: Row, now: real): (m: Row)
    ensures Delivered(m) && m.Keys == r.Keys + {"delivered", "delivered_at"}
    ensures forall k :: k in r && k != "delivered" && k != "delivered_at" ==> m[k] == r[k]
  {
    r["delivered" := Bool(true)]["delivered_at" := Num(now)]
  }

  /** A row `fetch_undelivered` cannot get past. */
  predicate Faulty(d: Doc) {
    d.NonObject? || (!Delivered(d.row) && TextOf(d.row).Err?)
  }

  /** Some row of the inbox is an undelivered object. */
  predicate AnyUndelivered(rows: seq<Doc>) {
    exists i :: 0 <= i < |rows| && rows[i].Object? && !Delivered(rows[i].row)
  }

  /** A row `fetch_undelivered` returns. */
  predicate Wanted(d: Doc) {
    d.Object? && !Delivered(d.row) && TextOf(d.row).Ok? && TextOf(d.row).value != ""
  }

  /** The reference for what a fetch returns: the wanted rows, in file
      order, as rewritten. */
  function Pending(rows: seq<Doc>, now: real): (out: seq<Row>)
    ensures |out| <= |rows|
    ensures forall r :: r in out ==> Delivered(r)
    decreases |rows|
  {
    if rows == [] then []
    else
      var last := rows[|rows| - 1];
      Pending(rows[..|rows| - 1], now) + (if Wanted(last) then [Mark(last.row, now)] else [])
  }

  /** The reference for the rewritten inbox: every undelivered row marked,
      delivered rows and non-objects untouched. */
  function MarkAll(rows: seq<Doc>, now: real): (marked: seq<Doc>)
    ensures |marked| == |rows|
    ensures forall i :: 0 <= i < |rows| && rows[i].Object? ==> marked[i].Object? && Delivered(marked[i].row)
  {
    seq(|rows|, i requires 0 <= i < |rows| => MarkOne(rows[i], now))
  }

  function MarkOne(d: Doc, now: real): Doc {
    if d.Object? && !Delivered(d.row) then Object(Mark(d.row, now)) else d
  }

  /** Both references extend one row at a time. */
  lemma ReferencesSnoc(inbox: seq<Doc>, i: nat, now: real)
    requires i < |inbox|
    ensures Pending(inbox[..i + 1], now) == Pending(inbox[..i], now) + (if Wanted(inbox[i]) then [Mark(inbox[i].row, now)] else [])
    ensures MarkAll(inbox[..i + 1], now) == MarkAll(inbox[..i], now) + [MarkOne(inbox[i], now)]
  {
    assert inbox[..i + 1][..i] == inbox[..i];
  }

  /** What a successful fetch produced: the returned rows, the inbox to
      write back, and whether anything changed. */
  datatype Fetched = Fetched(out: seq<Row>, rows: seq<Doc>, changed: bool)

  /** `fetch_undelivered` on an inbox's rows, with `now` the one clock
      reading it takes. A row that raises aborts the fetch before anything
      is written. */
  method FetchUndelivered(inbox: seq<Doc>, now: real) returns (r: Result<Fetched, FetchError>)
    ensures r.Err? <==> exists i :: 0 <= i < |inbox| && Faulty(inbox[i])
    ensures r.Ok? ==> r.value.out == Pending(inbox, now)
    ensures r.Ok? ==> r.value.rows == MarkAll(inbox, now)
    ensures r.Ok? ==> (r.value.changed <==> AnyUndelivered(inbox))
  {
    if |inbox| == 0 {
      return Ok(Fetched([], [], false));
    }
    var acc := Fetched([], [], false);
    var i := 0;
    while i < |inbox|
      invariant 0 <= i <= |inbox|
      invariant FetchAll(inbox[..i], now) == Ok(acc)
    {
      assert inbox[..i + 1][..i] == inbox[..i];
      var step := FetchRow(acc, inbox[i], now);
      if step.Err? {
        return Err(step.error);
      }
      acc := step.value;
      i := i + 1;
    }
    assert inbox[..i] == inbox;
    FetchAllMeaning(inbox, now);
    return Ok(acc);
  }

  /** The fetch loop as a fold over the rows: the first row that raises
      ends it. */
  function FetchAll(rows: seq<Doc>, now: real): (r: Result<Fetched, FetchError>)
    decreases |rows|
  {
    if rows == [] then Ok(Fetched([], [], false))
    else match FetchAll(rows[..|rows| - 1], now)
      case Err(e) => Err(e)
      case Ok(acc) => FetchRow(acc, rows[|rows| - 1], now)
  }

  /** The fold fails exactly on an inbox with a faulty row, and otherwise
      returns the reference output and rewritten rows, flagged as changed
      exactly when some row was undelivered. */
  lemma FetchAllMeaning(rows: seq<Doc>, now: real)
    ensures FetchAll(rows, now).Err? <==> exists i :: 0 <= i < |rows| && Faulty(rows[i])
    ensures FetchAll(rows, now).Ok? ==>
              && FetchAll(rows, now).value.out == Pending(rows, now)
              && FetchAll(rows, now).value.rows == MarkAll(rows, now)
              && (FetchAll(rows, now).value.changed <==> AnyUndelivered(rows))
  {
    FetchAllFails(rows, now);
    FetchAllSucceeds(rows, now);
  }

  lemma {:induction false} FetchAllFails(rows: seq<Doc>, now: real)
    ensures FetchAll(rows, now).Err? <==> exists i :: 0 <= i < |rows| && Faulty(rows[i])
    decreases |rows|
  {
    if rows != [] {
      var n := |rows| - 1;
      var init := rows[..n];
      FetchAllFails(init, now);
      assert forall i :: 0 <= i < n ==> init[i] == rows[i];
      if Faulty(rows[n]) {
        assert exists i :: 0 <= i < |rows| && Faulty(rows[i]);
      }
    }
  }

  lemma {:induction false} FetchAllSucceeds(rows: seq<Doc>, now: real)
    ensures FetchAll(rows, now).Ok? ==>
              && FetchAll(rows, now).value.out == Pending(rows, now)
              && FetchAll(rows, now).value.rows == MarkAll(rows, now)
              && (FetchAll(rows, now).value.changed <==> AnyUndelivered(rows))
    decreases |rows|
  {
    if rows != [] {
      var n := |rows| - 1;
      var init := rows[..n];
      FetchAllSucceeds(init, now);
      ReferencesSnoc(rows, n, now);
      assert rows[..n + 1] == rows;
      assert AnyUndelivered(rows) <==> AnyUndelivered(init) || (rows[n].Object? && !Delivered(rows[n].row)) by {
        assert forall i :: 0 <= i < n ==> init[i] == rows[i];
      }
    }
  }

  /** One row of the fetch loop: a non-object raises; a delivered row is
      kept as it is; any other is marked, and raises when its text is not a
      string, or joins the output when its text is not blank. */
  function FetchRow(acc: Fetched, d: Doc, now: real): (r: Result<Fetched, FetchError>)
    ensures r.Err? <==> Faulty(d)
    ensures r.Ok? ==> r.value.out == acc.out + (if Wanted(d) then [Mark(d.row, now)] else [])
    ensures r.Ok? ==> r.value.rows == acc.rows + [MarkOne(d, now)]
    ensures r.Ok? ==> (r.value.changed <==> acc.changed || (d.Object? && !Delivered(d.row)))
  {
    match d
    case NonObject => Err(NotAnObject)
    case Object(row) =>
      if Delivered(row) then Ok(acc.(rows := acc.rows + [d]))
      else
        var m := Mark(row, now);
        match TextOf(row)
        case Err(e) => Err(e)
        case Ok(t) => Ok(Fetched(if t != "" then acc.out + [m] else acc.out, acc.rows + [Object(m)], true))
  }

  /** A fetched inbox has nothing left to deliver: a second fetch returns
      nothing, and rewrites nothing. */
  lemma {:induction false} NothingPendingAfterFetch(inbox: seq<Doc>, now: real, later: real)
    ensures Pending(MarkAll(inbox, now), later) == []
    ensures forall i :: 0 <= i < |inbox| && inbox[i].Object? ==> Delivered(MarkAll(inbox, now)[i].row)
    decreases |inbox|
  {
    if inbox != [] {
      var init := inbox[..|inbox| - 1];
      assert MarkAll(inbox, now)[..|inbox| - 1] == MarkAll(init, now);
      NothingPendingAfterFetch(init, now, later);
    }
  }

  /** Marking is idempotent: rows already delivered are left as they are. */
  lemma MarkAllIdempotent(inbox: seq<Doc>, now: real, later: real)
    ensures MarkAll(MarkAll(inbox, now), later) == MarkAll(inbox, now)
  {
  }

  /** A message whose record the codec round-trips is returned by the
      receiver's next fetch, after whatever was already pending. */
  lemma SentMessageIsFetched(
    shared: Shared, sender: string, receiver: string, text: string, msgId: string, sentAt: real, now: real, c: Codec)
    requires RoundTripsOn(c, Object(NewMessage(msgId, sender, receiver, sentAt, Text.Strip(text))))
    requires !Text.AllSpace(text)
    ensures !Faulty(Object(NewMessage(msgId, sender, receiver, sentAt, Text.Strip(text))))
    ensures Pending(Inbox(SendMessage(shared, sender, receiver, text, msgId, sentAt, c.encode), receiver, c), now)
            == Pending(Inbox(shared, receiver, c), now) + [Mark(NewMessage(msgId, sender, receiver, sentAt, Text.Strip(text)), now)]
  {
    var row := NewMessage(msgId, sender, receiver, sentAt, Text.Strip(text));
    var before := Inbox(shared, receiver, c);
    SentMessageIsRead(shared, sender, receiver, text, msgId, sentAt, c);
    Text.StripIdempotent(text);
    assert TextOf(row) == Ok(Text.Strip(text));
    assert Wanted(Object(row));
    PendingSnoc(before, Object(row), now);
  }

  lemma PendingSnoc(rows: seq<Doc>, d: Doc, now: real)
    ensures Pending(rows + [d], now) == Pending(rows, now) + (if Wanted(d) then [Mark(d.row, now)] else [])
  {
    assert (rows + [d])[..|rows|] == rows;
  }

  /** `fetch_undelivered` against the shared directory: an empty or
      missing inbox returns nothing; when some row changed, the file is
      rewritten with one encoded line per row read, so blank and
      undecodable lines are gone; otherwise nothing is written. */
  method FetchInbox(shared: Shared, user: string, now: real, c: Codec) returns (r: Result<(seq<Row>, Shared), FetchError>)
    ensures Inbox(shared, user, c) == [] ==> r == Ok(([], shared))
    ensures r.Err? <==> exists i :: 0 <= i < |Inbox(shared, user, c)| && Faulty(Inbox(shared, user, c)[i])
    ensures r.Ok? ==> r.value.0 == Pending(Inbox(shared, user, c), now)
    ensures r.Ok? ==> r.value.1.Keys == shared.Keys
    ensures r.Ok? ==> forall f :: f in shared && f != InboxName(user) ==> r.value.1[f] == shared[f]
    ensures r.Ok? && AnyUndelivered(Inbox(shared, user, c)) ==>
              r.value.1 == shared[InboxName(user) := Encoded(MarkAll(Inbox(shared, user, c), now), c.encode)]
    ensures r.Ok? && !AnyUndelivered(Inbox(shared, user, c)) ==> r.value.1 == shared
  {
    var rows := Inbox(shared, user, c);
    if rows == [] {
      return Ok(([], shared));
    }
    var f := FetchUndelivered(rows, now);
    if f.Err? {
      return Err(f.error);
    }
    if f.value.changed {
      var written := shared[InboxName(user) := Encoded(f.value.rows, c.encode)];
      return Ok((f.value.out, written));
    }
    MarkAllUnchanged(rows, now);
    return Ok((f.value.out, shared));
  }

  /** After a rewrite whose rows the codec round-trips the user reads back
      the rows written; after a fetch, the marked inbox. */
  lemma RewrittenInboxReads(shared: Shared, user: string, rows: seq<Doc>, c: Codec)
    requires forall d :: d in rows ==> RoundTripsOn(c, d)
    ensures Inbox(shared[InboxName(user) := Encoded(rows, c.encode)], user, c) == rows
  {
    var w := shared[InboxName(user) := Encoded(rows, c.encode)];
    assert InboxName(user) in w && w[InboxName(user)] == Encoded(rows, c.encode);
    EncodedReadsBack(rows, c);
  }

  /** The rewrite is shorter than the file it replaces exactly when some
      line of that file was blank or did not decode. */
  lemma RewriteDropsBadLines(lines: seq<string>, now: real, c: Codec)
    ensures |Encoded(MarkAll(Decoded(lines, c.decode), now), c.encode)| < |lines| <==>
              exists i :: 0 <= i < |lines| && !GoodLine(lines[i], c.decode)
  {
    DecodedCount(lines, c.decode);
  }

  /** With every row delivered, marking changes nothing. */
  lemma MarkAllUnchanged(rows: seq<Doc>, now: real)
    requires forall i :: 0 <= i < |rows| ==> rows[i].NonObject? || Delivered(rows[i].row)
    ensures MarkAll(rows, now) == rows
  {
  }
}

=== FILE: pet.dfy ===
/** The DeskPets agent (`Pet` in DeskPets_repo/pets.py): construction from
    the catalogue and one polled tick of `update_state`. The pointer, the
    buttons, the screen and taskbar metrics and the random draws are
    parameters; `State.next`, `go_climb` and `squirrel_climb` live in
    state.py and squirrel_climb.py, which are not part of this model, and
    appear as functions supplied by the caller. */
module Pet {
  import opened Base
  import opened PetStates
  import opened PetFrames
  import opened PetPhysics

  /** One species of the loaded catalogue: the states of each colour in
      file order, and the "defaults" object when the species has one. */
  datatype SpeciesEntry = SpeciesEntry(states: map<string, OrderedMap<string>>, defaults: Option<map<string, DefaultEntry>>)

  /** Every colour's states come from a JSON object, so their keys are distinct. */
  ghost predicate WellFormed(catalogue: map<string, SpeciesEntry>) {
    forall sp, c :: sp in catalogue && c in catalogue[sp].states ==> catalogue[sp].states[c].Valid()
  }

  /** The values `State(...)` takes when the caller does not pass them
      (its direction and its counter); they are defined in state.py. */
  datatype StateDefaults = StateDefaults(direction: int, counter: int)

  datatype Pet = Pet(
    species: string, color: string, fps: int, size: string,
    screenWidth: int, screenHeight: int,
    states: OrderedMap<StateInfo>,
    speciesDefaults: Option<map<string, DefaultEntry>>,
    state: PetState,
    frames: seq<Size>, width: nat, height: nat, frameCount: nat, currentFrame: nat,
    frameInterval: Option<real>, heightLie: int,
    body: Body, rightConsumed: bool,
    immunity: bool, lieDuration: int, wallSceneStep: Option<int>,
    hasMainWindow: bool)
  {
    /** What every constructed pet satisfies: a well-formed, non-empty
        state catalogue. */
    ghost predicate Valid() {
      states.Valid() && |states.keys| > 0
    }

    function MaxX(): real { (screenWidth - width) as real }
    function MaxY(): real { (screenHeight - height) as real }
  }

  /** The taskbar as the Windows query reports it; edge 3 is the bottom. */
  datatype Taskbar = Taskbar(height: int, autohide: bool, edge: int)

  datatype InitError = UnknownSpecies | UnknownColor | NoStates | FramesNotLoaded

  /** The state of `p` after `frame_animation` produced `load`: frames are
      always replaced; the sizes, the cursor and the state counter only on
      a complete load; the interval only when it was computed. */
  function WithFrames(p: Pet, load: FrameLoad): (q: Pet)
    ensures q.frames == load.frames
    ensures load.sized.None? ==> q == p.(frames := load.frames)
    ensures load.sized.Some? ==>
              && q.width == load.sized.value.width && q.height == load.sized.value.height
              && q.heightLie == load.sized.value.heightLie && q.frameCount == load.sized.value.frameCount
              && q.currentFrame == 0 && q.state == p.state.(counter := 0)
              && q.frameInterval == (if load.interval.Some? then load.interval else p.frameInterval)
              && q.body == p.body && q.immunity == p.immunity && q.states == p.states
    ensures q.rightConsumed == p.rightConsumed
  {
    match load.sized
    case None => p.(frames := load.frames)
    case Some(s) =>
      p.(frames := load.frames, heightLie := s.heightLie, width := s.width, height := s.height,
         frameCount := s.frameCount, currentFrame := 0, state := p.state.(counter := 0),
         frameInterval := if load.interval.Some? then load.interval else p.frameInterval)
  }

  /** `frame_animation` for the pet's current state. */
  function Animate(p: Pet, loader: string -> Option<seq<Size>>): (q: Pet)
    ensures q.states == p.states && q.body == p.body && q.immunity == p.immunity
    ensures q.state.name == p.state.name && q.state.direction == p.state.direction
    ensures q.rightConsumed == p.rightConsumed
  {
    WithFrames(p, FrameAnimation(loader(p.state.gif), p.size, p.fps, p.state.speedAnimation))
  }

  /** `Pet.__init__`. The constructor swallows its exceptions and leaves a
      half-built object; each such outcome is an error here. The window
      starts at the right edge, on the taskbar unless the taskbar hides
      itself or is not at the bottom. */
  function NewPet(
    catalogue: map<string, SpeciesEntry>, species: string, color: string, fps: int, size: string,
    screenWidth: int, screenHeight: int, taskbar: Taskbar,
    pick: nat, facesRight: bool, ctor: StateDefaults, loader: string -> Option<seq<Size>>): (r: Result<Pet, InitError>)
    requires WellFormed(catalogue)
    ensures r == Err(UnknownSpecies) <==> species !in catalogue
    ensures r == Err(UnknownColor) <==> species in catalogue && color !in catalogue[species].states
    ensures r == Err(NoStates) <==>
              species in catalogue && color in catalogue[species].states && |catalogue[species].states[color].keys| == 0
    ensures r.Ok? ==> Started(r.value, screenWidth, screenHeight, taskbar)
    ensures r.Ok? ==> && species in catalogue && color in catalogue[species].states
                      && r.value.states == BuildStatesInfo(catalogue[species].states[color], DefaultsOrEmpty(catalogue[species].defaults), fps)
                      && r.value.speciesDefaults == catalogue[species].defaults
    ensures r.Ok? ==> r.value.state.name in r.value.states.keys && r.value.state.counter == 0
    ensures r.Ok? ==> r.value.state.gif == catalogue[species].states[color].values[r.value.state.name]
    ensures r.Err? && r.error == FramesNotLoaded <==>
              && species in catalogue && color in catalogue[species].states
              && |catalogue[species].states[color].keys| > 0
              && var s := FirstState(catalogue[species].states[color], catalogue[species].defaults, fps, pick, facesRight, ctor);
                 FrameAnimation(loader(s.gif), size, fps, s.speedAnimation).sized.None?
  {
    if species !in catalogue then Err(UnknownSpecies)
    else
      var entry := catalogue[species];
      if color !in entry.states then Err(UnknownColor)
      else
        var colorStates := entry.states[color];
        if |colorStates.keys| == 0 then Err(NoStates)
        else Start(species, color, colorStates, entry.defaults, fps, size, screenWidth, screenHeight, taskbar,
                   pick, facesRight, ctor, loader)
  }

  /** What a freshly constructed pet looks like: a valid catalogue, a state
      the random draw may start in, the window at the right edge and
      standing on the taskbar unless the taskbar hides itself or is not at
      the bottom, at rest on its first frame. */
  ghost predicate Started(p: Pet, screenWidth: int, screenHeight: int, taskbar: Taskbar) {
    && p.Valid()
    && (p.state.name !in ChainStates || AllExcluded(p.states.keys, ChainStates))
    && p.body.pos.x == (screenWidth - p.width) as real
    && p.body.pos.y == (if taskbar.autohide || taskbar.edge != 3 then screenHeight - p.height
                        else screenHeight - p.height - taskbar.height) as real
    && p.heightLie == 20 && p.lieDuration == 24 && !p.immunity
    && p.currentFrame == 0 && p.state.counter == 0 && p.frameCount == |p.frames| > 0
    && !p.body.dragging && p.body.vel == Vec(0.0, 0.0) && p.wallSceneStep.None?
  }

  /** The rest of `__init__` once the colour has states: pick the first
      state, load its frames, place the window. */
  function Start(species: string, color: string, colorStates: OrderedMap<string>,
                 defaults: Option<map<string, DefaultEntry>>, fps: int, size: string,
                 screenWidth: int, screenHeight: int, taskbar: Taskbar,
                 pick: nat, facesRight: bool, ctor: StateDefaults, loader: string -> Option<seq<Size>>): (r: Result<Pet, InitError>)
    requires colorStates.Valid() && |colorStates.keys| > 0
    ensures r.Err? ==> r.error == FramesNotLoaded
    ensures r.Err? <==> FrameAnimation(loader(FirstState(colorStates, defaults, fps, pick, facesRight, ctor).gif),
                                       size, fps, FirstState(colorStates, defaults, fps, pick, facesRight, ctor).speedAnimation).sized.None?
    ensures r.Ok? ==> Started(r.value, screenWidth, screenHeight, taskbar)
    ensures r.Ok? ==> r.value.states == BuildStatesInfo(colorStates, DefaultsOrEmpty(defaults), fps)
    ensures r.Ok? ==> r.value.state == FirstState(colorStates, defaults, fps, pick, facesRight, ctor).(counter := 0)
    ensures r.Ok? ==> r.value.state.name in r.value.states.keys
    ensures r.Ok? ==> r.value.state.gif == colorStates.values[r.value.state.name]
    ensures r.Ok? ==> r.value.frames == FrameAnimation(loader(r.value.state.gif), size, fps, r.value.state.speedAnimation).frames
    ensures r.Ok? ==> && r.value.species == species && r.value.color == color && r.value.fps == fps
                      && r.value.size == size && r.value.speciesDefaults == defaults
  {
    var states := BuildStatesInfo(colorStates, DefaultsOrEmpty(defaults), fps);
    var s := FirstState(colorStates, defaults, fps, pick, facesRight, ctor);
    var load := FrameAnimation(loader(s.gif), size, fps, s.speedAnimation);
    if load.sized.None? then Err(FramesNotLoaded)
    else Ok(Spawn(species, color, fps, size, screenWidth, screenHeight, taskbar, states, defaults, s,
                  load.frames, load.sized.value, load.interval))
  }

  /** The species defaults, or none at all when the catalogue has no "defaults" object. */
  function DefaultsOrEmpty(defaults: Option<map<string, DefaultEntry>>): map<string, DefaultEntry> {
    if defaults.Some? then defaults.value else map[]
  }

  /** The state `__init__` draws first: a random state of the colour that is
      not a chain state when the colour has any other. */
  function FirstState(colorStates: OrderedMap<string>, defaults: Option<map<string, DefaultEntry>>, fps: int,
                      pick: nat, facesRight: bool, ctor: StateDefaults): (s: PetState)
    requires colorStates.Valid() && |colorStates.keys| > 0
    ensures s.name in colorStates.values && s.gif == colorStates.values[s.name]
    ensures s.name !in ChainStates || AllExcluded(colorStates.keys, ChainStates)
  {
    RandomState(BuildStatesInfo(colorStates, DefaultsOrEmpty(defaults), fps), ChainStates, pick, facesRight, ctor.counter).value
  }

  /** The pet once its first state is drawn and its frames are loaded. */
  function Spawn(species: string, color: string, fps: int, size: string, screenWidth: int, screenHeight: int,
                 taskbar: Taskbar, states: OrderedMap<StateInfo>, defaults: Option<map<string, DefaultEntry>>,
                 s: PetState, frames: seq<Size>, z: Sized, interval: Option<real>): (p: Pet)
    requires states.Valid() && |states.keys| > 0
    requires s.name !in ChainStates || AllExcluded(states.keys, ChainStates)
    requires z.frameCount == |frames| > 0
    ensures Started(p, screenWidth, screenHeight, taskbar)
    ensures p.states == states && p.state == s.(counter := 0) && p.frames == frames
    ensures && p.species == species && p.color == color && p.fps == fps && p.size == size
            && p.speciesDefaults == defaults && p.frameInterval == interval
  {
    var y := if taskbar.autohide || taskbar.edge != 3 then screenHeight - z.height
             else screenHeight - z.height - taskbar.height;
    Pet(species, color, fps, size, screenWidth, screenHeight, states, defaults,
        s.(counter := 0), frames, z.width, z.height, z.frameCount, 0, interval, 20,
        Body(Vec((screenWidth - z.width) as real, y as real), Vec(0.0, 0.0), false, Vec(0.0, 0.0), None),
        false, false, 24, None, false)
  }

  /** One pointer sample: its screen position and the two buttons. */
  datatype Pointer = Pointer(pos: Vec, leftDown: bool, rightDown: bool)

  /** What `State.next` may do: update the running state and move the pet,
      and report whether the state is over. */
  datatype Advance = Advance(state: PetState, pos: Vec, done: bool)

  /** The collaborators and random draws of one tick. */
  datatype Env = Env(
    next: Pet -> Advance,
    goClimb: Pet -> (PetState, Option<int>),
    climbScene: Pet -> Pet,
    loader: string -> Option<seq<Size>>,
    pick: nat, facesRight: bool, ctor: StateDefaults)

  /** How the tick ended. */
  datatype Outcome =
    | Dragged       // the drag is in progress; the tick stops after moving
    | Thrown        // the throw moved the pet; the tick stops
    | Climbing      // the squirrel's wall scene runs instead
    | LieFailed     // the species has no "defaults": the lie lookup raises
    | LayDown       // the proximity override switched to "lie"
    | NextState     // the state ended and a new one was chosen
    | Continued     // the state goes on

  datatype Tick = Tick(pet: Pet, bubble: bool, outcome: Outcome)

  /** The inclusive window box test. */
  predicate InWindow(p: Pet, m: Vec) {
    p.body.pos.x <= m.x <= p.body.pos.x + p.width as real && p.body.pos.y <= m.y <= p.body.pos.y + p.height as real
  }

  /** The pointer is closer than `height_lie`, Euclidean distance compared
      without the square root. */
  predicate Near(pos: Vec, m: Vec, radius: int) {
    radius > 0 && (pos.x - m.x) * (pos.x - m.x) + (pos.y - m.y) * (pos.y - m.y) < (radius * radius) as real
  }

  /** The "lie" state the override installs: the catalogue's gif, hold =
      `lie_duration`, speeds from the species' "lie" default with the same
      fallbacks as the catalogue, and the State defaults otherwise. */
  function LieState(p: Pet, defaults: map<string, DefaultEntry>, ctor: StateDefaults): (s: PetState)
    requires p.states.Valid() && "lie" in p.states.keys
    ensures s.name == "lie" && s.gif == p.states.values["lie"].gif && s.hold == p.lieDuration
    ensures s.direction == ctor.direction
  {
    var info := InfoFor(p.states.values["lie"].gif, if "lie" in defaults then Some(defaults["lie"]) else None, p.fps);
    PetState("lie", info.gif, p.lieDuration, info.movementSpeed, info.speedAnimation, ctor.direction, ctor.counter)
  }

  /** The proximity override applies: the colour has "lie", the pointer
      is within `height_lie` and the pet is not immune. */
  predicate LieTriggered(p: Pet, m: Vec) {
    "lie" in p.states.keys && Near(p.body.pos, m, p.heightLie) && !p.immunity
  }

  /** The override itself: the pet lies down and becomes immune. */
  function LieDown(p: Pet, defaults: map<string, DefaultEntry>, env: Env): (q: Pet)
    requires p.Valid() && "lie" in p.states.keys
    ensures q.states == p.states && q.body == p.body && q.immunity
    ensures q.state.name == "lie" && q.state.hold == p.lieDuration
    ensures q.rightConsumed == p.rightConsumed
  {
    Animate(p.(state := LieState(p, defaults, env.ctor), immunity := true), env.loader)
  }

  /** `State.next` and, when the state is over, the choice of the next
      one: the squirrel's climb, or a random state outside the chain
      states. The flag says whether the state ended. */
  function Progress(p: Pet, env: Env): (r: (Pet, bool))
    requires p.Valid()
    ensures r.0.states == p.states && r.0.body.vel == p.body.vel && r.0.rightConsumed == p.rightConsumed
    ensures r.1 == env.next(p).done
    ensures !r.1 ==> r.0 == p.(state := env.next(p).state, body := p.body.(pos := env.next(p).pos))
    ensures r.1 ==> r.0.body == p.body.(pos := env.next(p).pos)
    ensures r.1 ==> !r.0.immunity
    ensures !r.1 ==> r.0.immunity == p.immunity
    ensures r.1 && p.species != "squirrel" ==>
              && r.0.state.name in p.states.values
              && (!AllExcluded(p.states.keys, ChainStates) ==> r.0.state.name !in ChainStates)
  {
    var adv := env.next(p);
    var p1 := p.(state := adv.state, body := p.body.(pos := adv.pos));
    if !adv.done then (p1, false)
    else
      var p2 := if p.species == "squirrel" then
                  var (s, step) := env.goClimb(p1); p1.(state := s, wallSceneStep := step)
                else
                  p1.(state := RandomState(p.states, ChainStates, env.pick, env.facesRight, env.ctor.counter).value);
      (Animate(p2.(immunity := false), env.loader), true)
  }

  /** The left edge of the pet's partition, `sw - sw // 4`. */
  function PartitionLeft(p: Pet): real {
    (p.screenWidth - p.screenWidth / 4) as real
  }

  /** The partition clamp applied to the pet. */
  function Settle(q: Pet): (r: Pet)
    ensures r == q.(body := r.body, state := r.state)
    ensures r.body == q.body.(pos := Vec(r.body.pos.x, q.body.pos.y))
    ensures r.state == q.state.(direction := r.state.direction)
    ensures r.body.pos.x <= r.MaxX()
    ensures PartitionLeft(r) <= r.MaxX() ==> PartitionLeft(r) <= r.body.pos.x
  {
    var (x, dir) := PartitionClamp(q.body.pos.x, q.state.direction, q.state.name, q.screenWidth, q.width);
    q.(body := q.body.(pos := Vec(x, q.body.pos.y)), state := q.state.(direction := dir))
  }

  /** The state logic once the pet is neither dragged nor thrown: the
      wall scene, the lie override or the state's own progress, then the
      partition clamp. */
  function Behave(p: Pet, m: Vec, env: Env): (t: Tick)
    requires p.Valid()
    ensures !t.bubble
    ensures !t.outcome.Dragged? && !t.outcome.Thrown?
    ensures t.outcome == Climbing <==> p.wallSceneStep.Some?
    ensures t.outcome != Climbing ==> t.pet.states == p.states && t.pet.body.vel == p.body.vel
    ensures t.outcome != Climbing ==> t.pet.rightConsumed == p.rightConsumed
    ensures t.outcome == LieFailed <==> p.wallSceneStep.None? && LieTriggered(p, m) && p.speciesDefaults.None?
    ensures t.outcome == LayDown <==> p.wallSceneStep.None? && LieTriggered(p, m) && p.speciesDefaults.Some?
    ensures t.outcome == LieFailed ==> t.pet == p
    ensures t.outcome == LayDown ==> t.pet.state.name == "lie" && t.pet.state.hold == p.lieDuration && t.pet.immunity
    ensures t.outcome == NextState <==> p.wallSceneStep.None? && !LieTriggered(p, m) && env.next(p).done
    ensures t.outcome == NextState ==> !t.pet.immunity
    ensures t.outcome == NextState && p.species != "squirrel" ==>
              && t.pet.state.name in p.states.values
              && (!AllExcluded(p.states.keys, ChainStates) ==> t.pet.state.name !in ChainStates)
    ensures t.outcome == Continued ==> t.pet.immunity == p.immunity
    ensures t.outcome == Continued ==>
              && t.pet == p.(state := t.pet.state, body := t.pet.body)
              && t.pet.state == env.next(p).state.(direction := t.pet.state.direction)
              && t.pet.body == p.body.(pos := Vec(t.pet.body.pos.x, env.next(p).pos.y))
              && (t.pet.body.pos.x, t.pet.state.direction)
                 == PartitionClamp(env.next(p).pos.x, env.next(p).state.direction, env.next(p).state.name, p.screenWidth, p.width)
    ensures t.outcome == NextState ==> t.pet.body.pos.y == env.next(p).pos.y
    ensures t.outcome.LayDown? || t.outcome.NextState? || t.outcome.Continued? ==>
              && t.pet.body.pos.x <= t.pet.MaxX()
              && (PartitionLeft(t.pet) <= t.pet.MaxX() ==> PartitionLeft(t.pet) <= t.pet.body.pos.x)
  {
    if p.wallSceneStep.Some? then Tick(env.climbScene(p), false, Climbing)
    else if LieTriggered(p, m) then
      match p.speciesDefaults
      case None => Tick(p, false, LieFailed)
      case Some(d) => Tick(Settle(LieDown(p, d, env)), false, LayDown)
    else
      var (q, ended) := Progress(p, env);
      Tick(Settle(q), false, if ended then NextState else Continued)
  }

  /** The pointer handling at the start of `update_state`: the right-click
      latch, then drag capture, tracking or release. The flag says whether
      the right-click hook runs. */
  function Press(p: Pet, ptr: Pointer): (r: (Pet, bool, DragOutcome))
    ensures r.0 == p.(rightConsumed := r.0.rightConsumed, body := r.0.body)
    ensures r.0.states == p.states && r.0.state == p.state && r.0.immunity == p.immunity && r.0.frames == p.frames
    ensures r.0.MaxX() == p.MaxX() && r.0.MaxY() == p.MaxY()
    ensures r.1 <==> ptr.rightDown && InWindow(p, ptr.pos) && !p.rightConsumed && p.hasMainWindow
    ensures !ptr.rightDown ==> !r.0.rightConsumed
    ensures r.2 == Held <==> ptr.leftDown && (p.body.dragging || InWindow(p, ptr.pos))
    ensures r.2 == Held && p.MaxX() >= 0.0 && p.MaxY() >= 0.0 ==> InBox(r.0.body.pos, p.MaxX(), p.MaxY())
  {
    var inBounds := InWindow(p, ptr.pos);
    var (consumed, fire) := RightClick(p.rightConsumed, ptr.rightDown, inBounds);
    var (b, drag) := Drag(p.body, ptr.pos, ptr.leftDown, inBounds, p.MaxX(), p.MaxY());
    (p.(rightConsumed := consumed, body := b), fire && p.hasMainWindow, drag)
  }

  /** `update_state`: the right-click hook, then dragging and throwing,
      which end the tick when they act, then the state logic. */
  function UpdateState(p: Pet, ptr: Pointer, env: Env): (t: Tick)
    requires p.Valid()
    ensures t.outcome != Climbing ==> t.pet.Valid()
    ensures t.bubble <==> ptr.rightDown && InWindow(p, ptr.pos) && !p.rightConsumed && p.hasMainWindow
    ensures !ptr.rightDown && t.outcome != Climbing ==> !t.pet.rightConsumed
    ensures t.outcome == Dragged <==> ptr.leftDown && (p.body.dragging || InWindow(p, ptr.pos))
    ensures t.outcome.Dragged? || t.outcome.Thrown? ==>
              t.pet.state == p.state && t.pet.immunity == p.immunity && t.pet.frames == p.frames
    ensures (t.outcome.Dragged? || t.outcome.Thrown?) && p.MaxX() >= 0.0 && p.MaxY() >= 0.0 ==>
              InBox(t.pet.body.pos, p.MaxX(), p.MaxY())
    ensures !t.outcome.Dragged? && !t.outcome.Thrown? && !t.outcome.Climbing? ==> t.pet.body.vel == Vec(0.0, 0.0)
  {
    var (p0, bubble, drag) := Press(p, ptr);
    if drag == Held then Tick(p0, bubble, Dragged)
    else Released(p0, ptr.pos, env).(bubble := bubble)
  }

  /** The rest of the tick when no drag is held: a throw in flight moves
      the pet and ends the tick, otherwise the state logic runs. */
  function Released(p: Pet, m: Vec, env: Env): (t: Tick)
    requires p.Valid()
    ensures !t.outcome.Dragged?
    ensures !t.outcome.Climbing? ==> t.pet.Valid() && t.pet.rightConsumed == p.rightConsumed
    ensures t.outcome.Thrown? ==>
              && t.pet.state == p.state && t.pet.immunity == p.immunity && t.pet.frames == p.frames
              && (p.MaxX() >= 0.0 && p.MaxY() >= 0.0 ==> InBox(t.pet.body.pos, p.MaxX(), p.MaxY()))
    ensures !t.outcome.Thrown? && !t.outcome.Climbing? ==> t.pet.body.vel == Vec(0.0, 0.0)
  {
    var (b, moved) := ApplyThrow(p.body, p.MaxX(), p.MaxY());
    var p1 := p.(body := b);
    if moved then Tick(p1, false, Thrown)
    else Behave(p1, m, env)
  }
}

=== FILE: pet_frames.dfy ===
/** The resize arithmetic and frame bookkeeping of `Pet.frame_animation`
    (DeskPets_repo/pets.py). Decoding and resampling the GIF are outside the
    model: a frame is its pixel size, and the loader is a parameter. */
module PetFrames {
  import opened Base
  import Text

  /** The pixel size of one frame. */
  datatype Size = Size(width: nat, height: nat)

  /** The six size settings a pet accepts. */
  datatype Bucket = VerySmall | Small | Original | Medium | Big | ReallyBig

  /** The bucket a size setting names, compared case-insensitively; None for
      any other text, where `new_height` is never bound and the first frame
      raises. */
  function ParseBucket(size: string): (b: Option<Bucket>)
    ensures b == Some(VerySmall) <==> Text.Lower(size) == "very small"
    ensures b == Some(Small) <==> Text.Lower(size) == "small"
    ensures b == Some(Original) <==> Text.Lower(size) == "original"
    ensures b == Some(Medium) <==> Text.Lower(size) == "medium"
    ensures b == Some(Big) <==> Text.Lower(size) == "big"
    ensures b == Some(ReallyBig) <==> Text.Lower(size) == "really big"
  {
    var s := Text.Lower(size);
    if s == "very small" then Some(VerySmall)
    else if s == "small" then Some(Small)
    else if s == "original" then Some(Original)
    else if s == "medium" then Some(Medium)
    else if s == "big" then Some(Big)
    else if s == "really big" then Some(ReallyBig)
    else None
  }

  /** The height a frame is scaled to: fixed per bucket, except that
      "original" keeps the frame's own height. */
  function TargetHeight(b: Bucket, origHeight: nat): (h: nat)
    ensures b == Original ==> h == origHeight
    ensures b != Original ==> h in {20, 40, 125, 150, 200}
    ensures b == VerySmall ==> h == 20
    ensures b == Small ==> h == 40
    ensures b == Medium ==> h == 125
    ensures b == Big ==> h == 150
    ensures b == ReallyBig ==> h == 200
  {
    match b
    case VerySmall => 20
    case Small => 40
    case Original => origHeight
    case Medium => 125
    case Big => 150
    case ReallyBig => 200
  }

  /** One frame scaled to the target height, keeping the aspect ratio with
      the width truncated as `int()` does. None where `frame_animation`
      raises: an unknown size setting, a zero-height frame, or a scaled
      width of 0, which the LANCZOS resampler refuses ("height and width
      must be > 0") unless the size is unchanged, when the frame is copied. */
  function ResizeFrame(b: Option<Bucket>, f: Size): (r: Option<Size>)
    ensures r.None? <==> b.None? || f.height == 0
                         || (ScaledWidth(f.width, f.height, TargetHeight(b.value, f.height)) == 0
                             && Size(0, TargetHeight(b.value, f.height)) != f)
    ensures r.Some? ==> r.value.width > 0 || r.value == f
    ensures r.Some? ==> r.value.height == TargetHeight(b.value, f.height)
    ensures r.Some? ==> r.value.width * f.height <= f.width * r.value.height < (r.value.width + 1) * f.height
  {
    if b.None? || f.height == 0 then None
    else
      var nh := TargetHeight(b.value, f.height);
      var nw := ScaledWidth(f.width, f.height, nh);
      if nw == 0 && Size(nw, nh) != f then None else Some(Size(nw, nh))
  }

  /** A frame too narrow to keep any width: 1 by 200 pixels scaled to 20
      high would be 0 wide, so the resize raises. */
  lemma NarrowFrameFails()
    ensures ResizeFrame(Some(VerySmall), Size(1, 200)) == None
    ensures ResizeFrame(Some(Original), Size(1, 200)) == Some(Size(1, 200))
  {
    OriginalKeepsSize(Size(1, 200));
  }

  /** `int(width * new_height / height)`: the width that keeps the aspect
      ratio at the new height, rounded down. */
  function ScaledWidth(width: nat, height: nat, newHeight: nat): (w: nat)
    requires height > 0
    ensures w * height <= width * newHeight < (w + 1) * height
  {
    var a := width * newHeight;
    FloorDiv(a, height);
    a / height
  }

  /** Scaling an "original" frame gives the frame back. */
  lemma OriginalKeepsSize(f: Size)
    requires f.height > 0
    ensures ResizeFrame(Some(Original), f) == Some(f)
  {
    var w := ScaledWidth(f.width, f.height, f.height);
    assert w * f.height <= f.width * f.height < (w + 1) * f.height;
    if w < f.width {
      MulMono(w + 1, f.width, f.height);
    } else if w > f.width {
      MulMono(f.width + 1, w, f.height);
    }
  }

  lemma MulMono(a: nat, b: nat, c: nat)
    requires a <= b
    ensures a * c <= b * c
  {
  }

  /** The frames resized in order, stopping at the first that raises; the
      flag says whether every frame was resized. */
  function ResizeAll(b: Option<Bucket>, source: seq<Size>): (r: (seq<Size>, bool))
    ensures |r.0| <= |source|
    ensures forall i :: 0 <= i < |r.0| ==> ResizeFrame(b, source[i]) == Some(r.0[i])
    ensures r.1 <==> |r.0| == |source|
    ensures !r.1 ==> ResizeFrame(b, source[|r.0|]).None?
  {
    if |source| == 0 then ([], true)
    else match ResizeFrame(b, source[0])
      case None => ([], false)
      case Some(f) =>
        var rest := ResizeAll(b, source[1..]);
        ([f] + rest.0, rest.1)
  }

  /** The values `frame_animation` assigns once every frame is resized:
      `height_lie` (the last frame's target height), the window size (the
      first frame's), and the frame count. */
  datatype Sized = Sized(heightLie: nat, width: nat, height: nat, frameCount: nat)

  /** What one call of `frame_animation` leaves behind. `frames` is always
      replaced; `sized` is set, together with a zero frame cursor and state
      counter, only when the whole animation loaded; `interval` only when in
      addition the animation speed is non-zero and the division succeeds. */
  datatype FrameLoad = FrameLoad(frames: seq<Size>, sized: Option<Sized>, interval: Option<real>)

  /** `frame_animation` for a state of the given animation speed. `source`
      is the decoded GIF, None when loading it raises. */
  function FrameAnimation(source: Option<seq<Size>>, size: string, fps: int, speedAnimation: real): (r: FrameLoad)
    ensures source.None? ==> r == FrameLoad([], None, None)
    ensures source.Some? ==> |r.frames| <= |source.value|
    ensures source.Some? ==> forall i :: 0 <= i < |r.frames| ==>
              ResizeFrame(ParseBucket(size), source.value[i]) == Some(r.frames[i])
    ensures r.sized.Some? <==> source.Some? && |source.value| > 0 && |r.frames| == |source.value|
    ensures r.sized.Some? ==>
              && r.sized.value.width == r.frames[0].width
              && r.sized.value.height == r.frames[0].height
              && r.sized.value.heightLie == r.frames[|r.frames| - 1].height
              && r.sized.value.frameCount == |r.frames|
    ensures r.interval.Some? <==> r.sized.Some? && speedAnimation != 0.0 && fps != 0
    ensures r.interval.Some? ==> r.interval.value * (fps as real * speedAnimation) == 1.0
  {
    match source
    case None => FrameLoad([], None, None)
    case Some(src) => Loaded(ParseBucket(size), src, fps, speedAnimation)
  }

  /** `frame_animation` once the GIF decoded: the frames are resized one by
      one; the sizes are set only when all of them were, and the interval
      only then. */
  function Loaded(b: Option<Bucket>, src: seq<Size>, fps: int, speedAnimation: real): (r: FrameLoad)
    ensures |r.frames| <= |src|
    ensures forall i :: 0 <= i < |r.frames| ==> ResizeFrame(b, src[i]) == Some(r.frames[i])
    ensures r.sized.Some? <==> |src| > 0 && |r.frames| == |src|
    ensures r.sized.Some? ==>
              && r.sized.value.width == r.frames[0].width
              && r.sized.value.height == r.frames[0].height
              && r.sized.value.heightLie == r.frames[|r.frames| - 1].height
              && r.sized.value.frameCount == |r.frames|
    ensures r.interval.Some? <==> r.sized.Some? && speedAnimation != 0.0 && fps != 0
    ensures r.interval.Some? ==> r.interval.value * (fps as real * speedAnimation) == 1.0
  {
    var resized := ResizeAll(b, src);
    var frames := resized.0;
    if !resized.1 || |frames| == 0 then FrameLoad(frames, None, None)
    else
      var sized := Sized(frames[|frames| - 1].height, frames[0].width, frames[0].height, |frames|);
      FrameLoad(frames, Some(sized), Interval(fps, speedAnimation))
  }

  /** `1.0 / (fps * speed_animation)`, the seconds one frame is shown; None
      for a zero animation speed, which skips the assignment, or a zero
      frame rate, where the division raises. */
  function Interval(fps: int, speedAnimation: real): (i: Option<real>)
    ensures i.Some? <==> speedAnimation != 0.0 && fps != 0
    ensures i.Some? ==> i.value * (fps as real * speedAnimation) == 1.0
  {
    if speedAnimation == 0.0 || fps == 0 then None
    else Some(1.0 / (fps as real * speedAnimation))
  }

  /** All frames share one target height unless the setting is "original",
      so outside "original" the lie radius equals the window height. */
  lemma FixedBucketUniformHeight(source: seq<Size>, size: string, fps: int, speedAnimation: real)
    requires ParseBucket(size).Some? && ParseBucket(size) != Some(Original)
    ensures var r := FrameAnimation(Some(source), size, fps, speedAnimation);
            r.sized.Some? ==> r.sized.value.heightLie == r.sized.value.height
  {
    var r := FrameAnimation(Some(source), size, fps, speedAnimation);
    if r.sized.Some? {
      var b := ParseBucket(size).value;
      assert ResizeFrame(Some(b), source[0]) == Some(r.frames[0]);
      assert ResizeFrame(Some(b), source[|r.frames| - 1]) == Some(r.frames[|r.frames| - 1]);
    }
  }
}

=== FILE: pet_physics.dfy ===
/** The movement rules of the DeskPets agent (DeskPets_repo/pets.py):
    drag capture and tracking, the throw impulse and its damped, bouncing
    flight, the once-per-press right-click latch, and the right-quarter
    screen partition. Positions and velocities are exact reals. */
module PetPhysics {
  import opened Base

  const Damping: real := 0.85
  const StopSpeed: real := 0.2
  const Bounce: real := 0.6
  const ReleaseBoost: real := 1.5

  /** The part of the pet that moves: its top-left corner, the throw
      velocity, and the drag bookkeeping (pointer offset inside the window
      and the pointer sample of the previous tick). */
  datatype Body = Body(pos: Vec, vel: Vec, dragging: bool, offset: Vec, last: Option<Vec>)

  predicate InBox(p: Vec, maxX: real, maxY: real) {
    0.0 <= p.x <= maxX && 0.0 <= p.y <= maxY
  }

  /** One axis of a throw step: move, damp, then reflect off the low edge
      and then off the high edge, each reflection landing on the edge with
      the velocity reversed and scaled by 0.6. */
  function ThrowAxis(p: real, v: real, max: real): (r: (real, real))
    ensures Abs(r.1) <= Damping * Abs(v)
    ensures max >= 0.0 ==> 0.0 <= r.0 <= max
    ensures 0.0 <= p + v <= max ==> r == (p + v, Damping * v)
    ensures max >= 0.0 && p + v < 0.0 ==> r == (0.0, -(Damping * v) * Bounce)
    ensures max >= 0.0 && p + v > max ==> r == (max, -(Damping * v) * Bounce)
  {
    var p1 := p + v;
    var v1 := v * Damping;
    var (p2, v2) := if p1 < 0.0 then (0.0, -v1 * Bounce) else (p1, v1);
    if p2 > max then (max, -v2 * Bounce) else (p2, v2)
  }

  /** `_apply_throw`: the returned flag is False, with the velocity zeroed
      and the pet left in place, once both components are below 0.2. */
  function ApplyThrow(b: Body, maxX: real, maxY: real): (r: (Body, bool))
    ensures !r.1 <==> Abs(b.vel.x) < StopSpeed && Abs(b.vel.y) < StopSpeed
    ensures !r.1 ==> r.0 == b.(vel := Vec(0.0, 0.0))
    ensures r.1 ==> r.0 == b.(pos := r.0.pos, vel := r.0.vel)
    ensures Abs(r.0.vel.x) <= Damping * Abs(b.vel.x) && Abs(r.0.vel.y) <= Damping * Abs(b.vel.y)
    ensures r.1 && maxX >= 0.0 && maxY >= 0.0 ==> InBox(r.0.pos, maxX, maxY)
    ensures r.1 ==> r.0.pos.x == ThrowAxis(b.pos.x, b.vel.x, maxX).0 && r.0.vel.x == ThrowAxis(b.pos.x, b.vel.x, maxX).1
    ensures r.1 ==> r.0.pos.y == ThrowAxis(b.pos.y, b.vel.y, maxY).0 && r.0.vel.y == ThrowAxis(b.pos.y, b.vel.y, maxY).1
  {
    if Abs(b.vel.x) < StopSpeed && Abs(b.vel.y) < StopSpeed then (b.(vel := Vec(0.0, 0.0)), false)
    else
      var (x, vx) := ThrowAxis(b.pos.x, b.vel.x, maxX);
      var (y, vy) := ThrowAxis(b.pos.y, b.vel.y, maxY);
      (b.(pos := Vec(x, y), vel := Vec(vx, vy)), true)
  }

  /** The throw applied on `n` consecutive ticks with nothing else moving
      the pet. */
  function ThrowRun(b: Body, maxX: real, maxY: real, n: nat): (r: Body)
    ensures r.dragging == b.dragging && r.offset == b.offset && r.last == b.last
    decreases n
  {
    if n == 0 then b else ThrowRun(ApplyThrow(b, maxX, maxY).0, maxX, maxY, n - 1)
  }

  /** A throw comes to rest: when each velocity component is at most
      0.2 + 0.03·n in size, the velocity is zero after n + 1 ticks. */
  lemma {:induction false} ThrowSettles(b: Body, maxX: real, maxY: real, n: nat)
    requires Abs(b.vel.x) < StopSpeed + 0.03 * n as real && Abs(b.vel.y) < StopSpeed + 0.03 * n as real
    ensures ThrowRun(b, maxX, maxY, n + 1).vel == Vec(0.0, 0.0)
    decreases n
  {
    var (b1, moved) := ApplyThrow(b, maxX, maxY);
    if !moved {
      RestStaysAtRest(b1, maxX, maxY, n);
    } else {
      ThrowSettles(b1, maxX, maxY, n - 1);
    }
  }

  /** The speed a component may have and still fall below 0.2 within `n`
      damped ticks: 0.2 / 0.85^n. */
  function SettleBound(n: nat): (s: real)
    ensures s >= StopSpeed
    ensures n > 0 ==> s * Damping == SettleBound(n - 1)
  {
    if n == 0 then StopSpeed else SettleBound(n - 1) / Damping
  }

  /** The geometric form of the same fact: each tick keeps at most 0.85 of
      each component, so a throw whose components are below 0.2 / 0.85^n
      is at rest after n + 1 ticks. */
  lemma {:induction false} ThrowSettlesDamped(b: Body, maxX: real, maxY: real, n: nat)
    requires Abs(b.vel.x) < SettleBound(n) && Abs(b.vel.y) < SettleBound(n)
    ensures ThrowRun(b, maxX, maxY, n + 1).vel == Vec(0.0, 0.0)
    decreases n
  {
    var (b1, moved) := ApplyThrow(b, maxX, maxY);
    if !moved {
      RestStaysAtRest(b1, maxX, maxY, n);
    } else {
      ThrowSettlesDamped(b1, maxX, maxY, n - 1);
    }
  }

  /** A pet at rest stays where it is. */
  lemma {:induction false} RestStaysAtRest(b: Body, maxX: real, maxY: real, n: nat)
    requires b.vel == Vec(0.0, 0.0)
    ensures ThrowRun(b, maxX, maxY, n) == b
    decreases n
  {
    if n > 0 {
      assert ApplyThrow(b, maxX, maxY).0 == b;
      RestStaysAtRest(b, maxX, maxY, n - 1);
    }
  }

  /** A thrown pet that starts on screen stays on screen on every tick. */
  lemma {:induction false} ThrowStaysOnScreen(b: Body, maxX: real, maxY: real, n: nat)
    requires maxX >= 0.0 && maxY >= 0.0 && InBox(b.pos, maxX, maxY)
    ensures InBox(ThrowRun(b, maxX, maxY, n).pos, maxX, maxY)
    decreases n
  {
    if n > 0 {
      ThrowStaysOnScreen(ApplyThrow(b, maxX, maxY).0, maxX, maxY, n - 1);
    }
  }

  /** What the drag logic decided on one tick. */
  datatype DragOutcome = Held | Released | Untouched

  /** Drag capture, tracking and release for one pointer sample `m`.
      `Held` means the tick ends here, as the source returns early. */
  function Drag(b: Body, m: Vec, leftDown: bool, inBounds: bool, maxX: real, maxY: real): (r: (Body, DragOutcome))
    ensures r.1 == Held <==> leftDown && (b.dragging || inBounds)
    ensures r.1 == Released <==> !leftDown && b.dragging
    ensures r.1 == Untouched ==> r.0 == b
    ensures r.1 == Held ==> r.0.dragging && r.0.last == Some(m)
    ensures r.1 == Held ==> r.0.offset == (if b.dragging then b.offset else Vec(m.x - b.pos.x, m.y - b.pos.y))
    ensures r.1 == Held ==> r.0.pos == Vec(ClampLowLast(m.x - r.0.offset.x, 0.0, maxX), ClampLowLast(m.y - r.0.offset.y, 0.0, maxY))
    ensures r.1 == Held && maxX >= 0.0 && maxY >= 0.0 ==> InBox(r.0.pos, maxX, maxY)
    ensures r.1 == Held && !b.dragging ==> r.0.vel == Vec(0.0, 0.0)
    ensures r.1 == Held && b.dragging && b.last.Some? ==> r.0.vel == Vec(m.x - b.last.value.x, m.y - b.last.value.y)
    ensures r.1 == Held && b.dragging && b.last.None? ==> r.0.vel == b.vel
    ensures r.1 == Released ==>
              r.0 == b.(dragging := false, vel := Vec(b.vel.x * ReleaseBoost, b.vel.y * ReleaseBoost), last := None)
  {
    var b1 := if leftDown && inBounds && !b.dragging
              then Body(b.pos, Vec(0.0, 0.0), true, Vec(m.x - b.pos.x, m.y - b.pos.y), Some(m))
              else b;
    if !b1.dragging then (b1, Untouched)
    else if leftDown then
      var vel := if b1.last.Some? then Vec(m.x - b1.last.value.x, m.y - b1.last.value.y) else b1.vel;
      var pos := Vec(ClampLowLast(m.x - b1.offset.x, 0.0, maxX), ClampLowLast(m.y - b1.offset.y, 0.0, maxY));
      (b1.(pos := pos, vel := vel, last := Some(m)), Held)
    else
      (b1.(dragging := false, vel := Vec(b1.vel.x * ReleaseBoost, b1.vel.y * ReleaseBoost), last := None), Released)
  }

  /** Grabbing an on-screen pet does not move it, and leaves it at rest:
      a click without motion followed by a release throws nothing. */
  lemma GrabDoesNotMove(b: Body, m: Vec, maxX: real, maxY: real)
    requires !b.dragging && InBox(b.pos, maxX, maxY)
    ensures var (b1, o1) := Drag(b, m, true, true, maxX, maxY);
            && o1 == Held && b1.pos == b.pos && b1.vel == Vec(0.0, 0.0)
            && var (b2, o2) := Drag(b1, m, false, true, maxX, maxY);
               o2 == Released && b2.pos == b.pos && b2.vel == Vec(0.0, 0.0) && !b2.dragging
  {
  }

  /** The right-click latch: `fire` is when the hook runs. */
  function RightClick(consumed: bool, rightDown: bool, inBounds: bool): (r: (bool, bool))
    ensures r.1 <==> rightDown && inBounds && !consumed
    ensures !rightDown ==> !r.0
    ensures rightDown ==> (r.0 <==> consumed || inBounds)
  {
    var fire := rightDown && inBounds && !consumed;
    var c := if fire then true else consumed;
    (if !rightDown then false else c, fire)
  }

  /** How often the hook runs over a series of (right button down, pointer
      inside) samples, starting from the given latch. */
  function Fires(consumed: bool, samples: seq<(bool, bool)>): nat
    decreases |samples|
  {
    if samples == [] then 0
    else
      var (c, fire) := RightClick(consumed, samples[0].0, samples[0].1);
      (if fire then 1 else 0) + Fires(c, samples[1..])
  }

  /** While the right button stays down the hook runs at most once, and not
      at all when the press was already consumed. */
  lemma {:induction false} OneFirePerPress(consumed: bool, samples: seq<(bool, bool)>)
    requires forall i :: 0 <= i < |samples| ==> samples[i].0
    ensures Fires(consumed, samples) <= 1
    ensures consumed ==> Fires(consumed, samples) == 0
    decreases |samples|
  {
    if samples != [] {
      var (c, fire) := RightClick(consumed, samples[0].0, samples[0].1);
      OneFirePerPress(c, samples[1..]);
    }
  }

  /** The right-hand partition: the left edge `sw - sw // 4`, the right
      edge `sw - w`. Each correction reverses the direction except while
      digging at the wall. */
  function PartitionClamp(x: real, direction: int, stateName: string, screenWidth: int, width: int): (r: (real, int))
    ensures r.0 <= (screenWidth - width) as real
    ensures var lo := (screenWidth - screenWidth / 4) as real; var hi := (screenWidth - width) as real;
            lo <= hi ==>
              && lo <= r.0
              && (lo <= x <= hi ==> r == (x, direction))
              && (x < lo ==> r == (lo, if stateName == "walldig" then direction else -direction))
              && (x > hi ==> r == (hi, if stateName == "walldig" then direction else -direction))
  {
    var lo := (screenWidth - screenWidth / 4) as real;
    var hi := (screenWidth - width) as real;
    var flip := stateName != "walldig";
    var (x1, d1) := if x < lo then (lo, if flip then -direction else direction) else (x, direction);
    if x1 > hi then (hi, if flip then -d1 else d1) else (x1, d1)
  }

  /** The partition clamp is idempotent when the partition is non-empty. */
  lemma PartitionClampIdempotent(x: real, direction: int, stateName: string, screenWidth: int, width: int)
    requires screenWidth - screenWidth / 4 <= screenWidth - width
    ensures var (x1, d1) := PartitionClamp(x, direction, stateName, screenWidth, width);
            PartitionClamp(x1, d1, stateName, screenWidth, width) == (x1, d1)
  {
  }
}

=== FILE: pet_states.dfy ===
/** The state catalogue of one pet (STATES_INFO in DeskPets_repo/pets.py)
    and the random choice of the next state. */
module PetStates {
  import opened Base
  import Catalogue

  /** One entry of a species' "defaults"; any of its three keys may be absent. */
  datatype DefaultEntry = DefaultEntry(hold: Option<int>, movementSpeed: Option<real>, speedAnimation: Option<real>)

  /** The parameters the pet keeps for one state of its colour. */
  datatype StateInfo = StateInfo(gif: string, hold: int, movementSpeed: real, speedAnimation: real)

  /** A running state (the State object): the catalogue parameters plus the
      facing direction and the tick counter of the current cycle. */
  datatype PetState = PetState(
    name: string, gif: string, hold: int, movementSpeed: real, speedAnimation: real,
    direction: int, counter: int)

  /** The states a random choice never picks: the ball scene and the
      squirrel's wall-climb chain, which are only entered by chaining. */
  const ChainStates: seq<string> := ["with_ball", "wallclimb", "walldig", "wallgrab", "wallnap", "fall_from_grab"]

  /** The parameters of one state: each key of the species default entry,
      or the fallback hold = fps, movement speed 0, animation speed 1.0. */
  function InfoFor(gif: string, d: Option<DefaultEntry>, fps: int): (info: StateInfo)
    ensures info.gif == gif
    ensures d.None? ==> info == StateInfo(gif, fps, 0.0, 1.0)
    ensures d.Some? && d.value.hold.Some? ==> info.hold == d.value.hold.value
    ensures d.Some? && d.value.hold.None? ==> info.hold == fps
    ensures d.Some? && d.value.movementSpeed.Some? ==> info.movementSpeed == d.value.movementSpeed.value
    ensures d.Some? && d.value.movementSpeed.None? ==> info.movementSpeed == 0.0
    ensures d.Some? && d.value.speedAnimation.Some? ==> info.speedAnimation == d.value.speedAnimation.value
    ensures d.Some? && d.value.speedAnimation.None? ==> info.speedAnimation == 1.0
  {
    match d
    case None => StateInfo(gif, fps, 0.0, 1.0)
    case Some(e) =>
      StateInfo(
        gif,
        match e.hold case Some(h) => h case None => fps,
        match e.movementSpeed case Some(v) => v case None => 0.0,
        match e.speedAnimation case Some(a) => a case None => 1.0)
  }

  /** STATES_INFO built from the colour's states and the species defaults:
      one entry per state, in the colour's order. */
  function BuildStatesInfo(colorStates: OrderedMap<string>, defaults: map<string, DefaultEntry>, fps: int): (r: OrderedMap<StateInfo>)
    requires colorStates.Valid()
    ensures r.Valid()
    ensures r.keys == colorStates.keys
    ensures forall k :: k in r.values ==>
              r.values[k] == InfoFor(colorStates.values[k], if k in defaults then Some(defaults[k]) else None, fps)
  {
    OrderedMap(colorStates.keys,
      map k | k in colorStates.values :: InfoFor(colorStates.values[k], if k in defaults then Some(defaults[k]) else None, fps))
  }

  /** A default entry as written by the catalogue generator has all three keys. */
  function FromGenerated(p: Catalogue.Params): DefaultEntry {
    DefaultEntry(Some(p.hold), Some(p.movementSpeed), Some(p.speedAnimation))
  }

  /** For a catalogue written by the generator, every state of the colour has
      a full default entry, so no fallback value is ever used: each state
      takes exactly the generated hold, speed and animation speed. */
  lemma GeneratedCatalogueNeedsNoFallback(sd: Catalogue.SpeciesData, color: string, colorStates: OrderedMap<string>, fps: int)
    requires colorStates.Valid()
    requires color in sd.states && colorStates.values == sd.states[color]
    requires forall c, s :: c in sd.states && s in sd.states[c] ==> s in sd.defaults
    ensures var r := BuildStatesInfo(colorStates, map k | k in sd.defaults :: FromGenerated(sd.defaults[k]), fps);
            forall k :: k in r.values ==>
              && r.values[k].hold == sd.defaults[k].hold
              && r.values[k].movementSpeed == sd.defaults[k].movementSpeed
              && r.values[k].speedAnimation == sd.defaults[k].speedAnimation
  {
  }

  predicate AllExcluded(keys: seq<string>, exclusions: seq<string>) {
    forall k :: k in keys ==> k in exclusions
  }

  /** The keys left after removing the exclusions. */
  function Without(keys: seq<string>, exclusions: seq<string>): (r: seq<string>)
    ensures forall k :: k in r <==> k in keys && k !in exclusions
    ensures |r| <= |keys|
  {
    if |keys| == 0 then []
    else (if keys[0] in exclusions then [] else [keys[0]]) + Without(keys[1..], exclusions)
  }

  /** The keys `random.choice` picks from: the non-excluded ones, or all of
      them when the exclusions remove every key. */
  function Candidates(keys: seq<string>, exclusions: seq<string>): (r: seq<string>)
    ensures forall k :: k in r ==> k in keys
    ensures !AllExcluded(keys, exclusions) ==> forall k :: k in r <==> k in keys && k !in exclusions
    ensures AllExcluded(keys, exclusions) ==> r == keys
  {
    var left := Without(keys, exclusions);
    assert |left| > 0 ==> left[0] in left;
    if |left| == 0 then keys else left
  }

  /** `random_state`: the random draws are injected, `pick` (taken modulo
      the number of candidates) for the state and `facesRight` for the
      direction; `counter` is the State constructor's initial counter,
      defined in state.py. None when the catalogue is empty, where `random.choice`
      raises and the method returns None. */
  function RandomState(states: OrderedMap<StateInfo>, exclusions: seq<string>, pick: nat, facesRight: bool, counter: int): (r: Option<PetState>)
    requires states.Valid()
    ensures r.None? <==> |states.keys| == 0
    ensures r.Some? ==> r.value.name in states.values
    ensures r.Some? && !AllExcluded(states.keys, exclusions) ==> r.value.name !in exclusions
    ensures r.Some? ==> r.value.direction == -1 || r.value.direction == 1
    ensures r.Some? ==> var info := states.values[r.value.name];
              && r.value.gif == info.gif && r.value.hold == info.hold
              && r.value.movementSpeed == info.movementSpeed && r.value.speedAnimation == info.speedAnimation
  {
    var keys := Candidates(states.keys, exclusions);
    if |keys| == 0 then None
    else
      var name := keys[pick % |keys|];
      var info := states.values[name];
      Some(PetState(name, info.gif, info.hold, info.movementSpeed, info.speedAnimation,
                    if facesRight then 1 else -1, counter))
  }

  /** Every candidate is reachable: for each state that is not excluded (or
      for every state, when all are excluded) there is a draw selecting it. */
  lemma RandomStateReachesEveryCandidate(states: OrderedMap<StateInfo>, exclusions: seq<string>, name: string, facesRight: bool, counter: int)
    returns (pick: nat)
    requires states.Valid()
    requires name in states.keys
    requires name !in exclusions || AllExcluded(states.keys, exclusions)
    ensures RandomState(states, exclusions, pick, facesRight, counter).Some?
    ensures RandomState(states, exclusions, pick, facesRight, counter).value.name == name
  {
    var keys := Candidates(states.keys, exclusions);
    assert name in keys;
    var i :| 0 <= i < |keys| && keys[i] == name;
    pick := i;
    DivModUnique(i, |keys|, 0, i);
  }
}

=== FILE: sprites.dfy ===
/** Sprite-source selection of the standalone messaging pet
    (DeskPets_repo/setup.py): image discovery, the fuzzy path score, the
    best GIF, PNG sequences grouped by stem, and the final choice. A path is
    its list of components; walking the directory tree is outside the
    model, which starts from the list of (path, is a file) entries. */
module Sprites {
  import opened Base
  import Text

  datatype Path = Path(parts: seq<string>)

  /** `path.name`: the last component. */
  function Name(p: Path): string {
    if p.parts == [] then "" else p.parts[|p.parts| - 1]
  }

  /** The position of the dot that starts `path.suffix`, when there is one:
      the last dot of the name, neither its first nor its last character. */
  function SuffixDot(name: string): (i: Option<nat>)
    ensures i.Some? ==> 0 < i.value < |name| - 1 && name[i.value] == '.'
    ensures i.Some? ==> forall j :: i.value < j < |name| ==> name[j] != '.'
    ensures i.None? ==> forall j :: 0 < j < |name| - 1 ==> name[j] != '.' || exists k :: j < k < |name| && name[k] == '.'
  {
    LastDotBefore(name, |name|)
  }

  function LastDotBefore(name: string, n: nat): (i: Option<nat>)
    requires n <= |name|
    ensures i.Some? ==> 0 < i.value < n && i.value < |name| - 1 && name[i.value] == '.'
    ensures i.Some? ==> forall j :: i.value < j < n ==> name[j] != '.'
    ensures i.None? ==> forall j :: 0 < j < n && j < |name| - 1 ==> name[j] != '.' || exists k :: j < k < |name| && name[k] == '.'
  {
    if n == 0 then None
    else if name[n - 1] == '.' then
      if 0 < n - 1 < |name| - 1 then Some(n - 1)
      else None
    else LastDotBefore(name, n - 1)
  }

  /** `path.suffix`, e.g. ".gif"; empty when the name has no suffix. */
  function Suffix(p: Path): (s: string)
    ensures s == [] || s[0] == '.'
    ensures Text.EndsWith(Name(p), s)
  {
    var n := Name(p);
    match SuffixDot(n)
    case None => ""
    case Some(i) => n[i..]
  }

  /** `path.stem`: the name without its suffix. */
  function Stem(p: Path): (s: string)
    ensures s + Suffix(p) == Name(p)
  {
    var n := Name(p);
    match SuffixDot(n)
    case None => n
    case Some(i) => n[..i]
  }

  /** `str(path).lower()`, with "/" between components. */
  function PathText(p: Path): string {
    Text.Lower(Text.Join(p.parts, '/'))
  }

  predicate IsGif(p: Path) { Text.Lower(Suffix(p)) == ".gif" }
  predicate IsPng(p: Path) { Text.Lower(Suffix(p)) == ".png" }

  const ImageExts: set<string> := {".gif", ".png", ".webp", ".jpg", ".jpeg"}

  /** `discover_assets`: the files whose lower-cased suffix is an image
      extension, in listing order. */
  function DiscoverAssets(entries: seq<(Path, bool)>): (images: seq<Path>)
    ensures forall p :: p in images <==> (p, true) in entries && Text.Lower(Suffix(p)) in ImageExts
    decreases |entries|
  {
    if entries == [] then [] else ImageOf(entries[0]) + DiscoverAssets(entries[1..])
  }

  /** What one listing entry contributes: the path of an image file, or nothing. */
  function ImageOf(e: (Path, bool)): (r: seq<Path>)
    ensures |r| <= 1
    ensures forall p :: p in r <==> p == e.0 && e.1 && Text.Lower(Suffix(p)) in ImageExts
  {
    if e.1 && Text.Lower(Suffix(e.0)) in ImageExts then [e.0] else []
  }

  /** The walk keeps listing order: the images of a listing split in two are
      those of the first part followed by those of the second, and no entry
      yields more than one image. */
  lemma {:induction false} DiscoverAssetsAppend(a: seq<(Path, bool)>, b: seq<(Path, bool)>)
    ensures DiscoverAssets(a + b) == DiscoverAssets(a) + DiscoverAssets(b)
    ensures |DiscoverAssets(a)| <= |a|
    decreases |a|
  {
    if a == [] {
      assert a + b == b;
    } else {
      assert (a + b)[0] == a[0] && (a + b)[1..] == a[1..] + b;
      DiscoverAssetsAppend(a[1..], b);
      assert DiscoverAssets(a + b) == ImageOf(a[0]) + DiscoverAssets(a[1..] + b);
    }
  }

  /** The short-path bonus `max(0, 10 - len(parts) // 3)`. */
  function LengthBonus(parts: nat): (b: nat)
    ensures b <= 10
    ensures parts >= 30 ==> b == 0
  {
    IntMax(0, 10 - parts / 3)
  }

  /** The keyword as `score_match` uses it: lower-cased, then stripped. */
  predicate KeywordIn(keyword: string, p: Path) {
    var key := Text.Strip(Text.Lower(keyword));
    key != "" && Text.Contains(key, PathText(p))
  }

  /** The bonuses other than the keyword's: GIF, idle, walk or run. */
  function NameBonus(p: Path): (b: nat)
    ensures b <= 46
  {
    var s := PathText(p);
    (if IsGif(p) then 30 else 0)
    + (if Text.Contains("idle", s) then 10 else 0)
    + (if Text.Contains("walk", s) || Text.Contains("run", s) then 6 else 0)
  }

  /** `score_match`. */
  function ScoreMatch(p: Path, keyword: string): (score: nat)
    ensures score <= 106
    ensures KeywordIn(keyword, p) <==> score >= 50 + LengthBonus(|p.parts|)
    ensures score >= LengthBonus(|p.parts|)
  {
    (if KeywordIn(keyword, p) then 50 else 0) + NameBonus(p) + LengthBonus(|p.parts|)
  }

  /** The keyword bonus outweighs all the others: between two paths of the
      same depth, the one naming the pet scores higher. */
  lemma KeywordDominates(p: Path, q: Path, keyword: string)
    requires |p.parts| == |q.parts| && KeywordIn(keyword, p) && !KeywordIn(keyword, q)
    ensures ScoreMatch(p, keyword) > ScoreMatch(q, keyword)
  {
  }

  /** The first position holding a maximal score among the eligible
      entries, or -1 when none is eligible. Both `max()` and a stable
      descending sort pick this one. */
  method FirstMax(eligible: seq<bool>, score: seq<int>) returns (bi: int)
    requires |eligible| == |score|
    ensures -1 <= bi < |score|
    ensures bi == -1 <==> forall j :: 0 <= j < |eligible| ==> !eligible[j]
    ensures bi >= 0 ==> eligible[bi]
    ensures bi >= 0 ==> forall j :: 0 <= j < |score| && eligible[j] ==> score[j] <= score[bi]
    ensures bi >= 0 ==> forall j :: 0 <= j < bi && eligible[j] ==> score[j] < score[bi]
  {
    bi := -1;
    var k := 0;
    while k < |score|
      invariant 0 <= k <= |score|
      invariant -1 <= bi < k
      invariant bi == -1 <==> forall j :: 0 <= j < k ==> !eligible[j]
      invariant bi >= 0 ==> eligible[bi]
      invariant bi >= 0 ==> forall j :: 0 <= j < k && eligible[j] ==> score[j] <= score[bi]
      invariant bi >= 0 ==> forall j :: 0 <= j < bi && eligible[j] ==> score[j] < score[bi]
    {
      if eligible[k] && (bi == -1 || score[k] > score[bi]) {
        bi := k;
      }
      k := k + 1;
    }
  }

  /** `pick_best_gif`: None when no image is a GIF; otherwise a GIF of the
      highest score, the earliest such one as the stable sort keeps it. */
  method PickBestGif(images: seq<Path>, keyword: string) returns (best: Option<Path>)
    ensures best.None? <==> forall i :: 0 <= i < |images| ==> !IsGif(images[i])
    ensures best.Some? ==> exists i :: 0 <= i < |images| && images[i] == best.value && BestGifAt(images, keyword, i)
  {
    var eligible := GifFlags(images);
    var score := GifScores(images, keyword);
    var bi := FirstMax(eligible, score);
    if bi == -1 {
      return None;
    }
    assert BestGifAt(images, keyword, bi);
    return Some(images[bi]);
  }

  /** Which images are GIFs. */
  function GifFlags(images: seq<Path>): (e: seq<bool>)
    ensures |e| == |images| && forall i :: 0 <= i < |images| ==> e[i] == IsGif(images[i])
  {
    seq(|images|, i requires 0 <= i < |images| => IsGif(images[i]))
  }

  /** The score of each image. */
  function GifScores(images: seq<Path>, keyword: string): (sc: seq<int>)
    ensures |sc| == |images| && forall i :: 0 <= i < |images| ==> sc[i] == ScoreMatch(images[i], keyword)
  {
    seq(|images|, i requires 0 <= i < |images| => ScoreMatch(images[i], keyword))
  }

  /** Position `i` holds a GIF of top score with no equal-scoring GIF before it. */
  predicate BestGifAt(images: seq<Path>, keyword: string, i: nat)
    requires i < |images|
  {
    && IsGif(images[i])
    && (forall j :: 0 <= j < |images| && IsGif(images[j]) ==> ScoreMatch(images[j], keyword) <= ScoreMatch(images[i], keyword))
    && (forall j :: 0 <= j < i && IsGif(images[j]) ==> ScoreMatch(images[j], keyword) < ScoreMatch(images[i], keyword))
  }

  // ---------------------------------------------------------------------
  // PNG sequences

  /** A PNG that `group_png_sequences` considers: the raw keyword, lower-cased
      but not stripped, must occur in the path unless it is empty. */
  predicate SequenceCandidate(p: Path, keyword: string) {
    IsPng(p) && (keyword == "" || Text.Contains(Text.Lower(keyword), PathText(p)))
  }

  /** The group key: the stem without its trailing digits. */
  function SeqKey(p: Path): string {
    Text.StripTrailingDigits(Stem(p))
  }

  /** A listed image as the grouping sees it. */
  datatype Tagged = Tagged(path: Path, candidate: bool, key: string)

  function Tag(images: seq<Path>, keyword: string): (ts: seq<Tagged>)
    ensures |ts| == |images|
    ensures forall i :: 0 <= i < |images| ==>
              ts[i] == Tagged(images[i], SequenceCandidate(images[i], keyword), SeqKey(images[i]))
  {
    seq(|images|, i requires 0 <= i < |images| => Tagged(images[i], SequenceCandidate(images[i], keyword), SeqKey(images[i])))
  }

  /** The candidate paths that go into sequence `key`, in listing order. */
  function Members(ts: seq<Tagged>, key: string): (ms: seq<Path>)
    ensures |ms| <= |ts|
    decreases |ts|
  {
    if ts == [] then []
    else
      var init := ts[..|ts| - 1];
      var t := ts[|ts| - 1];
      assert ts == init + [t];
      Members(init, key) + (if t.candidate && t.key == key then [t.path] else [])
  }

  /** The group keys in order of first appearance, as the dict creates them. */
  function KeyOrder(ts: seq<Tagged>): (keys: seq<string>)
    ensures Distinct(keys)
    decreases |ts|
  {
    if ts == [] then []
    else
      var init := ts[..|ts| - 1];
      var t := ts[|ts| - 1];
      assert ts == init + [t];
      var keys := KeyOrder(init);
      if t.candidate && t.key !in keys then keys + [t.key] else keys
  }

  predicate Distinct(keys: seq<string>) {
    forall i, j :: 0 <= i < j < |keys| ==> keys[i] != keys[j]
  }

  predicate SortedByName(ps: seq<Path>) {
    forall i, j :: 0 <= i < j < |ps| ==> Text.LessEq(Name(ps[i]), Name(ps[j]))
  }

  /** Insert after every path whose name is not greater, which keeps equal
      names in their original order. */
  function InsertByName(p: Path, ps: seq<Path>): (r: seq<Path>)
    requires SortedByName(ps)
    ensures SortedByName(r)
    ensures multiset(r) == multiset(ps) + multiset{p}
    decreases |ps|
  {
    if ps == [] then [p]
    else if Text.LessEq(Name(ps[0]), Name(p)) then
      var rest := InsertByName(p, ps[1..]);
      assert ps == [ps[0]] + ps[1..];
      InsertIsSorted(ps[0], rest, ps[1..], p);
      [ps[0]] + rest
    else
      Text.LessEqTotal(Name(ps[0]), Name(p));
      AllAfter(p, ps);
      [p] + ps
  }

  lemma AllAfter(p: Path, ps: seq<Path>)
    requires SortedByName(ps) && ps != [] && Text.LessEq(Name(p), Name(ps[0]))
    ensures SortedByName([p] + ps)
  {
    forall j | 0 < j < |[p] + ps|
      ensures Text.LessEq(Name(([p] + ps)[0]), Name(([p] + ps)[j]))
    {
      if j > 1 {
        Text.LessEqTransitive(Name(p), Name(ps[0]), Name(ps[j - 1]));
      }
    }
  }

  lemma InsertIsSorted(head: Path, rest: seq<Path>, tail: seq<Path>, p: Path)
    requires SortedByName([head] + tail) && SortedByName(rest)
    requires Text.LessEq(Name(head), Name(p))
    requires multiset(rest) == multiset(tail) + multiset{p}
    ensures SortedByName([head] + rest)
  {
    forall j | 0 <= j < |rest|
      ensures Text.LessEq(Name(head), Name(rest[j]))
    {
      assert multiset(rest)[rest[j]] > 0;
      if rest[j] != p {
        assert multiset(tail)[rest[j]] > 0;
        assert rest[j] in tail;
        var k :| 0 <= k < |tail| && tail[k] == rest[j];
        var ht := [head] + tail;
        assert ht[0] == head && ht[k + 1] == rest[j];
        assert Text.LessEq(Name(ht[0]), Name(ht[k + 1]));
      }
    }
  }

  /** `list.sort(key=lambda x: x.name)`: a stable sort by name. */
  function SortByName(ps: seq<Path>): (r: seq<Path>)
    ensures SortedByName(r)
    ensures multiset(r) == multiset(ps) && |r| == |ps|
    decreases |ps|
  {
    if ps == [] then []
    else
      assert ps == ps[..|ps| - 1] + [ps[|ps| - 1]];
      var r := InsertByName(ps[|ps| - 1], SortByName(ps[..|ps| - 1]));
      assert |r| == |multiset(r)| == |multiset(ps)| == |ps|;
      r
  }

  /** The paths named `n`, in their order. */
  function WithName(ps: seq<Path>, n: string): (r: seq<Path>)
    ensures forall i :: 0 <= i < |r| ==> Name(r[i]) == n
    decreases |ps|
  {
    if ps == [] then [] else (if Name(ps[0]) == n then [ps[0]] else []) + WithName(ps[1..], n)
  }

  lemma {:induction false} WithNameAppend(a: seq<Path>, b: seq<Path>, n: string)
    ensures WithName(a + b, n) == WithName(a, n) + WithName(b, n)
    decreases |a|
  {
    if a == [] {
      assert a + b == b;
    } else {
      assert (a + b)[0] == a[0] && (a + b)[1..] == a[1..] + b;
      WithNameAppend(a[1..], b, n);
    }
  }

  /** A list without a path named `n` has none to give. */
  lemma {:induction false} WithNameNone(ps: seq<Path>, n: string)
    requires forall i :: 0 <= i < |ps| ==> Name(ps[i]) != n
    ensures WithName(ps, n) == []
    decreases |ps|
  {
    if ps != [] {
      WithNameNone(ps[1..], n);
    }
  }

  /** Inserting puts `p` after every path of its own name. */
  lemma {:induction false} InsertStable(p: Path, ps: seq<Path>, n: string)
    requires SortedByName(ps)
    ensures WithName(InsertByName(p, ps), n) == WithName(ps, n) + WithName([p], n)
    decreases |ps|
  {
    if ps == [] {
    } else if Text.LessEq(Name(ps[0]), Name(p)) {
      var tail := ps[1..];
      assert SortedByName(tail);
      var rest := InsertByName(p, tail);
      assert InsertByName(p, ps) == [ps[0]] + rest;
      InsertStable(p, tail, n);
      assert ps == [ps[0]] + tail;
      InsertBehindStable(ps[0], rest, tail, p, n);
    } else {
      assert InsertByName(p, ps) == [p] + ps;
      InsertFrontStable(p, ps, n);
    }
  }

  /** A path kept in front keeps its place among those of its name. */
  lemma InsertBehindStable(head: Path, rest: seq<Path>, tail: seq<Path>, p: Path, n: string)
    requires WithName(rest, n) == WithName(tail, n) + WithName([p], n)
    ensures WithName([head] + rest, n) == WithName([head] + tail, n) + WithName([p], n)
  {
    WithNameAppend([head], rest, n);
    WithNameAppend([head], tail, n);
  }

  /** A path placed before a path of greater name precedes no path of its
      own name. */
  lemma InsertFrontStable(p: Path, ps: seq<Path>, n: string)
    requires SortedByName(ps) && ps != [] && !Text.LessEq(Name(ps[0]), Name(p))
    ensures WithName([p] + ps, n) == WithName(ps, n) + WithName([p], n)
  {
    assert ([p] + ps)[1..] == ps;
    if Name(p) == n {
      forall i | 0 <= i < |ps|
        ensures Name(ps[i]) != n
      {
        if i == 0 {
          Text.LessEqReflexive(Name(ps[0]));
        }
      }
      WithNameNone(ps, n);
    }
  }

  /** The sort is stable: the paths of each name keep their listing order. */
  lemma {:induction false} SortByNameStable(ps: seq<Path>, n: string)
    ensures WithName(SortByName(ps), n) == WithName(ps, n)
    decreases |ps|
  {
    if ps != [] {
      var init := ps[..|ps| - 1];
      var last := ps[|ps| - 1];
      assert ps == init + [last];
      SortByNameStable(init, n);
      InsertStable(last, SortByName(init), n);
      WithNameAppend(init, [last], n);
    }
  }

  /** A group as `group_png_sequences` returns it. */
  datatype Group = Group(key: string, frames: seq<Path>)

  function GroupKeys(gs: seq<Group>): (keys: seq<string>)
    ensures |keys| == |gs| && forall i :: 0 <= i < |gs| ==> keys[i] == gs[i].key
  {
    seq(|gs|, i requires 0 <= i < |gs| => gs[i].key)
  }

  /** The position of the group named `key`, or `|gs|` when there is none. */
  function IndexOfKey(gs: seq<Group>, key: string): (i: nat)
    ensures i <= |gs|
    ensures i < |gs| ==> gs[i].key == key
    ensures forall j :: 0 <= j < i ==> gs[j].key != key
    decreases |gs|
  {
    if gs == [] then 0
    else if gs[0].key == key then 0
    else 1 + IndexOfKey(gs[1..], key)
  }

  /** `seqs.setdefault(key, []).append(p)`. */
  function Append(gs: seq<Group>, key: string, p: Path): (r: seq<Group>)
    requires Distinct(GroupKeys(gs))
    ensures GroupKeys(r) == GroupKeys(gs) + (if key in GroupKeys(gs) then [] else [key])
    ensures forall i :: 0 <= i < |gs| ==> r[i].frames == gs[i].frames + (if gs[i].key == key then [p] else [])
    ensures key !in GroupKeys(gs) ==> r[|gs|].frames == [p]
  {
    var i := IndexOfKey(gs, key);
    var keys := GroupKeys(gs);
    if i == |gs| then
      assert key !in keys;
      var r := gs + [Group(key, [p])];
      GroupKeysAppend(gs, [Group(key, [p])]);
      r
    else
      assert keys[i] == key;
      assert forall j :: 0 <= j < |gs| && j != i ==> gs[j].key != key by {
        forall j | 0 <= j < |gs| && j != i
          ensures gs[j].key != key
        {
          if j > i {
            assert keys[i] != keys[j];
          }
        }
      }
      var r := gs[i := Group(key, gs[i].frames + [p])];
      assert GroupKeys(r) == keys;
      r
  }


  lemma TaggedSnoc(ts: seq<Tagged>, n: nat)
    requires n < |ts|
    ensures var t := ts[n];
            && KeyOrder(ts[..n + 1]) == KeyOrder(ts[..n]) + (if t.candidate && t.key !in KeyOrder(ts[..n]) then [t.key] else [])
            && forall k :: Members(ts[..n + 1], k) == Members(ts[..n], k) + (if t.candidate && t.key == k then [t.path] else [])
  {
    assert ts[..n + 1][..n] == ts[..n];
  }

  /** One pass of the first loop keeps the lists equal to the members of the
      prefix read so far. */
  lemma CollectStep(seqs: seq<Group>, ts: seq<Tagged>, n: nat)
    requires n < |ts|
    requires GroupKeys(seqs) == KeyOrder(ts[..n])
    requires forall i :: 0 <= i < |seqs| ==> seqs[i].frames == Members(ts[..n], seqs[i].key)
    ensures var s := if ts[n].candidate then Append(seqs, ts[n].key, ts[n].path) else seqs;
            && GroupKeys(s) == KeyOrder(ts[..n + 1])
            && forall i :: 0 <= i < |s| ==> s[i].frames == Members(ts[..n + 1], s[i].key)
  {
    TaggedSnoc(ts, n);
    var t := ts[n];
    if t.candidate {
      var s := Append(seqs, t.key, t.path);
      forall i | 0 <= i < |s|
        ensures s[i].frames == Members(ts[..n + 1], s[i].key)
      {
        if i < |seqs| {
          assert s[i].key == seqs[i].key;
        } else {
          assert t.key !in KeyOrder(ts[..n]);
          MembersAbsent(ts[..n], t.key);
        }
      }
    }
  }

  /** A key that has not appeared has no members yet. */
  lemma {:induction false} MembersAbsent(ts: seq<Tagged>, key: string)
    requires key !in KeyOrder(ts)
    ensures Members(ts, key) == []
    decreases |ts|
  {
    if ts != [] {
      var init := ts[..|ts| - 1];
      assert ts == init + [ts[|ts| - 1]];
      MembersAbsent(init, key);
    }
  }

  /** The first loop of `group_png_sequences`: one list per key, in order of
      first appearance, each holding its paths in listing order. */
  method Collect(ts: seq<Tagged>) returns (seqs: seq<Group>)
    ensures GroupKeys(seqs) == KeyOrder(ts)
    ensures forall i :: 0 <= i < |seqs| ==> seqs[i].frames == Members(ts, seqs[i].key)
  {
    seqs := [];
    var n := 0;
    while n < |ts|
      invariant 0 <= n <= |ts|
      invariant GroupKeys(seqs) == KeyOrder(ts[..n])
      invariant forall i :: 0 <= i < |seqs| ==> seqs[i].frames == Members(ts[..n], seqs[i].key)
    {
      CollectStep(seqs, ts, n);
      if ts[n].candidate {
        seqs := Append(seqs, ts[n].key, ts[n].path);
      }
      n := n + 1;
    }
    assert ts[..n] == ts;
  }

  /** A kept group: at least two frames, sorted by name, exactly the
      members of its key, and the members sharing a name in the order the
      listing gave them (the sort is stable). */
  ghost predicate GoodGroup(g: Group, ts: seq<Tagged>) {
    && |g.frames| >= 2 && SortedByName(g.frames) && multiset(g.frames) == multiset(Members(ts, g.key))
    && forall n :: WithName(g.frames, n) == WithName(Members(ts, g.key), n)
  }

  /** `a` is `b` with some entries left out. */
  predicate IsSubseq(a: seq<string>, b: seq<string>)
    decreases |b|
  {
    if a == [] then true
    else if b == [] then false
    else if a[|a| - 1] == b[|b| - 1] then IsSubseq(a[..|a| - 1], b[..|b| - 1])
    else IsSubseq(a, b[..|b| - 1])
  }

  /** A list sorted by name, when it has at least two paths. */
  function SortedIfLong(g: Group): (r: seq<Group>)
    ensures |r| <= 1 && (r != [] <==> |g.frames| >= 2)
    ensures r != [] ==> r[0].key == g.key && SortedByName(r[0].frames)
    ensures r != [] ==> multiset(r[0].frames) == multiset(g.frames) && |r[0].frames| == |g.frames|
    ensures r != [] ==> forall n :: WithName(r[0].frames, n) == WithName(g.frames, n)
  {
    if |g.frames| >= 2 then
      forall n ensures WithName(SortByName(g.frames), n) == WithName(g.frames, n) {
        SortByNameStable(g.frames, n);
      }
      [Group(g.key, SortByName(g.frames))]
    else []
  }

  /** The lists of two or more paths, each sorted by name, in their order. */
  function Keep(seqs: seq<Group>): (r: seq<Group>)
    ensures |r| <= |seqs|
    decreases |seqs|
  {
    if seqs == [] then []
    else
      var g := seqs[|seqs| - 1];
      Keep(seqs[..|seqs| - 1]) + SortedIfLong(g)
  }

  /** The keys of `keys` with two or more members, in their order. */
  function LongKeys(ts: seq<Tagged>, keys: seq<string>): (r: seq<string>)
    ensures |r| <= |keys|
    decreases |keys|
  {
    if keys == [] then []
    else
      var k := keys[|keys| - 1];
      LongKeys(ts, keys[..|keys| - 1]) + (if |Members(ts, k)| >= 2 then [k] else [])
  }

  /** The long keys are exactly the keys with two or more members, and
      they stay distinct. */
  lemma {:induction false} LongKeysExactly(ts: seq<Tagged>, keys: seq<string>)
    ensures forall k :: k in LongKeys(ts, keys) <==> k in keys && |Members(ts, k)| >= 2
    ensures Distinct(keys) ==> Distinct(LongKeys(ts, keys))
    decreases |keys|
  {
    if keys != [] {
      var init := keys[..|keys| - 1];
      var k := keys[|keys| - 1];
      assert keys == init + [k];
      LongKeysExactly(ts, init);
      if Distinct(keys) {
        assert forall i :: 0 <= i < |init| ==> init[i] == keys[i] && keys[i] != k;
      }
    }
  }

  lemma LongKeysSnoc(ts: seq<Tagged>, keys: seq<string>, k: string)
    ensures LongKeys(ts, keys + [k]) == LongKeys(ts, keys) + (if |Members(ts, k)| >= 2 then [k] else [])
  {
    assert (keys + [k])[..|keys|] == keys;
  }

  /** The kept groups are those of the long keys, in the same order. */
  lemma {:induction false} KeepLongKeys(seqs: seq<Group>, ts: seq<Tagged>)
    requires forall i :: 0 <= i < |seqs| ==> seqs[i].frames == Members(ts, seqs[i].key)
    ensures GroupKeys(Keep(seqs)) == LongKeys(ts, GroupKeys(seqs))
    decreases |seqs|
  {
    if seqs != [] {
      var init := seqs[..|seqs| - 1];
      var g := seqs[|seqs| - 1];
      assert forall i :: 0 <= i < |init| ==> init[i] == seqs[i];
      KeepLongKeys(init, ts);
      assert seqs == init + [g];
      KeepSnoc(init, g);
      GroupKeysAppend(init, [g]);
      LongKeysSnoc(ts, GroupKeys(init), g.key);
      assert g.frames == Members(ts, g.key);
    }
  }

  /** The kept groups appear in the order their keys were first met. */
  lemma {:induction false} KeepKeepsOrder(seqs: seq<Group>)
    ensures IsSubseq(GroupKeys(Keep(seqs)), GroupKeys(seqs))
    decreases |seqs|
  {
    if seqs != [] {
      var init := seqs[..|seqs| - 1];
      var g := seqs[|seqs| - 1];
      KeepKeepsOrder(init);
      assert seqs == init + [g];
      KeepSnoc(init, g);
      GroupKeysAppend(init, [g]);
      var a := GroupKeys(Keep(init));
      var b := GroupKeys(init);
      SubseqGrow(a, b, g.key, |g.frames| >= 2);
      assert GroupKeys(seqs) == b + [g.key];
    }
  }

  /** The keys kept from one more group: its key joins exactly when it has
      two or more paths. */
  lemma KeepSnoc(init: seq<Group>, g: Group)
    ensures GroupKeys(Keep(init + [g])) == GroupKeys(Keep(init)) + (if |g.frames| >= 2 then [g.key] else [])
  {
    assert (init + [g])[..|init|] == init;
    GroupKeysAppend(Keep(init), SortedIfLong(g));
  }


  /** A subsequence stays one when the longer list grows, whether or not
      the shorter grows by the same element. */
  lemma SubseqGrow(a: seq<string>, b: seq<string>, x: string, both: bool)
    requires IsSubseq(a, b)
    ensures IsSubseq(a + (if both then [x] else []), b + [x])
  {
    if both {
      SubseqSnocBoth(a, b, x);
    } else {
      assert a + [] == a;
      SubseqSnoc(a, b, x);
    }
  }

  /** Both lists growing by the same element keep the subsequence. */
  lemma SubseqSnocBoth(a: seq<string>, b: seq<string>, x: string)
    requires IsSubseq(a, b)
    ensures IsSubseq(a + [x], b + [x])
  {
    assert (a + [x])[..|a|] == a;
    assert (b + [x])[..|b|] == b;
  }


  lemma GroupKeysAppend(a: seq<Group>, b: seq<Group>)
    ensures GroupKeys(a + b) == GroupKeys(a) + GroupKeys(b)
  {
  }

  /** A subsequence stays one when the longer list grows. */
  lemma {:induction false} SubseqSnoc(a: seq<string>, b: seq<string>, x: string)
    requires IsSubseq(a, b)
    ensures IsSubseq(a, b + [x])
    decreases |b|, 1
  {
    assert (b + [x])[..|b|] == b;
    if a != [] && a[|a| - 1] == x {
      SubseqDropLast(a, b);
    }
  }

  /** Dropping the last entry of a subsequence keeps it a subsequence. */
  lemma {:induction false} SubseqDropLast(a: seq<string>, b: seq<string>)
    requires a != [] && IsSubseq(a, b)
    ensures IsSubseq(a[..|a| - 1], b)
    decreases |b|, 0
  {
    var b1 := b[..|b| - 1];
    assert b == b1 + [b[|b| - 1]];
    if a[|a| - 1] != b[|b| - 1] {
      SubseqDropLast(a, b1);
    }
    SubseqSnoc(a[..|a| - 1], b1, b[|b| - 1]);
  }

  /** Every kept group is long enough, sorted, and holds its key's members. */
  lemma {:induction false} KeepIsGood(seqs: seq<Group>, ts: seq<Tagged>)
    requires forall i :: 0 <= i < |seqs| ==> seqs[i].frames == Members(ts, seqs[i].key)
    ensures forall i :: 0 <= i < |Keep(seqs)| ==> GoodGroup(Keep(seqs)[i], ts)
    decreases |seqs|
  {
    if seqs != [] {
      KeepIsGood(seqs[..|seqs| - 1], ts);
    }
  }

  /** The second loop: sort each list by name and drop the short ones. */
  method KeepSequences(seqs: seq<Group>) returns (groups: seq<Group>)
    ensures groups == Keep(seqs)
  {
    groups := [];
    var m := 0;
    while m < |seqs|
      invariant 0 <= m <= |seqs|
      invariant groups == Keep(seqs[..m])
    {
      var g := seqs[m];
      assert seqs[..m + 1][..m] == seqs[..m];
      var sorted := SortByName(g.frames);
      if |sorted| >= 2 {
        groups := groups + [Group(g.key, sorted)];
      }
      m := m + 1;
    }
    assert seqs[..m] == seqs;
  }

  /** The two loops of `group_png_sequences` over the tagged listing. */
  method GroupTagged(ts: seq<Tagged>) returns (groups: seq<Group>)
    ensures forall i :: 0 <= i < |groups| ==> GoodGroup(groups[i], ts)
    ensures GroupKeys(groups) == LongKeys(ts, KeyOrder(ts))
    ensures forall k :: k in KeyOrder(ts) && |Members(ts, k)| >= 2 ==> k in GroupKeys(groups)
    ensures IsSubseq(GroupKeys(groups), KeyOrder(ts))
  {
    var seqs := Collect(ts);
    groups := KeepSequences(seqs);
    KeepKeepsOrder(seqs);
    KeepIsGood(seqs, ts);
    KeepLongKeys(seqs, ts);
    LongKeysExactly(ts, KeyOrder(ts));
  }

  /** `group_png_sequences`: the candidate PNGs grouped by key, each group
      sorted by name, groups of fewer than two frames dropped, the rest in
      order of first appearance. */
  method GroupPngSequences(images: seq<Path>, keyword: string) returns (groups: seq<Group>)
    ensures forall i :: 0 <= i < |groups| ==> GoodGroup(groups[i], Tag(images, keyword))
    ensures GroupKeys(groups) == LongKeys(Tag(images, keyword), KeyOrder(Tag(images, keyword)))
    ensures forall k :: k in KeyOrder(Tag(images, keyword)) && |Members(Tag(images, keyword), k)| >= 2 ==> k in GroupKeys(groups)
    ensures IsSubseq(GroupKeys(groups), KeyOrder(Tag(images, keyword)))
  {
    groups := GroupTagged(Tag(images, keyword));
  }

  // ---------------------------------------------------------------------
  // The choice

  /** `seq_score`: idle 25, walk or run 12, one per frame up to 20, and 10
      when the raw keyword, lower-cased, occurs in the lower-cased key. */
  function SeqScore(key: string, count: nat, keyword: string): (score: nat)
    ensures score <= 67
    ensures count <= 20 ==> score >= count
  {
    var s := Text.Lower(key);
    (if Text.Contains("idle", s) then 25 else 0)
    + (if Text.Contains("walk", s) || Text.Contains("run", s) then 12 else 0)
    + IntMin(count, 20)
    + (if keyword != "" && Text.Contains(Text.Lower(keyword), s) then 10 else 0)
  }

  /** Between two sequences of equal length that agree on the keyword, an
      idle sequence ranks above one that is not. */
  lemma IdleRanksFirst(idle: string, other: string, count: nat, keyword: string)
    requires Text.Contains("idle", Text.Lower(idle)) && !Text.Contains("idle", Text.Lower(other))
    requires (keyword != "" && Text.Contains(Text.Lower(keyword), Text.Lower(idle)))
         == (keyword != "" && Text.Contains(Text.Lower(keyword), Text.Lower(other)))
    ensures SeqScore(idle, count, keyword) > SeqScore(other, count, keyword)
  {
  }

  /** `SpriteSource`: at most one of the two is set. */
  datatype SpriteSource = SpriteSource(gif: Option<Path>, pngFrames: Option<seq<Path>>)

  /** `g` is a kept sequence whose score no other kept sequence exceeds. */
  ghost predicate BestSequence(ts: seq<Tagged>, keyword: string, g: Group) {
    && g.key in KeyOrder(ts) && GoodGroup(g, ts)
    && forall k :: k in KeyOrder(ts) && |Members(ts, k)| >= 2 ==>
         SeqScore(k, |Members(ts, k)|, keyword) <= SeqScore(g.key, |g.frames|, keyword)
  }

  /** No long key met before `key` scores as high: `max()` keeps the first
      of equal scores in the dict's order. */
  predicate FirstBest(ts: seq<Tagged>, keyword: string, key: string) {
    var ks := LongKeys(ts, KeyOrder(ts));
    forall i, j :: 0 <= i < j < |ks| && ks[j] == key ==>
      SeqScore(ks[i], |Members(ts, ks[i])|, keyword) < SeqScore(key, |Members(ts, key)|, keyword)
  }

  /** Some listed image is a GIF. */
  predicate AnyGif(images: seq<Path>) {
    exists i :: 0 <= i < |images| && IsGif(images[i])
  }

  /** `choose_sprite_source` on the discovered images: the best GIF when
      there is one; otherwise the best-scoring PNG sequence of at least two
      frames; otherwise nothing. */
  method ChooseSpriteSource(images: seq<Path>, keyword: string) returns (src: SpriteSource)
    ensures images == [] ==> src == SpriteSource(None, None)
    ensures src.gif.Some? <==> AnyGif(images)
    ensures src.gif.Some? ==> src.pngFrames.None?
    ensures src.gif.Some? ==> exists i :: 0 <= i < |images| && images[i] == src.gif.value && BestGifAt(images, keyword, i)
    ensures src.pngFrames.Some? ==> exists key :: BestSequence(Tag(images, keyword), keyword, Group(key, src.pngFrames.value))
                                                 && FirstBest(Tag(images, keyword), keyword, key)
    ensures src == SpriteSource(None, None) <==>
              !AnyGif(images) && forall k :: k in KeyOrder(Tag(images, keyword)) ==> |Members(Tag(images, keyword), k)| < 2
  {
    var ts := Tag(images, keyword);
    if images == [] {
      assert ts == [];
      return SpriteSource(None, None);
    }
    var best := PickBestGif(images, keyword);
    if best.Some? {
      return SpriteSource(best, None);
    }
    var groups := GroupTagged(ts);
    if groups == [] {
      return SpriteSource(None, None);
    }
    var g := BestOf(ts, keyword, groups);
    src := SpriteSource(None, Some(g.frames));
    assert BestSequence(ts, keyword, Group(g.key, g.frames)) && FirstBest(ts, keyword, g.key);
  }

  /** `max(seqs.keys(), key=seq_score)` over the kept groups. */
  method BestOf(ts: seq<Tagged>, keyword: string, groups: seq<Group>) returns (g: Group)
    requires groups != []
    requires forall i :: 0 <= i < |groups| ==> GoodGroup(groups[i], ts)
    requires forall k :: k in KeyOrder(ts) && |Members(ts, k)| >= 2 ==> k in GroupKeys(groups)
    requires IsSubseq(GroupKeys(groups), KeyOrder(ts))
    requires GroupKeys(groups) == LongKeys(ts, KeyOrder(ts))
    ensures g in groups && BestSequence(ts, keyword, g) && FirstBest(ts, keyword, g.key)
  {
    var eligible := AllEligible(|groups|);
    var score := GroupScores(groups, keyword);
    var bi := FirstMax(eligible, score);
    assert eligible[0];
    g := groups[bi];
    MaxIsBestSequence(ts, keyword, groups, eligible, score, bi);
    FirstMaxIsFirstBest(ts, keyword, groups, eligible, score, bi);
  }

  function AllEligible(n: nat): (e: seq<bool>)
    ensures |e| == n && forall i :: 0 <= i < n ==> e[i]
  {
    seq(n, i => true)
  }

  /** The `seq_score` of each kept group. */
  function GroupScores(groups: seq<Group>, keyword: string): (sc: seq<int>)
    ensures |sc| == |groups| && forall i :: 0 <= i < |groups| ==> sc[i] == SeqScore(groups[i].key, |groups[i].frames|, keyword)
  {
    seq(|groups|, i requires 0 <= i < |groups| => SeqScore(groups[i].key, |groups[i].frames|, keyword))
  }

  /** A kept group scoring at least as high as every other kept group is a
      best sequence. */
  lemma MaxIsBestSequence(ts: seq<Tagged>, keyword: string, groups: seq<Group>, eligible: seq<bool>, score: seq<int>, bi: nat)
    requires bi < |groups| == |eligible| == |score|
    requires forall i :: 0 <= i < |groups| ==> GoodGroup(groups[i], ts)
    requires forall k :: k in KeyOrder(ts) && |Members(ts, k)| >= 2 ==> k in GroupKeys(groups)
    requires IsSubseq(GroupKeys(groups), KeyOrder(ts))
    requires forall j :: 0 <= j < |groups| ==> eligible[j] && score[j] == SeqScore(groups[j].key, |groups[j].frames|, keyword)
    requires forall j :: 0 <= j < |score| && eligible[j] ==> score[j] <= score[bi]
    ensures BestSequence(ts, keyword, groups[bi])
  {
    var g := groups[bi];
    SubseqMembers(GroupKeys(groups), KeyOrder(ts));
    assert GroupKeys(groups)[bi] == g.key;
    forall k | k in KeyOrder(ts) && |Members(ts, k)| >= 2
      ensures SeqScore(k, |Members(ts, k)|, keyword) <= SeqScore(g.key, |g.frames|, keyword)
    {
      var j :| 0 <= j < |groups| && GroupKeys(groups)[j] == k;
      GoodGroupSize(groups[j], ts);
      assert score[j] <= score[bi];
    }
  }

  /** A kept group holds as many frames as its key has members. */
  lemma GoodGroupSize(g: Group, ts: seq<Tagged>)
    requires GoodGroup(g, ts)
    ensures |g.frames| == |Members(ts, g.key)|
  {
    assert |g.frames| == |multiset(g.frames)| == |multiset(Members(ts, g.key))|;
  }

  /** The first top-scoring kept group, in the order of the long keys, has
      no equal-scoring key before it. */
  lemma FirstMaxIsFirstBest(ts: seq<Tagged>, keyword: string, groups: seq<Group>, eligible: seq<bool>, score: seq<int>, bi: nat)
    requires bi < |groups| == |eligible| == |score|
    requires forall i :: 0 <= i < |groups| ==> GoodGroup(groups[i], ts)
    requires GroupKeys(groups) == LongKeys(ts, KeyOrder(ts))
    requires forall j :: 0 <= j < |groups| ==> eligible[j] && score[j] == SeqScore(groups[j].key, |groups[j].frames|, keyword)
    requires forall j :: 0 <= j < bi && eligible[j] ==> score[j] < score[bi]
    ensures FirstBest(ts, keyword, groups[bi].key)
  {
    var ks := LongKeys(ts, KeyOrder(ts));
    var key := groups[bi].key;
    LongKeysExactly(ts, KeyOrder(ts));
    assert ks[bi] == key;
    GoodGroupSize(groups[bi], ts);
    forall i, j | 0 <= i < j < |ks| && ks[j] == key
      ensures SeqScore(ks[i], |Members(ts, ks[i])|, keyword) < SeqScore(key, |Members(ts, key)|, keyword)
    {
      assert j == bi;
      assert ks[i] == groups[i].key;
      GoodGroupSize(groups[i], ts);
      assert score[i] < score[bi];
    }
  }

  /** Every entry of a subsequence is an entry of the longer list. */
  lemma {:induction false} SubseqMembers(a: seq<string>, b: seq<string>)
    requires IsSubseq(a, b)
    ensures forall x :: x in a ==> x in b
    decreases |b|
  {
    if a != [] {
      var b1 := b[..|b| - 1];
      if a[|a| - 1] == b[|b| - 1] {
        SubseqMembers(a[..|a| - 1], b1);
        assert a == a[..|a| - 1] + [a[|a| - 1]];
      } else {
        SubseqMembers(a, b1);
      }
    }
  }
}

=== FILE: standalone.dfy ===
/** The standalone messaging pet widget (DeskPets_repo/setup.py
    `PetWidget`): the PNG frame ticker, the walk step with its speech-bubble
    expiry, and the inbox check with the text it says. old/pet_demo.py
    carries the same inbox check, which this module models once. Qt
    painting, menus and timers are outside the model. */
module Standalone {
  import opened Base
  import Text
  import Messaging
  import Walk

  // ---------------------------------------------------------------------
  // PNG frames

  /** `_tick_png`: the next frame index, or no change without frames. */
  function TickPng(frameCount: nat, index: nat): (i: nat)
    ensures frameCount == 0 ==> i == index
    ensures frameCount > 0 ==> i < frameCount
    ensures frameCount > 0 && index + 1 < frameCount ==> i == index + 1
    ensures frameCount > 0 && index + 1 == frameCount ==> i == 0
  {
    if frameCount == 0 then index else (index + 1) % frameCount
  }

  /** `k` ticks in a row. */
  function TickPngRun(frameCount: nat, index: nat, k: nat): nat
    decreases k
  {
    if k == 0 then index else TickPngRun(frameCount, TickPng(frameCount, index), k - 1)
  }

  /** The animation loops: after as many ticks as there are frames the
      index is back where it started. */
  lemma {:induction false} TickPngPeriod(frameCount: nat, index: nat)
    requires 0 < frameCount && index < frameCount
    ensures TickPngRun(frameCount, index, frameCount) == index
  {
    TickPngAdvance(frameCount, index, frameCount);
    ModAddN(frameCount, index);
    DivModUnique(index, frameCount, 0, index);
  }

  lemma {:induction false} TickPngAdvance(frameCount: nat, index: nat, k: nat)
    requires 0 < frameCount && index < frameCount
    ensures TickPngRun(frameCount, index, k) == (index + k) % frameCount
    decreases k
  {
    if k == 0 {
      DivModUnique(index, frameCount, 0, index);
    } else {
      TickPngAdvance(frameCount, TickPng(frameCount, index), k - 1);
      ModStep(frameCount, index, k);
    }
  }

  // ---------------------------------------------------------------------
  // Walking

  /** The widget state the walk touches: position and velocity, the drag
      flag, and the speech bubble with its expiry time. */
  datatype Widget = Widget(mover: Walk.Mover, dragging: bool, speech: Option<string>, speechUntil: real)

  /** The speed limit of `_walk_step`. */
  const MaxSpeed: real := 2.0

  /** A speech text that is shown: Python treats "" as absent. */
  predicate Speaking(w: Widget) {
    w.speech.Some? && w.speech.value != ""
  }

  /** `_walk_step`: nothing while dragging or without a screen; otherwise
      one bounded walk step, then the bubble is dropped once `now` is past
      its expiry time. */
  function WalkStep(w: Widget, screen: Option<Walk.Geo>, winWidth: int, winHeight: int,
                    driftX: real, driftY: real, now: real): (r: Widget)
    ensures w.dragging || screen.None? ==> r == w
    ensures r.dragging == w.dragging && r.speechUntil == w.speechUntil
    ensures !w.dragging && screen.Some? ==>
              r.mover == Walk.Step(w.mover, screen.value, winWidth, winHeight, MaxSpeed, driftX, driftY)
    ensures !w.dragging && screen.Some? ==> Abs(r.mover.vx) <= MaxSpeed && Abs(r.mover.vy) <= MaxSpeed
    ensures !w.dragging && screen.Some? ==>
              (r.speech.None? <==> w.speech.None? || (Speaking(w) && now > w.speechUntil))
    ensures r.speech.Some? ==> r.speech == w.speech
  {
    if w.dragging || screen.None? then w
    else
      var m := Walk.Step(w.mover, screen.value, winWidth, winHeight, MaxSpeed, driftX, driftY);
      var speech := if Speaking(w) && now > w.speechUntil then None else w.speech;
      w.(mover := m, speech := speech)
  }

  /** `_say`: the bubble shows `text` until `seconds` from now. */
  function Say(w: Widget, text: string, seconds: real, now: real): (r: Widget)
    ensures r.speech == Some(text) && r.speechUntil == now + seconds
    ensures r.mover == w.mover && r.dragging == w.dragging
  {
    w.(speech := Some(text), speechUntil := now + seconds)
  }

  /** A bubble said with a positive duration survives every walk step up
      to its expiry time. */
  lemma SpeechLastsItsTime(w: Widget, text: string, seconds: real, now: real, g: Walk.Geo,
                           winWidth: int, winHeight: int, driftX: real, driftY: real, later: real)
    requires later <= now + seconds
    ensures WalkStep(Say(w, text, seconds, now), Some(g), winWidth, winHeight, driftX, driftY, later).speech == Some(text)
  {
  }

  // ---------------------------------------------------------------------
  // The inbox check

  /** What the widget says: nothing, or a text for some seconds. */
  datatype Speech = Quiet | Said(text: string, seconds: real)

  const NoteSeparator: string := "\n\n---\n\n"

  /** Python's `str()` of a JSON value as an f-string shows it; numbers and
      containers are rendered by `show`. */
  function Display(v: Messaging.Value, show: Messaging.Value -> string): string {
    match v
    case Str(s) => s
    case Null => "None"
    case Bool(b) => if b then "True" else "False"
    case _ => show(v)
  }

  /** `r.get("sender", "?")` as displayed. */
  function Sender(r: Messaging.Row, show: Messaging.Value -> string): string {
    if "sender" in r then Display(r["sender"], show) else "?"
  }

  /** `f"From {sender}:\n{text}"` for one delivered row. */
  function Note(r: Messaging.Row, show: Messaging.Value -> string): (n: string)
    ensures Text.IsPrefix("From ", n)
  {
    var text := match Messaging.TextOf(r) case Ok(t) => t case Err(_) => "";
    "From " + Sender(r, show) + ":\n" + text
  }

  /** The notes of the fetched rows, in order. */
  function Notes(rows: seq<Messaging.Row>, show: Messaging.Value -> string): (ns: seq<string>)
    ensures |ns| == |rows|
    ensures forall i :: 0 <= i < |rows| ==> ns[i] == Note(rows[i], show)
  {
    seq(|rows|, i requires 0 <= i < |rows| => Note(rows[i], show))
  }

  /** The speech that ends `check_inbox` on a non-empty inbox whose fetched
      rows are `pending`. */
  function Reply(pending: seq<Messaging.Row>, force: bool, show: Messaging.Value -> string): (s: Speech)
    ensures pending != [] ==> s.Said? && s.seconds == 12.0 && Text.IsPrefix("From ", s.text)
    ensures pending == [] ==> (s.Said? <==> force)
    ensures pending == [] && force ==> s == Said("No new messages.", 2.0)
  {
    if pending != [] then Said(Text.JoinWith(Notes(pending, show), NoteSeparator), 12.0)
    else if force then Said("No new messages.", 2.0)
    else Quiet
  }

  /** The outcome of a check that got through every row. */
  datatype Checked = Checked(rows: seq<Messaging.Doc>, written: bool, speech: Speech)

  /** `check_inbox` (also old/pet_demo.py): "Inbox empty." for an empty or
      missing inbox when asked; otherwise every undelivered row is marked
      delivered and the file rewritten when something changed, and the
      non-empty messages are said together. A row that raises ends the
      check before anything is written. `now` stands for the clock. */
  method CheckInbox(inbox: seq<Messaging.Doc>, now: real, force: bool, show: Messaging.Value -> string)
    returns (r: Result<Checked, Messaging.FetchError>)
    ensures inbox == [] ==> r == Ok(Checked([], false, if force then Said("Inbox empty.", 2.0) else Quiet))
    ensures r.Err? <==> exists i :: 0 <= i < |inbox| && Messaging.Faulty(inbox[i])
    ensures r.Ok? ==> r.value.rows == Messaging.MarkAll(inbox, now)
    ensures r.Ok? ==> (r.value.written <==> exists i :: 0 <= i < |inbox| && inbox[i].Object? && !Messaging.Delivered(inbox[i].row))
    ensures r.Ok? && inbox != [] ==> r.value.speech == Reply(Messaging.Pending(inbox, now), force, show)
  {
    if inbox == [] {
      return Ok(Checked([], false, if force then Said("Inbox empty.", 2.0) else Quiet));
    }
    var f := Messaging.FetchUndelivered(inbox, now);
    if f.Err? {
      return Err(f.error);
    }
    return Ok(Checked(f.value.rows, f.value.changed, Reply(f.value.out, force, show)));
  }

  /** Checking the rewritten inbox again finds nothing new: it writes
      nothing and says "No new messages." only when asked. */
  lemma SecondCheckIsQuiet(inbox: seq<Messaging.Doc>, now: real, later: real, force: bool, show: Messaging.Value -> string)
    ensures Reply(Messaging.Pending(Messaging.MarkAll(inbox, now), later), force, show)
            == (if force then Said("No new messages.", 2.0) else Quiet)
    ensures !exists i :: 0 <= i < |inbox| && Messaging.MarkAll(inbox, now)[i].Object? && !Messaging.Delivered(Messaging.MarkAll(inbox, now)[i].row)
  {
    Messaging.NothingPendingAfterFetch(inbox, now, later);
  }
}

=== FILE: text.dfy ===
/** Python string operations the pet programs rely on, over `seq<char>`:
    `str.strip()`, `str.lower()`, the substring test `a in b`,
    `str.endswith`, `str.split(sep)` / `sep.join(parts)`, the regular
    expression `\d+$` removal, and `<=` on strings. */
module Text {

  /** The characters `str.isspace()` accepts, so the ones `str.strip()` removes. */
  predicate IsSpace(c: char) {
    || ('\t' <= c <= '\r')
    || ('\U{1c}' <= c <= ' ')
    || c == '\U{85}' || c == '\U{a0}' || c == '\U{1680}'
    || ('\U{2000}' <= c <= '\U{200a}')
    || c == '\U{2028}' || c == '\U{2029}' || c == '\U{202f}' || c == '\U{205f}' || c == '\U{3000}'
  }

  predicate AllSpace(s: string) {
    forall i :: 0 <= i < |s| ==> IsSpace(s[i])
  }

  /** The end of the run of whitespace that starts at `i`. */
  function SkipSpace(s: string, i: nat): (j: nat)
    requires i <= |s|
    ensures i <= j <= |s|
    ensures forall k :: i <= k < j ==> IsSpace(s[k])
    ensures j == |s| || !IsSpace(s[j])
    decreases |s| - i
  {
    if i < |s| && IsSpace(s[i]) then SkipSpace(s, i + 1) else i
  }

  /** The start of the run of whitespace that ends at `j`, not going below
      `lo`. */
  function BackSpace(s: string, lo: nat, j: nat): (k: nat)
    requires lo <= j <= |s|
    ensures lo <= k <= j
    ensures forall m :: k <= m < j ==> IsSpace(s[m])
    ensures k == lo || !IsSpace(s[k - 1])
    decreases j
  {
    if j > lo && IsSpace(s[j - 1]) then BackSpace(s, lo, j - 1) else j
  }

  /** `s.strip()`: the slice of `s` left after removing leading and trailing
      whitespace. */
  function Strip(s: string): (r: string)
    ensures exists i, j :: 0 <= i <= j <= |s| && r == s[i..j]
    ensures r == [] || (!IsSpace(r[0]) && !IsSpace(r[|r| - 1]))
    ensures r == [] <==> AllSpace(s)
  {
    var i := SkipSpace(s, 0);
    var j := BackSpace(s, i, |s|);
    assert i < j ==> !IsSpace(s[i]);
    s[i..j]
  }

  /** A non-empty text with no whitespace at either end. */
  predicate Clean(s: string) {
    s != [] && !IsSpace(s[0]) && !IsSpace(s[|s| - 1])
  }

  /** Stripping a clean text leaves it as it is. */
  lemma StripClean(s: string)
    requires Clean(s)
    ensures Strip(s) == s
  {
    assert SkipSpace(s, 0) == 0;
    assert BackSpace(s, 0, |s|) == |s|;
    assert s[0..|s|] == s;
  }

  /** Stripping twice strips no more than once. */
  lemma StripIdempotent(s: string)
    ensures Strip(Strip(s)) == Strip(s)
  {
    if Strip(s) != [] {
      StripClean(Strip(s));
    }
  }

  function LowerChar(c: char): char {
    if 'A' <= c <= 'Z' then (c as int + 32) as char else c
  }

  /** `s.lower()` on the ASCII letters. */
  function Lower(s: string): (r: string)
    ensures |r| == |s|
    ensures forall i :: 0 <= i < |s| ==> r[i] == LowerChar(s[i])
  {
    if s == [] then [] else [LowerChar(s[0])] + Lower(s[1..])
  }

  predicate IsPrefix(p: string, s: string) {
    |p| <= |s| && s[..|p|] == p
  }

  /** The substring test `needle in hay`. */
  predicate Contains(needle: string, hay: string)
    decreases |hay|
  {
    IsPrefix(needle, hay) || (|hay| > 0 && Contains(needle, hay[1..]))
  }

  lemma {:induction false} ContainsAt(needle: string, hay: string, i: nat)
    requires i + |needle| <= |hay| && hay[i..i + |needle|] == needle
    ensures Contains(needle, hay)
    decreases i
  {
    if i > 0 {
      assert hay[1..][i - 1..i - 1 + |needle|] == hay[i..i + |needle|];
      ContainsAt(needle, hay[1..], i - 1);
    }
  }

  lemma {:induction false} ContainsFound(needle: string, hay: string) returns (i: nat)
    requires Contains(needle, hay)
    ensures i + |needle| <= |hay| && hay[i..i + |needle|] == needle
    decreases |hay|
  {
    if IsPrefix(needle, hay) {
      i := 0;
    } else {
      var j := ContainsFound(needle, hay[1..]);
      i := j + 1;
      assert hay[1..][j..j + |needle|] == hay[i..i + |needle|];
    }
  }

  lemma ContainsLength(needle: string, hay: string)
    requires Contains(needle, hay)
    ensures |needle| <= |hay|
  {
    var i := ContainsFound(needle, hay);
  }

  predicate EndsWith(s: string, suffix: string) {
    |suffix| <= |s| && s[|s| - |suffix|..] == suffix
  }

  /** `sep.join(parts)`. */
  function Join(parts: seq<string>, sep: char): (r: string)
    ensures |parts| == 1 ==> r == parts[0]
  {
    if |parts| == 0 then ""
    else if |parts| == 1 then parts[0]
    else parts[0] + [sep] + Join(parts[1..], sep)
  }

  /** `sep.join(parts)` for a separator of any length. */
  function JoinWith(parts: seq<string>, sep: string): (r: string)
    ensures |parts| == 0 ==> r == ""
    ensures |parts| == 1 ==> r == parts[0]
    ensures |parts| > 0 ==> IsPrefix(parts[0], r)
  {
    if |parts| == 0 then ""
    else if |parts| == 1 then parts[0]
    else parts[0] + sep + JoinWith(parts[1..], sep)
  }

  /** `s.split(sep)` for a one-character separator. */
  function Split(s: string, sep: char): (parts: seq<string>)
    ensures |parts| >= 1
    ensures forall k, i :: 0 <= k < |parts| && 0 <= i < |parts[k]| ==> parts[k][i] != sep
    decreases |s|
  {
    if |s| == 0 then [""]
    else
      var rest := Split(s[1..], sep);
      if s[0] == sep then [""] + rest
      else [[s[0]] + rest[0]] + rest[1..]
  }

  /** Splitting and re-joining gives back the original string. */
  lemma {:induction false} JoinSplit(s: string, sep: char)
    ensures Join(Split(s, sep), sep) == s
    decreases |s|
  {
    if |s| > 0 {
      var rest := Split(s[1..], sep);
      JoinSplit(s[1..], sep);
      if s[0] == sep {
        assert Split(s, sep) == [""] + rest;
        assert Join([""] + rest, sep) == "" + [sep] + Join(rest, sep);
      } else {
        var parts := Split(s, sep);
        assert parts == [[s[0]] + rest[0]] + rest[1..];
        if |rest| == 1 {
          assert parts == [[s[0]] + rest[0]];
        } else {
          assert parts[1..] == rest[1..];
          assert Join(rest, sep) == rest[0] + [sep] + Join(rest[1..], sep);
        }
      }
    }
  }

  /** The number of separators determines the number of parts. */
  function CountChar(s: string, c: char): (n: nat)
    ensures n <= |s|
  {
    if s == [] then 0 else (if s[0] == c then 1 else 0) + CountChar(s[1..], c)
  }

  lemma {:induction false} SplitCount(s: string, sep: char)
    ensures |Split(s, sep)| == CountChar(s, sep) + 1
    decreases |s|
  {
    if |s| > 0 {
      SplitCount(s[1..], sep);
    }
  }

  predicate IsDigit(c: char) {
    '0' <= c <= '9'
  }

  /** `re.sub(r"\d+$", "", s)`: drop the maximal run of trailing digits. */
  function StripTrailingDigits(s: string): (r: string)
    ensures |r| <= |s| && r == s[..|r|]
    ensures forall i :: |r| <= i < |s| ==> IsDigit(s[i])
    ensures r == [] || !IsDigit(r[|r| - 1])
  {
    if |s| > 0 && IsDigit(s[|s| - 1]) then StripTrailingDigits(s[..|s| - 1]) else s
  }

  /** Python's `a <= b` on strings: lexicographic by code point. */
  predicate LessEq(a: string, b: string)
    decreases |a|
  {
    a == [] || (b != [] && (a[0] < b[0] || (a[0] == b[0] && LessEq(a[1..], b[1..]))))
  }

  lemma {:induction false} LessEqTotal(a: string, b: string)
    ensures LessEq(a, b) || LessEq(b, a)
    decreases |a|
  {
    if a != [] && b != [] && a[0] == b[0] {
      LessEqTotal(a[1..], b[1..]);
    }
  }

  lemma {:induction false} LessEqReflexive(a: string)
    ensures LessEq(a, a)
    decreases |a|
  {
    if a != [] {
      LessEqReflexive(a[1..]);
    }
  }

  lemma {:induction false} LessEqTransitive(a: string, b: string, c: string)
    requires LessEq(a, b) && LessEq(b, c)
    ensures LessEq(a, c)
    decreases |a|
  {
    if a != [] && a[0] == b[0] && b[0] == c[0] {
      LessEqTransitive(a[1..], b[1..], c[1..]);
    }
  }
}

=== FILE: walk.dfy ===
/** The bounce-within-margin walk shared by the two standalone widgets
    (DeskPets_repo/setup.py `_walk_step` and old/pet_demo.py `_tick`): the
    velocity is nudged by a drift, clamped to a maximum speed, the window
    moves by it, and an axis that leaves the screen inset by 10 pixels is
    reversed and pulled back inside. The drift, a function of the wall
    clock, is a parameter. */
module Walk {
  import opened Base

  const Margin: int := 10

  /** A screen's available geometry. */
  datatype Geo = Geo(x: int, y: int, width: int, height: int)

  /** The window's integer position and its real velocity. */
  datatype Mover = Mover(x: int, y: int, vx: real, vy: real)

  /** The inset rectangle the window's top-left corner must stay in. */
  function Left(g: Geo): int { g.x + Margin }
  function Top(g: Geo): int { g.y + Margin }
  function Right(g: Geo, winWidth: int): int { g.x + g.width - winWidth - Margin }
  function Bottom(g: Geo, winHeight: int): int { g.y + g.height - winHeight - Margin }

  /** One axis of the margin bounce: a position outside `[lo, hi]` reverses
      the velocity and becomes `max(min(p, hi), lo)`. */
  function BounceAxis(p: real, v: real, lo: int, hi: int): (r: (real, real))
    ensures Abs(r.1) == Abs(v)
    ensures lo <= hi ==> lo as real <= r.0 <= hi as real
    ensures lo as real <= p <= hi as real ==> r == (p, v)
    ensures lo <= hi && p < lo as real ==> r == (lo as real, -v)
    ensures lo <= hi && p > hi as real ==> r == (hi as real, -v)
    ensures hi < lo ==> r == (lo as real, -v)
  {
    if p < lo as real || p > hi as real then (ClampLowLast(p, lo as real, hi as real), -v)
    else (p, v)
  }

  /** A bounced position bounces no further: the bounce is idempotent. */
  lemma BounceIdempotent(p: real, v: real, lo: int, hi: int)
    requires lo <= hi
    ensures var (p1, v1) := BounceAxis(p, v, lo, hi);
            BounceAxis(p1, v1, lo, hi) == (p1, v1)
  {
  }

  /** The speed limit `max(min(v, maxV), -maxV)`. */
  function ClampSpeed(v: real, maxV: real): (c: real)
    ensures maxV >= 0.0 ==> Abs(c) <= maxV
    ensures maxV >= 0.0 && Abs(v) <= maxV ==> c == v
    ensures maxV < 0.0 ==> c == -maxV
  {
    ClampLowLast(v, -maxV, maxV)
  }

  /** One walk step on a known screen: drift, speed limit, move, bounce, and
      `move(int(nx), int(ny))`. */
  function Step(m: Mover, g: Geo, winWidth: int, winHeight: int, maxV: real, driftX: real, driftY: real): (r: Mover)
    ensures Left(g) <= Right(g, winWidth) ==> Left(g) <= r.x <= Right(g, winWidth)
    ensures Top(g) <= Bottom(g, winHeight) ==> Top(g) <= r.y <= Bottom(g, winHeight)
    ensures maxV >= 0.0 ==> Abs(r.vx) <= maxV && Abs(r.vy) <= maxV
    ensures r.vx == ClampSpeed(m.vx + driftX, maxV) || r.vx == -ClampSpeed(m.vx + driftX, maxV)
    ensures r.vy == ClampSpeed(m.vy + driftY, maxV) || r.vy == -ClampSpeed(m.vy + driftY, maxV)
    ensures var nx := m.x as real + ClampSpeed(m.vx + driftX, maxV);
            Left(g) as real <= nx <= Right(g, winWidth) as real ==> r.x == Trunc(nx)
    ensures var ny := m.y as real + ClampSpeed(m.vy + driftY, maxV);
            Top(g) as real <= ny <= Bottom(g, winHeight) as real ==> r.y == Trunc(ny) && r.vy == ClampSpeed(m.vy + driftY, maxV)
  {
    var vx := ClampSpeed(m.vx + driftX, maxV);
    var vy := ClampSpeed(m.vy + driftY, maxV);
    var (nx, vx1) := BounceAxis(m.x as real + vx, vx, Left(g), Right(g, winWidth));
    var (ny, vy1) := BounceAxis(m.y as real + vy, vy, Top(g), Bottom(g, winHeight));
    TruncBetween(nx, Left(g), Right(g, winWidth));
    TruncBetween(ny, Top(g), Bottom(g, winHeight));
    Mover(Trunc(nx), Trunc(ny), vx1, vy1)
  }

  /** A step that stays inside the inset keeps its velocity: only an edge
      reverses it. */
  lemma InsideKeepsHeading(m: Mover, g: Geo, winWidth: int, winHeight: int, maxV: real, driftX: real, driftY: real)
    requires var vx := ClampSpeed(m.vx + driftX, maxV);
             Left(g) as real <= m.x as real + vx <= Right(g, winWidth) as real
    ensures Step(m, g, winWidth, winHeight, maxV, driftX, driftY).vx == ClampSpeed(m.vx + driftX, maxV)
  {
  }

  /** A step that leaves the inset on the left or right reverses the
      horizontal velocity and lands on that edge's column. */
  lemma EdgeReverses(m: Mover, g: Geo, winWidth: int, winHeight: int, maxV: real, driftX: real, driftY: real)
    requires Left(g) <= Right(g, winWidth)
    requires var vx := ClampSpeed(m.vx + driftX, maxV);
             m.x as real + vx < Left(g) as real || m.x as real + vx > Right(g, winWidth) as real
    ensures var r := Step(m, g, winWidth, winHeight, maxV, driftX, driftY);
            && r.vx == -ClampSpeed(m.vx + driftX, maxV)
            && (r.x == Left(g) || r.x == Right(g, winWidth))
  {
  }
}

=== FILE: window.dfy ===
/** The main window's messaging bubble and per-frame bookkeeping
    (DeskPets_repo/window.py): composing the bubble text from fetched
    messages, anchoring the bubble beside the first pet, noticing when the
    fullscreen flag flips, and closing a pet's native window. The tray,
    the bubble widget and the WinAPI calls are outside the model. */
module Window {
  import opened Base
  import Text
  import Messaging
  import Standalone
  import Pet

  const MaxNotes: nat := 5
  const BubbleCap: nat := 800
  const Ellipsis: string := "\n...\n"
  const NotConfigured: string := "Messaging not configured.\nRun with --me --partner --shared."

  // ---------------------------------------------------------------------
  // Bubble text

  /** A message the bubble shows: its stripped text is non-empty. */
  predicate HasText(r: Messaging.Row) {
    Messaging.TextOf(r).Ok? && Messaging.TextOf(r).value != ""
  }

  /** Each message's note when it has text. */
  function Candidates(msgs: seq<Messaging.Row>, show: Messaging.Value -> string): (c: seq<Option<string>>)
    ensures |c| == |msgs|
    ensures forall i :: 0 <= i < |msgs| ==> (c[i].Some? <==> HasText(msgs[i]))
    ensures forall i :: 0 <= i < |msgs| && c[i].Some? ==> c[i].value == Standalone.Note(msgs[i], show)
    ensures forall i :: 0 <= i < |msgs| && c[i].Some? ==> Text.IsPrefix("From ", c[i].value)
  {
    seq(|msgs|, i requires 0 <= i < |msgs| => if HasText(msgs[i]) then Some(Standalone.Note(msgs[i], show)) else None)
  }

  /** The present values, in order. */
  function Somes(c: seq<Option<string>>): (r: seq<string>)
    ensures |r| <= |c|
    ensures (forall i :: 0 <= i < |c| ==> c[i].None?) <==> r == []
    ensures c != [] && c[0].Some? ==> r != [] && r[0] == c[0].value
    ensures forall s :: s in r ==> Some(s) in c
  {
    if c == [] then []
    else
      var rest := Somes(c[1..]);
      assert forall i :: 1 <= i < |c| ==> c[i] == c[1..][i - 1];
      if c[0].Some? then [c[0].value] + rest else rest
  }

  /** `text[:800] + "\n...\n"` for a text over 800 characters. */
  function Cap(text: string): (r: string)
    ensures |text| <= BubbleCap ==> r == text
    ensures |text| > BubbleCap ==> |r| == BubbleCap + |Ellipsis| && r[..BubbleCap] == text[..BubbleCap]
    ensures |r| <= BubbleCap + |Ellipsis|
  {
    if |text| > BubbleCap then text[..BubbleCap] + Ellipsis else text
  }

  /** Capping a capped text changes nothing. */
  lemma CapIdempotent(text: string)
    ensures Cap(Cap(text)) == Cap(text)
  {
    if |text| > BubbleCap {
      assert Cap(text)[..BubbleCap] == text[..BubbleCap];
    }
  }

  /** A prefix of a prefix is a prefix. */
  lemma PrefixTransitive(a: string, b: string, c: string)
    requires Text.IsPrefix(a, b) && Text.IsPrefix(b, c)
    ensures Text.IsPrefix(a, c)
  {
    assert c[..|a|] == c[..|b|][..|a|];
  }

  /** The cap keeps whatever the text begins with, up to 800 characters. */
  lemma CapKeepsPrefix(p: string, text: string)
    requires Text.IsPrefix(p, text)
    ensures Text.IsPrefix(p[..IntMin(|p|, BubbleCap)], Cap(text))
  {
    var n := IntMin(|p|, BubbleCap);
    var r := Cap(text);
    if |text| > BubbleCap {
      assert r[..n] == r[..BubbleCap][..n];
      assert text[..BubbleCap][..n] == text[..n] == text[..|p|][..n];
    } else {
      assert r[..n] == text[..|p|][..n];
    }
  }

  /** The notes of those of the first five messages that have text, in
      order. */
  function FirstNotes(msgs: seq<Messaging.Row>, show: Messaging.Value -> string): (cs: seq<string>)
    ensures cs == [] <==> forall i :: 0 <= i < IntMin(MaxNotes, |msgs|) ==> !HasText(msgs[i])
    ensures forall j :: 0 <= j < |cs| ==> Text.IsPrefix("From ", cs[j])
    ensures |msgs| > 0 && HasText(msgs[0]) ==> cs != [] && cs[0] == Standalone.Note(msgs[0], show)
    ensures |cs| <= MaxNotes
  {
    var m := IntMin(MaxNotes, |msgs|);
    var first := msgs[..m];
    assert forall i :: 0 <= i < m ==> first[i] == msgs[i];
    var c := Candidates(first, show);
    var cs := Somes(c);
    assert forall j :: 0 <= j < |cs| ==> Text.IsPrefix("From ", cs[j]) by {
      forall j | 0 <= j < |cs|
        ensures Text.IsPrefix("From ", cs[j])
      {
        assert cs[j] in cs;
        var i :| 0 <= i < |c| && c[i] == Some(cs[j]);
      }
    }
    cs
  }

  /** The notes of the messages that have text, in order: the reference
      for the bubble's chunks. */
  function NotesOf(msgs: seq<Messaging.Row>, show: Messaging.Value -> string): (ns: seq<string>)
    ensures |ns| <= |msgs|
    decreases |msgs|
  {
    if msgs == [] then []
    else (if HasText(msgs[0]) then [Standalone.Note(msgs[0], show)] else []) + NotesOf(msgs[1..], show)
  }

  /** Keeping the present candidates keeps exactly the notes of the
      messages with text. */
  lemma {:induction false} SomesAreNotes(msgs: seq<Messaging.Row>, show: Messaging.Value -> string)
    ensures Somes(Candidates(msgs, show)) == NotesOf(msgs, show)
    decreases |msgs|
  {
    if msgs != [] {
      SomesAreNotes(msgs[1..], show);
      assert Candidates(msgs, show)[1..] == Candidates(msgs[1..], show);
    }
  }

  /** The bubble for the fetched messages: the notes of those of the first
      five with text, separated by a rule and capped; None when none has
      text. */
  function BubbleText(msgs: seq<Messaging.Row>, show: Messaging.Value -> string): (b: Option<string>)
    ensures b.None? <==> forall i :: 0 <= i < IntMin(MaxNotes, |msgs|) ==> !HasText(msgs[i])
    ensures b.Some? ==> |b.value| <= BubbleCap + |Ellipsis| && Text.IsPrefix("From ", b.value)
    ensures b.Some? && |msgs| > 0 && HasText(msgs[0]) ==>
              var note := Standalone.Note(msgs[0], show);
              Text.IsPrefix(note[..IntMin(|note|, BubbleCap)], b.value)
  {
    var cs := FirstNotes(msgs, show);
    if cs == [] then None
    else
      var joined := Text.JoinWith(cs, Standalone.NoteSeparator);
      PrefixTransitive("From ", cs[0], joined);
      CapKeepsPrefix("From ", joined);
      CapKeepsPrefix(cs[0], joined);
      Some(Cap(joined))
  }

  /** The bubble text exactly: the notes of those of the first five
      messages that have text, joined by the rule, and cut to 800
      characters followed by an ellipsis line when the join is longer. */
  lemma BubbleJoinsNotes(msgs: seq<Messaging.Row>, show: Messaging.Value -> string)
    ensures var notes := NotesOf(msgs[..IntMin(MaxNotes, |msgs|)], show);
            var joined := Text.JoinWith(notes, Standalone.NoteSeparator);
            && (notes == [] ==> BubbleText(msgs, show) == None)
            && (notes != [] && |joined| <= BubbleCap ==> BubbleText(msgs, show) == Some(joined))
            && (notes != [] && |joined| > BubbleCap ==> BubbleText(msgs, show) == Some(joined[..BubbleCap] + Ellipsis))
  {
    SomesAreNotes(msgs[..IntMin(MaxNotes, |msgs|)], show);
  }

  /** A fetched row keeps its text: marking it delivered does not touch
      the text field. */
  lemma MarkKeepsText(r: Messaging.Row, now: real)
    ensures Messaging.TextOf(Messaging.Mark(r, now)) == Messaging.TextOf(r)
  {
    var m := Messaging.Mark(r, now);
    assert ("text" in m) == ("text" in r);
  }

  /** Every message a fetch returns has text. */
  lemma {:induction false} PendingHasText(rows: seq<Messaging.Doc>, now: real)
    ensures forall i :: 0 <= i < |Messaging.Pending(rows, now)| ==> HasText(Messaging.Pending(rows, now)[i])
    decreases |rows|
  {
    if rows != [] {
      var init := rows[..|rows| - 1];
      var last := rows[|rows| - 1];
      PendingHasText(init, now);
      if Messaging.Wanted(last) {
        MarkKeepsText(last.row, now);
      }
    }
  }

  /** So a non-empty fetch always yields a bubble: the source's "no chunk
      has text" return cannot happen after a fetch. */
  lemma FetchedMessagesShow(rows: seq<Messaging.Doc>, now: real, show: Messaging.Value -> string)
    requires Messaging.Pending(rows, now) != []
    ensures BubbleText(Messaging.Pending(rows, now), show).Some?
  {
    PendingHasText(rows, now);
  }

  // ---------------------------------------------------------------------
  // Anchoring

  /** `_first_pet`. */
  function FirstPet(pets: seq<Pet.Pet>): (p: Option<Pet.Pet>)
    ensures p.None? <==> pets == []
    ensures p.Some? ==> p.value == pets[0] && p.value in pets
  {
    if pets == [] then None else Some(pets[0])
  }

  /** The bubble's anchor beside a pet: 10 pixels right of its right edge
      and 10 pixels above it. */
  function Anchor(p: Pet.Pet): (a: (int, int))
    ensures p.body.pos.x + p.width as real + 10.0 >= 0.0 ==> a.0 as real <= p.body.pos.x + p.width as real + 10.0 < a.0 as real + 1.0
    ensures p.body.pos.y - 10.0 >= 0.0 ==> a.1 as real <= p.body.pos.y - 10.0 < a.1 as real + 1.0
  {
    (Trunc(p.body.pos.x + p.width as real + 10.0), Trunc(p.body.pos.y - 10.0))
  }

  /** The anchor follows the pet: moving a pet that sits at least 10 pixels
      below the top of the screen by whole pixels moves the anchor by the
      same amounts. */
  lemma AnchorFollowsPet(p: Pet.Pet, dx: int, dy: int)
    requires p.body.pos.x >= 0.0 && p.body.pos.y >= 10.0
    requires p.body.pos.x + dx as real >= 0.0 && p.body.pos.y + dy as real >= 10.0
    ensures var q := p.(body := p.body.(pos := Vec(p.body.pos.x + dx as real, p.body.pos.y + dy as real)));
            Anchor(q) == (Anchor(p).0 + dx, Anchor(p).1 + dy)
  {
    var q := p.(body := p.body.(pos := Vec(p.body.pos.x + dx as real, p.body.pos.y + dy as real)));
    FloorShift(p.body.pos.x + p.width as real + 10.0, dx);
    FloorShift(p.body.pos.y - 10.0, dy);
    assert q.body.pos.x + q.width as real + 10.0 == (p.body.pos.x + p.width as real + 10.0) + dx as real;
    assert q.body.pos.y - 10.0 == (p.body.pos.y - 10.0) + dy as real;
  }

  /** Truncating a non-negative value shifted by a whole number, staying
      non-negative, shifts the truncation by that number. */
  lemma FloorShift(r: real, k: int)
    requires r >= 0.0 && r + k as real >= 0.0
    ensures Trunc(r + k as real) == Trunc(r) + k
  {
  }

  /** `_follow_first_pet`: the new anchor, or None to leave it. */
  function FollowFirstPet(visible: bool, pets: seq<Pet.Pet>): (a: Option<(int, int)>)
    ensures a.Some? <==> visible && pets != []
    ensures a.Some? ==> a.value == Anchor(pets[0])
  {
    if !visible then None
    else match FirstPet(pets)
      case None => None
      case Some(p) => Some(Anchor(p))
  }

  // ---------------------------------------------------------------------
  // Checking messages

  /** What `check_messages` shows: nothing, a tray message, or bubble text
      for some seconds with, when a pet exists, a new anchor. */
  datatype Feedback = Silent | Tray(message: string) | Bubble(text: string, seconds: real, anchor: Option<(int, int)>)

  /** Whether the fetch raises on the user's inbox, which `check_messages`
      swallows. */
  predicate FetchFails(shared: Messaging.Shared, me: string, c: Messaging.Codec) {
    exists i :: 0 <= i < |Messaging.Inbox(shared, me, c)| && Messaging.Faulty(Messaging.Inbox(shared, me, c)[i])
  }

  /** `check_messages`: unconfigured messaging reports itself only when
      asked; a failing fetch is swallowed; an empty fetch says "Inbox
      empty." only when asked; otherwise the bubble shows the messages for
      12 seconds beside the first pet. `me == ""` stands for no user. */
  method CheckMessages(shared: Option<Messaging.Shared>, me: string, now: real, force: bool,
                       show: Messaging.Value -> string, pets: seq<Pet.Pet>, c: Messaging.Codec)
    returns (fb: Feedback, after: Option<Messaging.Shared>)
    ensures shared.None? || me == "" ==> fb == (if force then Tray(NotConfigured) else Silent) && after == shared
    ensures shared.Some? && me != "" && (exists i :: 0 <= i < |Messaging.Inbox(shared.value, me, c)| && Messaging.Faulty(Messaging.Inbox(shared.value, me, c)[i])) ==>
              fb == Silent && after == shared
    ensures after.Some? && after != shared ==>
              && shared.Some? && after.value.Keys == shared.value.Keys
              && Messaging.InboxFile(after.value, me) == Some(Messaging.Encoded(Messaging.MarkAll(Messaging.Inbox(shared.value, me, c), now), c.encode))
    ensures shared.Some? && me != "" && Messaging.Pending(Messaging.Inbox(shared.value, me, c), now) == [] ==>
              fb == Silent || fb == Bubble("Inbox empty.", 3.0, None)
    ensures shared.Some? && me != "" && !FetchFails(shared.value, me, c) && Messaging.Pending(Messaging.Inbox(shared.value, me, c), now) == [] ==>
              fb == (if force then Bubble("Inbox empty.", 3.0, None) else Silent)
    ensures shared.Some? && me != "" && !FetchFails(shared.value, me, c) ==>
              after == Some(if Messaging.AnyUndelivered(Messaging.Inbox(shared.value, me, c))
                            then shared.value[Messaging.InboxName(me) := Messaging.Encoded(Messaging.MarkAll(Messaging.Inbox(shared.value, me, c), now), c.encode)]
                            else shared.value)
    ensures fb.Bubble? && fb.seconds == 12.0 ==>
              && shared.Some? && me != ""
              && Some(fb.text) == BubbleText(Messaging.Pending(Messaging.Inbox(shared.value, me, c), now), show)
              && fb.anchor == (if pets == [] then None else Some(Anchor(pets[0])))
    ensures shared.Some? && me != "" && Messaging.Pending(Messaging.Inbox(shared.value, me, c), now) != []
              && !(exists i :: 0 <= i < |Messaging.Inbox(shared.value, me, c)| && Messaging.Faulty(Messaging.Inbox(shared.value, me, c)[i])) ==>
              fb.Bubble? && fb.seconds == 12.0 && Text.IsPrefix("From ", fb.text)
  {
    if shared.None? || me == "" {
      return (if force then Tray(NotConfigured) else Silent), shared;
    }
    var f := Messaging.FetchInbox(shared.value, me, now, c);
    if f.Err? {
      return Silent, shared;
    }
    var (msgs, written) := f.value;
    if msgs == [] {
      return (if force then Bubble("Inbox empty.", 3.0, None) else Silent), Some(written);
    }
    var text := BubbleText(msgs, show);
    if text.None? {
      FetchedMessagesShow(Messaging.Inbox(shared.value, me, c), now, show);
      assert false;
      return Silent, Some(written);
    }
    var anchor := match FirstPet(pets) case None => None case Some(p) => Some(Anchor(p));
    return Bubble(text.value, 12.0, anchor), Some(written);
  }

  // ---------------------------------------------------------------------
  // Fullscreen changes

  /** The fullscreen check at the top of `draw_frame`: the stored flag
      becomes the new reading, and a refresh is requested only when the
      reading differs and a main window exists. */
  function FullscreenStep(stored: bool, reading: bool, hasMainWindow: bool): (r: (bool, bool))
    ensures r.0 == reading
    ensures r.1 <==> reading != stored && hasMainWindow
  {
    if reading != stored then (reading, hasMainWindow) else (stored, false)
  }

  /** A second frame with the same reading requests nothing. */
  lemma FullscreenSettles(stored: bool, reading: bool, hasMainWindow: bool)
    ensures !FullscreenStep(FullscreenStep(stored, reading, hasMainWindow).0, reading, hasMainWindow).1
  {
  }

  /** The refreshes requested over a run of frames. */
  function Refreshes(stored: bool, readings: seq<bool>): nat
    decreases |readings|
  {
    if readings == [] then 0
    else
      var (s, refresh) := FullscreenStep(stored, readings[0], true);
      (if refresh then 1 else 0) + Refreshes(s, readings[1..])
  }

  /** The flag a run of frames ends with. */
  function LastReading(stored: bool, readings: seq<bool>): bool {
    if readings == [] then stored else readings[|readings| - 1]
  }

  /** The reference count: the frames whose reading differs from the one
      before (the first compared with the stored flag). */
  function Flips(stored: bool, readings: seq<bool>): nat
    decreases |readings|
  {
    if readings == [] then 0
    else
      var init := readings[..|readings| - 1];
      Flips(stored, init) + (if readings[|readings| - 1] != LastReading(stored, init) then 1 else 0)
  }

  lemma {:induction false} FlipsCons(stored: bool, readings: seq<bool>)
    requires readings != []
    ensures Flips(stored, readings) == (if readings[0] != stored then 1 else 0) + Flips(readings[0], readings[1..])
    decreases |readings|
  {
    var init := readings[..|readings| - 1];
    if |readings| == 1 {
      assert init == [];
      assert readings[1..] == [];
    } else {
      FlipsCons(stored, init);
      assert init[1..] == readings[1..][..|readings[1..]| - 1];
      assert init[0] == readings[0];
      assert LastReading(stored, init) == LastReading(readings[0], readings[1..][..|readings[1..]| - 1]);
    }
  }

  /** With a main window, every flip of the fullscreen flag and nothing
      else requests a refresh. */
  lemma {:induction false} RefreshesAreFlips(stored: bool, readings: seq<bool>)
    ensures Refreshes(stored, readings) == Flips(stored, readings)
    decreases |readings|
  {
    if readings != [] {
      RefreshesAreFlips(readings[0], readings[1..]);
      FlipsCons(stored, readings);
    }
  }

  // ---------------------------------------------------------------------
  // Closing

  /** A pet's native resources: its bitmap handles and its window. */
  datatype Native = Native(bitmaps: seq<nat>, hwnd: Option<nat>)

  /** `close`: the bitmaps are released, the window destroyed and the frame
      cursor rewound; nothing else about the pet changes. */
  function Close(p: Pet.Pet, n: Native): (r: (Pet.Pet, Native))
    ensures r.0 == p.(currentFrame := 0)
    ensures r.1 == Native([], None)
  {
    (p.(currentFrame := 0), Native([], None))
  }

  /** Closing twice is closing once. */
  lemma CloseIdempotent(p: Pet.Pet, n: Native)
    ensures var (p1, n1) := Close(p, n);
            Close(p1, n1) == (p1, n1)
  {
  }
}
